=== FILE: README.md ===
# Layered storage for OCFL: a Dafny model

This project models the core of `ocfl-java-extensions` (DANS). That library
stores OCFL repositories in *layers*. A layer is a staging directory. It
accepts writes while it is the open top layer. After it is closed it is
packed into a zip file. A database index (`listing_record`) records, per
layer, which files and directories exist. It also stores the bytes of
inventory files. Listings and reads look at the greatest layer that has a
record for a path.

The repository holds two generations of most classes side by side. One
is the `ocflext` package; the other is `ocflext/layerstore`. Each is
modelled as written. The model does not reconcile them.

| module | file | what it models |
|---|---|---|
| `Outcomes` | `outcomes.dfy` | `Result`/`Option` and the Java exceptions as values |
| `JavaStrings` | `java_strings.dfy` | `String.split("/")`, `String.join("/")`, `isBlank`, the root-down prefix walk |
| `JavaPaths` | `java_paths.dfy` | `Path.of`, `resolve`, `normalize`, `relativize`, `startsWith`, the `getParent` chain |
| `JavaLongs` | `java_longs.dfy` | `Long.toString` and its inverse, which name layer directories and zip files |
| `Like` | `like.dfy` | SQL `LIKE` with `%` and `_`, and the two pattern shapes the queries use |
| `Records` | `records.dfy` | the `listing_record` table, the upsert, per-path shadowing (intended and as queried) |
| `Queries` | `queries.dfy` | the JPQL named queries of `ListingRecord` and `ItemRecord` |
| `ListingDatabase` | `listing_db.dfy` | `ocflext/LayerDatabaseImpl` |
| `ItemDatabase` | `item_db.dfy` | `layerstore/LayerDatabaseImpl` and `ItemRecord.toItem` |
| `Listings` | `listings.dfy` | `ListingRecord.toListing` and `Util.fromItem` |
| `FileTrees`, `Files` | `filetree.dfy`, `files.dfy` | a staging directory as a tree and as a path-keyed file system; the `Files.*` calls used |
| `Zip` | `zip_archive.dfy` | `ZipArchive`: pre-order packing, unpacking, the `archived` flag, entry lookup |
| `Layers` | `layer.dfy` | `LayerImpl`: the open → closed → archived state machine, `validatePath`, reads |
| `LayerManager` | `layer_manager.dfy` | `layerstore/LayerManagerImpl`: registry, top layer, rollover, archiving queue |
| `Inventories` | `inventory.dfy` | `InventoryFilter` and `StoreInventoryDbBackedContentManager` |

Every operation is a pure function. A mutator returns the new state with
its outcome; an exception is an `Err` value. The database table is a
sequence of rows in table order. A query result is the order-preserving
selection of the matching rows. Each DAO call is all-or-nothing: a failed
call leaves the table as it was.

Where the code and its tests disagree, the model follows the code.
`LayerImplCreateDirectoriesTest.java:50-54` expects "Path cannot be empty"
for `createDirectories("")`. `validatePath` (`LayerImpl.java:184-193`)
rejects only null and blank-but-non-empty paths, so `""` passes and
denotes the staging directory itself. `Layers.ValidatePathExamples` states
this.

## Model

| member | source | states |
|---|---|---|
| Records.Insert | src/main/java/nl/knaw/dans/lib/ocflext/LayerDatabaseImpl.java:33-36 | persisting a record without an identity appends exactly one row, which gets the next generated id; the table stays valid (unique ids below the generator) |
| Records.Save | src/main/java/nl/knaw/dans/lib/ocflext/LayerDatabaseImpl.java:33-46 | upsert: no id, or an id not in the table, appends a row with a fresh id; a stored id replaces that row in place, and every other row is unchanged |
| Records.SaveAllLaw | src/main/java/nl/knaw/dans/lib/ocflext/layerstore/LayerDatabaseImpl.java:38-55 | `saveRecords` upserts in argument order: every stored row keeps its place and becomes the last argument naming its identity; when the given identities are all below the generator, the rows appended are exactly the new arguments in order, under consecutive fresh identities, and the generator advances once per new argument |
| Records.SaveTwoNew | src/test/java/nl/knaw/dans/lib/ocflext/layerstore/LayerDatabaseImplSaveRecordsTest.java:44-60 | saving two records without identity into an empty table stores both, in order, with consecutive identities |
| Records.RemoveIdValid | src/main/java/nl/knaw/dans/lib/ocflext/LayerDatabaseImpl.java:137-142 | deleting the row with one identity keeps the table valid |
| Records.ShadowLaw | src/test/java/nl/knaw/dans/lib/ocflext/LayerDatabaseImplListDirectoryTest.java:94-112 | the intended shadowing keeps exactly the greatest-layer rows of each path; every path with rows keeps at least one, and all kept rows of a path share one layer |
| Records.NewestOf | src/main/java/nl/knaw/dans/lib/ocflext/ListingRecord.java:54-64 | every row's path has a greatest-layer row (the per-path `MAX(layerId)` exists) |
| Records.ShadowWithinLiteral | src/main/java/nl/knaw/dans/lib/ocflext/ListingRecord.java:54-64 | every row the intended rule keeps is also kept by the literal `layerId IN (per-path maxima)` filter |
| Records.LiteralAgreement | src/main/java/nl/knaw/dans/lib/ocflext/ListingRecord.java:54-64 | the literal filter equals the intended one exactly when every row whose layer is some path's maximum is the maximum of its own path |
| Records.LiteralAgreesOnOnePath | src/main/java/nl/knaw/dans/lib/ocflext/ListingRecord.java:81-90 | on the rows of a single path (as in `isContentStoredInDatabase`) the literal filter is the intended one |
| Records.LiteralCounterexample | src/main/java/nl/knaw/dans/lib/ocflext/ListingRecord.java:54-64 | with rows a@1, a@2, b@1 the literal filter keeps a@1 and a@2, and a@1 is not a greatest-layer row |
| Records.ExtendsOne | src/main/java/nl/knaw/dans/lib/ocflext/LayerDatabaseImpl.java:101-109 | saving one new directory row appends exactly that row and keeps every existing layer row |
| Records.ExtendsCompose | src/main/java/nl/knaw/dans/lib/ocflext/LayerDatabaseImpl.java:86-111 | one directory added for the first prefix, then directories for the rest, together add directories for all the prefixes |
| Queries.ByPath | src/main/java/nl/knaw/dans/lib/ocflext/ListingRecord.java:34-37 | `getByPath` returns exactly the rows with that path |
| Queries.TopLayerId | src/main/java/nl/knaw/dans/lib/ocflext/layerstore/ItemRecord.java:35-38 | `MAX(layerId)` is NULL exactly on an empty table, and is otherwise the layer of some row and at least every row's layer |
| Queries.DistinctLayerIds | src/main/java/nl/knaw/dans/lib/ocflext/ListingRecord.java:75-80 | `SELECT DISTINCT layerId` lists each layer of the selected rows once and nothing else |
| Queries.FindLayersContainingLaw | src/main/java/nl/knaw/dans/lib/ocflext/layerstore/ItemRecord.java:77-82 | `findLayersContaining(p)` lists exactly the layers that have a row at `p`, without repetition, and is empty exactly when no row has path `p` |
| Queries.ContentStoredLaw | src/main/java/nl/knaw/dans/lib/ocflext/ListingRecord.java:81-90 | content is stored in the database exactly when some greatest-layer row of the path has content |
| Queries.HasPathLikePrefix | src/main/java/nl/knaw/dans/lib/ocflext/ListingRecord.java:91-98 | `hasPathLike(p + "%")` holds exactly when some row's path starts with `p` |
| Queries.InDirectoryIsChild | src/main/java/nl/knaw/dans/lib/ocflext/ListingRecord.java:54-64 | the pair `LIKE d%` and `NOT LIKE d%/%` selects exactly the direct children of directory `d` |
| Queries.InRootIsTopLevel | src/main/java/nl/knaw/dans/lib/ocflext/layerstore/ItemRecord.java:45-55 | the root query selects exactly the non-empty paths without a '/' |
| Queries.ListDirectoryQueryLaw | src/main/java/nl/knaw/dans/lib/ocflext/ListingRecord.java:54-64 | the directory query lists only direct children, and lists every greatest-layer row of each child |
| Queries.ListDirectoryIntendedLaw | src/test/java/nl/knaw/dans/lib/ocflext/LayerDatabaseImplListDirectoryTest.java:94-112 | the intended listing holds exactly the greatest-layer rows of the direct children |
| Queries.ListRecursiveQueryLaw | src/main/java/nl/knaw/dans/lib/ocflext/ListingRecord.java:65-74 | the recursive query lists only rows below the prefix, and every greatest-layer row below it |
| Queries.ListRootDirectoryLaw | src/main/java/nl/knaw/dans/lib/ocflext/ListingRecord.java:43-53 | the root query lists only top-level rows, and every greatest-layer top-level row |
| Queries.DirectoryQueryListsRootItself | src/main/java/nl/knaw/dans/lib/ocflext/ListingRecord.java:54-64 | with directory argument "" the directory query also lists a root record with path "" |
| Queries.RootListingCounterexample | src/main/java/nl/knaw/dans/lib/ocflext/layerstore/ItemRecord.java:45-55 | with rows a@1, a@2, b@1 the root listing returns `a` twice, once from a layer that is not its greatest |
| Like.PercentMatchesAll | src/main/java/nl/knaw/dans/lib/ocflext/ListingRecord.java:65-74 | the pattern `%` matches every path |
| Like.PrefixPattern | src/main/java/nl/knaw/dans/lib/ocflext/ListingRecord.java:65-74 | for a literal `p`, `LIKE p%` holds exactly when the path starts with `p` |
| Like.SlashPattern | src/main/java/nl/knaw/dans/lib/ocflext/ListingRecord.java:43-53 | `LIKE %/%` holds exactly when the path contains a '/' |
| Like.NestedPattern | src/main/java/nl/knaw/dans/lib/ocflext/ListingRecord.java:54-64 | `LIKE p%/%` holds exactly when the path starts with `p` and has a '/' after it |
| Like.LiteralHead | src/main/java/nl/knaw/dans/lib/ocflext/ListingRecord.java:54-74 | a literal pattern head matches exactly the paths with that prefix, the rest of the pattern judging the remainder |
| ListingDatabase.PreprocessDirectoryArgument | src/main/java/nl/knaw/dans/lib/ocflext/LayerDatabaseImpl.java:64-83 | null → IllegalArgument; blank → unchanged; no records → NoSuchFile; a non-directory record → NotDirectory; otherwise the path with exactly one trailing '/' |
| ListingDatabase.ListDirectoryLaw | src/main/java/nl/knaw/dans/lib/ocflext/LayerDatabaseImpl.java:48-55 | `listDirectory` fails exactly when its argument is rejected; it then lists only direct children of the directory, and every greatest-layer child row |
| ListingDatabase.ListDirectoryIntendedLaw | src/test/java/nl/knaw/dans/lib/ocflext/LayerDatabaseImplListDirectoryTest.java:94-112 | the intended `listDirectory` lists exactly the greatest-layer rows of the direct children |
| ListingDatabase.ListRecursiveLaw | src/main/java/nl/knaw/dans/lib/ocflext/LayerDatabaseImpl.java:57-62 | `listRecursive` fails exactly when the argument is rejected; it lists only rows below the directory and every greatest-layer row below it, never the directory itself |
| ListingDatabase.ListRootListsItself | src/main/java/nl/knaw/dans/lib/ocflext/LayerDatabaseImpl.java:48-55 | listing "" includes a greatest-layer root record at path "" |
| ListingDatabase.AddOneLaw | src/main/java/nl/knaw/dans/lib/ocflext/LayerDatabaseImpl.java:101-109 | one step adds a directory row in the layer only if that layer has none at the prefix; it adds no file and drops no layer row |
| ListingDatabase.AddDirsLaw | src/main/java/nl/knaw/dans/lib/ocflext/LayerDatabaseImpl.java:85-111 | the loop fails, with IllegalArgument, exactly when some prefix has a non-directory record; otherwise it adds only new directory rows in the layer, and every prefix ends up with one |
| ListingDatabase.AddDirectoriesLaw | src/main/java/nl/knaw/dans/lib/ocflext/LayerDatabaseImpl.java:85-111 | `addDirectories(l, "a/b/c")` fails exactly when a record of `a`, `a/b` or `a/b/c` in any layer is not a directory; otherwise it appends, once per prefix lacking a row in `l`, a content-less directory row in `l`, and every prefix has a row in `l` afterwards |
| ListingDatabase.AddDirectoriesIdempotent | src/test/java/nl/knaw/dans/lib/ocflext/LayerDatabaseImplAddDirectoriesTest.java:53-99 | repeating `addDirectories` with the same layer and path changes nothing |
| ListingDatabase.AddDirectoriesNewLayer | src/test/java/nl/knaw/dans/lib/ocflext/LayerDatabaseImplAddDirectoriesTest.java:101-140 | in a layer with no rows yet, every prefix gets a new row, whatever other layers hold |
| ListingDatabase.AddFile | src/main/java/nl/knaw/dans/lib/ocflext/LayerDatabaseImpl.java:126-135 | `addFile` appends exactly one content-less file row in the layer, with no conflict check, and changes nothing else |
| ListingDatabase.AddFileUndone | src/main/java/nl/knaw/dans/lib/ocflext/LayerDatabaseImpl.java:126-142 | deleting the record `addFile` stored gives back the rows as they were, with only the identity generator advanced |
| ListingDatabase.DeleteRecordsLaw | src/main/java/nl/knaw/dans/lib/ocflext/LayerDatabaseImpl.java:137-142 | `deleteRecords` throws NonUniqueObjectException exactly when two records name one identity but differ; otherwise it succeeds exactly when every named identity is stored, and then removes exactly the named rows and keeps the table valid; any other failure is the flush's StaleStateException |
| ListingDatabase.DeleteSameTwice | src/main/java/nl/knaw/dans/lib/ocflext/LayerDatabaseImpl.java:137-142 | deleting one stored record twice in one call is the same as deleting it once, because the session ignores an instance it already deleted; a different record with that identity throws |
| ListingDatabase.WrapLong | src/main/java/nl/knaw/dans/lib/ocflext/LayerDatabaseImpl.java:160 | the `long` subtraction wraps into the 64-bit range and is exact inside it |
| ListingDatabase.NarrowToInt | src/main/java/nl/knaw/dans/lib/ocflext/LayerDatabaseImpl.java:160 | the `(int)` cast lands in the 32-bit range, is exact inside it, and is congruent modulo 2^32 |
| ListingDatabase.ReadContentWith | src/main/java/nl/knaw/dans/lib/ocflext/LayerDatabaseImpl.java:151-162 | `readContentFromDatabase` throws IllegalArgument exactly when the path has no rows or a non-file row; otherwise it returns the content of one of the path's rows |
| ListingDatabase.ReadContentNewest | src/main/java/nl/knaw/dans/lib/ocflext/LayerDatabaseImpl.java:151-162 | with a comparator that ranks the path's rows by layer, the content read is that of a greatest-layer row |
| ListingDatabase.ReadContentIntendedNewest | src/main/java/nl/knaw/dans/lib/ocflext/LayerDatabaseImpl.java:151-162 | comparing layer ids without narrowing, the content read is that of a greatest-layer row |
| ListingDatabase.ReadContentNewestWhenClose | src/main/java/nl/knaw/dans/lib/ocflext/LayerDatabaseImpl.java:160 | the narrowed comparator still reads a greatest-layer row when the path's layer ids lie within 2^31 of each other |
| ListingDatabase.NarrowedCompareCounterexample | src/main/java/nl/knaw/dans/lib/ocflext/LayerDatabaseImpl.java:160 | two layers about 37 days apart: the code as written reads the older layer's content, the intended comparison reads the newer |
| ItemDatabase.ToItems | src/main/java/nl/knaw/dans/lib/ocflext/layerstore/ItemRecord.java:120-122 | each record maps, in order, to the item with its path and type |
| ItemDatabase.ItemsOf | src/main/java/nl/knaw/dans/lib/ocflext/layerstore/ItemRecord.java:120-122 | the items are exactly the images of the records |
| ItemDatabase.DeleteRecordsByIdLaw | src/main/java/nl/knaw/dans/lib/ocflext/layerstore/LayerDatabaseImpl.java:57-62 | `deleteRecordsById` succeeds exactly when every id is stored and no id repeats; it then removes exactly those rows, and no ids changes nothing |
| ItemDatabase.PreprocessDirectoryArgument | src/main/java/nl/knaw/dans/lib/ocflext/layerstore/LayerDatabaseImpl.java:159-178 | null → IllegalArgument; blank → unchanged; no records → "No such directory"; a non-directory record → "Not a directory"; otherwise exactly one trailing '/' |
| ItemDatabase.ListRootNeverListsItself | src/main/java/nl/knaw/dans/lib/ocflext/layerstore/LayerDatabaseImpl.java:64-78 | listing "" uses the root query: it succeeds, lists only non-empty top-level paths, and lists every greatest-layer top-level row |
| ItemDatabase.ListDirectoryLaw | src/main/java/nl/knaw/dans/lib/ocflext/layerstore/LayerDatabaseImpl.java:64-78 | for a non-root directory the listing fails exactly when the argument is rejected, lists only direct children, and lists every greatest-layer child |
| ItemDatabase.AddDirectoryPrefixesWalk | src/main/java/nl/knaw/dans/lib/ocflext/layerstore/LayerDatabaseImpl.java:111-117 | the walk visits "" first, then exactly the '/'-boundary prefixes of the path, each once |
| ItemDatabase.AddDirLoopFails | src/main/java/nl/knaw/dans/lib/ocflext/layerstore/LayerDatabaseImpl.java:119-125 | the loop fails, with IllegalState, exactly when some visited path has records of different types |
| ItemDatabase.AddDirLoopExtends | src/main/java/nl/knaw/dans/lib/ocflext/layerstore/LayerDatabaseImpl.java:87-109 | a successful loop over any walk appends exactly the returned records: directories in the top layer, one per visited path lacking a top-layer row, a repeated path finding the row made for it |
| ItemDatabase.AddDirectoryFails | src/main/java/nl/knaw/dans/lib/ocflext/layerstore/LayerDatabaseImpl.java:87-109 | on a non-empty table `addDirectory` fails exactly when the root or a prefix has mixed record types |
| ItemDatabase.AddDirectoryLaw | src/main/java/nl/knaw/dans/lib/ocflext/layerstore/LayerDatabaseImpl.java:87-109 | for any path, a successful `addDirectory` appends the returned records only: distinct-path directories in `MAX(layerId)` at walked paths, each lacking a row there before, and every walked path has a top-layer row afterwards; for a well-formed path the walked paths are the root and the prefixes |
| ItemDatabase.AddDirectoryMixedFails | src/main/java/nl/knaw/dans/lib/ocflext/layerstore/LayerDatabaseImpl.java:87-125 | for any path, a mixed root or walked path makes `addDirectory` throw, and every failure on a non-empty table is an IllegalStateException |
| ItemDatabase.AddDirLoopMixedFails | src/main/java/nl/knaw/dans/lib/ocflext/layerstore/LayerDatabaseImpl.java:87-125 | a mixed visited path makes the loop fail, since added directory rows never unmix a path, and the loop only fails with IllegalState |
| ItemDatabase.PrefixesOfRootedA | src/main/java/nl/knaw/dans/lib/ocflext/layerstore/LayerDatabaseImpl.java:111-117 | the walk of "/a" visits the root twice, then `a` |
| ItemDatabase.AddDirectoryEmptyTable | src/main/java/nl/knaw/dans/lib/ocflext/layerstore/LayerDatabaseImpl.java:127-130 | on an empty table `getTopLayerId` unboxes NULL and `addDirectory` throws |
| ItemDatabase.AddDirectoryAgain | src/main/java/nl/knaw/dans/lib/ocflext/layerstore/LayerDatabaseImpl.java:87-109 | for any path, when no visited path holds a file, repeating `addDirectory` adds nothing and changes nothing |
| ItemDatabase.AddDirectoryOverFile | src/main/java/nl/knaw/dans/lib/ocflext/layerstore/LayerDatabaseImpl.java:119-125 | unlike the other variant, a file `a` in an older layer does not stop `addDirectory("a")`: it adds a directory `a` in the top layer |
| ItemDatabase.AddDirectoryOverFileAgain | src/main/java/nl/knaw/dans/lib/ocflext/layerstore/LayerDatabaseImpl.java:119-125 | once `a` is both file and directory, `addDirectory("a")` throws IllegalStateException |
| Listings.ToListingDescendant | src/main/java/nl/knaw/dans/lib/ocflext/ListingRecord.java:126-133 | for a record below `relativeTo`, `toListing` keeps the type, and resolving its path against `relativeTo` gives the record's path back |
| Listings.ToListingOutside | src/main/java/nl/knaw/dans/lib/ocflext/ListingRecord.java:126-133 | a record not below `relativeTo` throws IllegalArgument |
| Listings.FromItemDescendant | src/main/java/nl/knaw/dans/lib/ocflext/Util.java:32-41 | for an item below `relativeToPath`, File maps to file and Directory to directory, and joining `relativeToPath` with the listing path gives the item path back |
| Listings.FromItemAgrees | src/main/java/nl/knaw/dans/lib/ocflext/Util.java:32-41 | below the base, `fromItem` and `toListing` give the same listing |
| Listings.FromItemOutside | src/main/java/nl/knaw/dans/lib/ocflext/Util.java:32-41 | `fromItem` has no descendant check: a non-descendant yields a path starting with `..`, where `toListing` throws |
| Listings.MixedRootedness | src/main/java/nl/knaw/dans/lib/ocflext/Util.java:33-35 | an absolute item against a relative base, or the reverse, throws in both mappings |
| Listings.BelowRoundTrip | src/main/java/nl/knaw/dans/lib/ocflext/Util.java:33-35 | the names below the base survive showing and parsing and resolve back to the child |
| Listings.ChildExample | src/main/java/nl/knaw/dans/lib/ocflext/Util.java:32-41 | item `d/a` relative to `d/` is the file listing `a` in both mappings |
| Listings.SiblingExample | src/main/java/nl/knaw/dans/lib/ocflext/ListingRecord.java:126-133 | item `e` relative to `d/` is `../e` for `fromItem` and an IllegalArgument for `toListing` |
| JavaPaths.RelativizeDescendant | src/main/java/nl/knaw/dans/lib/ocflext/Util.java:33-35 | relativizing a descendant gives the remaining names, and base plus those names is the child |
| JavaPaths.RelativizeOutside | src/main/java/nl/knaw/dans/lib/ocflext/ListingRecord.java:126-133 | relativizing a non-descendant gives a relative path whose first name is `..` |
| JavaPaths.ParseShow | src/main/java/nl/knaw/dans/lib/ocflext/ListingRecord.java:126-133 | a path with proper names parses back from its string form |
| JavaPaths.NormalizeAbsoluteClean | src/main/java/nl/knaw/dans/lib/ocflext/LayerImpl.java:184-193 | normalising an absolute path leaves no `.` or `..` names |
| JavaPaths.NormalizeBelowBase | src/main/java/nl/knaw/dans/lib/ocflext/LayerImpl.java:184-193 | when the relative names never climb above the base, normalising base plus names is base plus their lexical normal form |
| JavaStrings.WalkVisitsBoundaryPrefixes | src/main/java/nl/knaw/dans/lib/ocflext/LayerDatabaseImpl.java:86-93 | the root-down walk over `path.split("/")` visits exactly the '/'-boundary prefixes of the path |
| JavaStrings.WalkDistinct | src/main/java/nl/knaw/dans/lib/ocflext/layerstore/LayerDatabaseImpl.java:92-94 | the walk's paths are non-empty and pairwise distinct |
| JavaStrings.SplitJoin | src/main/java/nl/knaw/dans/lib/ocflext/layerstore/LayerDatabaseImpl.java:111-117 | joining the components of a well-formed path with '/' gives the path back |
| JavaLongs.LongRoundTrip | src/main/java/nl/knaw/dans/lib/ocflext/layerstore/LayerManagerImpl.java:51-52 | `Long.parseLong(Long.toString(id)) == id`: a layer's directory name identifies it |
| JavaLongs.LongToStringInjective | src/main/java/nl/knaw/dans/lib/ocflext/layerstore/LayerManagerImpl.java:52 | distinct layer ids give distinct staging directory and zip file names |
| Files.CreateDirectoriesLaw | src/main/java/nl/knaw/dans/lib/ocflext/LayerImpl.java:48-54 | `Files.createDirectories` fails exactly when the path or an ancestor is a file; otherwise it adds exactly the missing directories and changes no existing entry |
| Files.CopyLaw | src/main/java/nl/knaw/dans/lib/ocflext/LayerImpl.java:121-127 | a replacing copy fails exactly on a non-empty directory or a missing parent directory; otherwise only the target changes, to the new bytes |
| Files.DeleteLaw | src/main/java/nl/knaw/dans/lib/ocflext/LayerImpl.java:71-81 | `Files.delete` fails exactly on a missing path or a non-empty directory, and otherwise removes just that path |
| Files.MoveLaw | src/main/java/nl/knaw/dans/lib/ocflext/LayerImpl.java:169-175 | a move carries every entry below the source, unchanged, to the same place below the target, leaves nothing at or below the source outside the target, and leaves everything outside both as it was |
| Files.MoveIntoLaw | src/main/java/nl/knaw/dans/lib/ocflext/LayerImpl.java:129-139 | moving an outside tree in adds it at the destination, keeps every existing entry, and adds nothing elsewhere |
| Files.PruneCoherent | src/main/java/nl/knaw/dans/lib/ocflext/LayerImpl.java:177-182 | deleting a directory recursively keeps every entry's parent a directory |
| FileTrees.ToFsHas | src/main/java/nl/knaw/dans/lib/ocflext/ZipArchive.java:112-136 | every top-level node of a staging tree is in its file system, as a file with its bytes or as a directory |
| Zip.Fresh | src/main/java/nl/knaw/dans/lib/ocflext/ZipArchive.java:43-44 | a new archive is not archived and has no zip file |
| Zip.ArchiveFromLaw | src/main/java/nl/knaw/dans/lib/ocflext/ZipArchive.java:81-110 | `archiveFrom` sets `archived` only when every entry was written; a failure leaves the flag as it was and a proper prefix of the entries on disk |
| Zip.ForestEntriesCount | src/main/java/nl/knaw/dans/lib/ocflext/ZipArchive.java:112-136 | one entry per file and per directory of the staging tree |
| Zip.EntryName | src/main/java/nl/knaw/dans/lib/ocflext/ZipArchive.java:113 | an entry's name is its path's names joined with '/', and parses back to them |
| Zip.ForestPreOrder | src/main/java/nl/knaw/dans/lib/ocflext/ZipArchive.java:112-136 | every entry's parent directory entry comes before it |
| Zip.ExtractForest | src/main/java/nl/knaw/dans/lib/ocflext/ZipArchive.java:54-79 | unpacking the entries of a tree into a directory that has room for it adds exactly that tree, without failure |
| Zip.RoundTrip | src/test/java/nl/knaw/dans/lib/ocflext/ZipArchiveTest.java:64-97 | archiving a staging tree and unarchiving into an empty directory rebuilds exactly that tree and clears `archived` |
| Zip.InputStreamFor | src/main/java/nl/knaw/dans/lib/ocflext/ZipArchive.java:46-52 | the stream read is that of the first entry stored under that name, a file under its name and a directory under its name plus '/', empty for a directory; there is none exactly when no entry is stored under that name |
| Zip.DirectoryEntryRead | src/main/java/nl/knaw/dans/lib/ocflext/ZipArchive.java:46-52 | for a packed directory `d` holding `f`, `d/` reads an empty stream, `d` reads nothing, and `d/f` reads the file |
| Zip.ForestEntriesRead | src/main/java/nl/knaw/dans/lib/ocflext/ZipArchive.java:46-52 | every file of the staging tree is read back from the archive by its joined path |
| Zip.TestStagingEntries | src/test/java/nl/knaw/dans/lib/ocflext/ZipArchiveTest.java:57-58 | three files in two nested directories give five entries, each directory before its contents |
| Layers.NewLayer | src/main/java/nl/knaw/dans/lib/ocflext/LayerImpl.java:36-46 | a new layer is open and keeps its id and archive |
| Layers.Close | src/main/java/nl/knaw/dans/lib/ocflext/LayerImpl.java:101-104 | after `close` the layer is closed |
| Layers.ClosedRefusesMutators | src/main/java/nl/knaw/dans/lib/ocflext/LayerImpl.java:61-64 | every mutator of a closed layer throws the closed-layer IllegalStateException and changes nothing |
| Layers.ClosedStaysClosed | src/main/java/nl/knaw/dans/lib/ocflext/LayerImpl.java:101-104 | no operation reopens a closed layer, and closing again changes nothing |
| Layers.ArchiveRefusals | src/main/java/nl/knaw/dans/lib/ocflext/LayerImpl.java:106-119 | `archive` of an open layer, or of an archived one, throws IllegalState and changes nothing |
| Layers.ArchiveSuccess | src/main/java/nl/knaw/dans/lib/ocflext/LayerImpl.java:106-114 | archiving a closed layer with the listing of its own staging directory succeeds: the layer is closed and archived, the staging directory deleted, and the zip holds the entries of the tree the staging directory held |
| Layers.ArchiveKeepsContents | src/main/java/nl/knaw/dans/lib/ocflext/LayerImpl.java:106-114 | unarchiving an archived layer gives back the staging directory it had |
| Layers.ArchiveFailure | src/main/java/nl/knaw/dans/lib/ocflext/LayerImpl.java:106-119 | a write failure during packing leaves the layer not archived and its staging directory in place, and the IOException itself reaches the caller |
| Layers.CreateDirectoriesKeepsInvariant | src/main/java/nl/knaw/dans/lib/ocflext/LayerImpl.java:48-54 | `createDirectories` keeps the layer invariant: archived implies closed, and every entry's parent is a directory |
| Layers.DeleteFilesKeepsInvariant | src/main/java/nl/knaw/dans/lib/ocflext/LayerImpl.java:71-81 | `deleteFiles` keeps the layer invariant, including after a failure part-way through |
| Layers.WriteKeepsInvariant | src/main/java/nl/knaw/dans/lib/ocflext/LayerImpl.java:121-127 | `write` keeps the layer invariant |
| Layers.MoveDirectoryIntoKeepsInvariant | src/main/java/nl/knaw/dans/lib/ocflext/LayerImpl.java:129-139 | `moveDirectoryInto` keeps the layer invariant |
| Layers.MoveDirectoryInternalKeepsInvariant | src/main/java/nl/knaw/dans/lib/ocflext/LayerImpl.java:169-175 | `moveDirectoryInternal` keeps the layer invariant |
| Layers.DeleteDirectoryKeepsInvariant | src/main/java/nl/knaw/dans/lib/ocflext/LayerImpl.java:177-182 | `deleteDirectory` keeps the layer invariant |
| Layers.ArchiveKeepsInvariant | src/main/java/nl/knaw/dans/lib/ocflext/LayerImpl.java:106-114 | `archive`, successful or not, keeps the layer invariant |
| Layers.ValidatePathRefusals | src/main/java/nl/knaw/dans/lib/ocflext/LayerImpl.java:184-193 | a null path and a blank non-empty path are rejected with their messages |
| Layers.ValidatePathConfined | src/main/java/nl/knaw/dans/lib/ocflext/LayerImpl.java:184-193 | an accepted path normalises to the staging directory followed by the returned names, none of which is `.` or `..` |
| Layers.ValidatePathInside | src/main/java/nl/knaw/dans/lib/ocflext/LayerImpl.java:184-193 | a relative path whose `..` never climbs above its start is accepted and denotes its lexical normal form below the staging directory |
| Layers.ValidatePathExamples | src/test/java/nl/knaw/dans/lib/ocflext/LayerImplCreateDirectoriesTest.java:50-54 | paths that climb out are rejected as outside the staging directory, a plain path is accepted, and "" denotes the staging directory |
| Layers.ReadStaged | src/main/java/nl/knaw/dans/lib/ocflext/LayerImpl.java:87-99 | before archiving, a staged file is read from staging, open or closed, and `fileExists` reports it |
| Layers.ReadArchived | src/main/java/nl/knaw/dans/lib/ocflext/LayerImpl.java:87-99 | after archiving with the listing of its staging directory, every file the staging directory held is read from the zip by its joined path |
| Layers.ReadNotConfined | src/main/java/nl/knaw/dans/lib/ocflext/LayerImpl.java:87-99 | `read` does not validate: `../<name>` is refused by `validatePath` as outside the staging directory, yet an unarchived layer reads it from the sibling file on disk |
| Layers.ReadInEveryState | src/main/java/nl/knaw/dans/lib/ocflext/LayerImpl.java:87-99 | a file written to the staging tree reads the same when open, closed and archived |
| Layers.DeleteEachAppend | src/main/java/nl/knaw/dans/lib/ocflext/LayerImpl.java:71-81 | the delete loop over `a + b` deletes `a` first and stops at the first failure |
| Layers.DeleteEachRemoves | src/main/java/nl/knaw/dans/lib/ocflext/LayerImpl.java:71-81 | the loop only removes entries, and on success every listed path is gone |
| Layers.DeleteFilesOrder | src/main/java/nl/knaw/dans/lib/ocflext/LayerImpl.java:71-81 | the checks run in order: closed, null list, then each path; deletions before a failing path stay |
| LayerManager.CreateLaw | src/main/java/nl/knaw/dans/lib/ocflext/layerstore/LayerManagerImpl.java:41-46 | construction leaves one open top layer, registered under the clock reading, over `<stagingRoot>/<id>` and `<archiveRoot>/<id>.zip`, with nothing queued |
| LayerManager.NewTopLayerLaw | src/main/java/nl/knaw/dans/lib/ocflext/layerstore/LayerManagerImpl.java:48-67 | `newTopLayer` makes a fresh open layer the top, registered under the clock reading; the old top, if any, is closed and queued for archiving; no other layer changes |
| LayerManager.NewTopLayerKeepsInvariant | src/main/java/nl/knaw/dans/lib/ocflext/layerstore/LayerManagerImpl.java:48-67 | rollover at a clock reading no layer is registered under keeps the registry invariant: one open registered top, every layer registered under its id over the locations named after it, queued layers closed and not archived, every layer's own invariant |
| LayerManager.SeparateLocations | src/main/java/nl/knaw/dans/lib/ocflext/layerstore/LayerManagerImpl.java:51-53 | under the invariant no two layers share a staging directory or a zip file |
| LayerManager.NamesOfDistinctIds | src/main/java/nl/knaw/dans/lib/ocflext/layerstore/LayerManagerImpl.java:52 | distinct ids name distinct staging directories and distinct zip files |
| LayerManager.SameMillisecondRollover | src/main/java/nl/knaw/dans/lib/ocflext/layerstore/LayerManagerImpl.java:49-66 | two rollovers in one millisecond leave the queued old top and the new top over the same staging directory and zip file, the map reaching only the new one, and the invariant lost |
| LayerManager.RunNextKeepsInvariant | src/main/java/nl/knaw/dans/lib/ocflext/layerstore/LayerManagerImpl.java:55-66 | running the next archiving task, successful or not, keeps the invariant and leaves the top and registry alone |
| LayerManager.RunNextArchives | src/main/java/nl/knaw/dans/lib/ocflext/layerstore/LayerManagerImpl.java:55-66 | a queued layer packed with the listing of its staging directory, without a write failure, ends archived with the entries of that tree in its zip and its staging directory deleted, and leaves the queue |
| LayerManager.ArchiveKeepsClosed | src/main/java/nl/knaw/dans/lib/ocflext/LayerImpl.java:106-114 | archiving changes neither the closed flag, nor the id, nor the staging location |
| LayerManager.MaxId | src/main/java/nl/knaw/dans/lib/ocflext/layerstore/LayerManagerImpl.java:72 | the greatest registered id is registered and bounds every other |
| LayerManager.GetTopLayerLaw | src/main/java/nl/knaw/dans/lib/ocflext/layerstore/LayerManagerImpl.java:69-78 | a cached top is returned as is; without one the greatest-id layer is returned and cached; with no layers it throws "No top layer found" |
| LayerManager.GetTopLayerOpen | src/main/java/nl/knaw/dans/lib/ocflext/layerstore/LayerManagerImpl.java:69-78 | under the invariant, `getTopLayer` changes nothing and returns an open layer registered under its id |
| LayerManager.GetLayerAtLaw | src/main/java/nl/knaw/dans/lib/ocflext/layerstore/LayerManagerImpl.java:80-93 | a registered id returns its layer; an unregistered id whose staging directory or probed zip file exists is reconstructed open over them and registered; any other id throws "No layer found with id"; this holds for the probe as written (`<id>`) and as corrected (`<id>.zip`) |
| LayerManager.BareNameIsNoZipFile | src/main/java/nl/knaw/dans/lib/ocflext/layerstore/LayerManagerImpl.java:85-86 | the path `getLayer` probes, `<archiveRoot>/<id>`, is never a zip file `newTopLayer` writes |
| LayerManager.ArchivedLayerNotFound | src/main/java/nl/knaw/dans/lib/ocflext/layerstore/LayerManagerImpl.java:80-93 | as written, a layer that exists only as its zip file is not found |
| LayerManager.ArchivedLayerFound | src/main/java/nl/knaw/dans/lib/ocflext/layerstore/LayerManagerImpl.java:80-93 | probing `<id>.zip`, a layer that exists only as its zip file is reconstructed over that zip file |
| LayerManager.RestartCounterexample | src/main/java/nl/knaw/dans/lib/ocflext/layerstore/LayerManagerImpl.java:80-93 | after a restart with only `archive/1.zip` on disk, `getLayer(1)` throws as written and succeeds when corrected |
| LayerManager.ReconstructedLayerIsOpen | src/main/java/nl/knaw/dans/lib/ocflext/layerstore/LayerManagerImpl.java:85-88 | a reconstructed layer is open without being the top, so the single-open-layer invariant no longer holds |
| Inventories.AncestorWalk | src/main/java/nl/knaw/dans/lib/ocflext/InventoryFilter.java:39-42 | the parent walk finds a name exactly when it is among the parents; otherwise it ends normally for a relative path and throws at the root of an absolute one |
| Inventories.AcceptLaw | src/main/java/nl/knaw/dans/lib/ocflext/InventoryFilter.java:33-36 | under the pattern as compiled and as corrected, `accept` on a relative path holds exactly for `inventory.json` or a sidecar name with no `content` directory above it |
| Inventories.AcceptRejectsContent | src/main/java/nl/knaw/dans/lib/ocflext/InventoryFilter.java:33-42 | under either pattern, nothing below a `content` directory is accepted |
| Inventories.AcceptAbsolute | src/main/java/nl/knaw/dans/lib/ocflext/InventoryFilter.java:33-42 | under either pattern, `accept` throws NullPointerException for the root path and for an absolute inventory path outside `content` |
| Inventories.SidecarPatternWider | src/main/java/nl/knaw/dans/lib/ocflext/InventoryFilter.java:30 | every intended sidecar name also matches the pattern as compiled |
| Inventories.SidecarPatternsAgree | src/main/java/nl/knaw/dans/lib/ocflext/InventoryFilter.java:30 | the two patterns agree on every name with a '.' where the unescaped dot stands |
| Inventories.SidecarCounterexample | src/main/java/nl/knaw/dans/lib/ocflext/InventoryFilter.java:30 | `inventoryXjson.sha512` matches the compiled pattern: as compiled it is accepted, stored, and passed through `preStore` and `postRetrieve` uncompressed; as corrected it is rejected, not stored, and compressed |
| Inventories.TestLaw | src/main/java/nl/knaw/dans/lib/ocflext/StoreInventoryDbBackedContentManager.java:37-61 | under the pattern as compiled and as corrected, `test` on a relative path holds exactly for an inventory file, or a file below an `extensions` directory, with no `content` directory above it |
| Inventories.TestRejectsContent | src/main/java/nl/knaw/dans/lib/ocflext/StoreInventoryDbBackedContentManager.java:53-56 | under either pattern, nothing below a `content` directory has its bytes stored |
| Inventories.AcceptedIsStored | src/main/java/nl/knaw/dans/lib/ocflext/StoreInventoryDbBackedContentManager.java:37-51 | under either pattern, used by both classes, every file the inventory filter accepts also has its bytes stored in the database |
| Inventories.SidecarUnchanged | src/main/java/nl/knaw/dans/lib/ocflext/StoreInventoryDbBackedContentManager.java:63-101 | under either pattern, sidecar bytes pass through `preStore` and `postRetrieve` unchanged, and any other path's bytes are compressed by `preStore` |
| Inventories.StoreRoundTrip | src/main/java/nl/knaw/dans/lib/ocflext/StoreInventoryDbBackedContentManager.java:63-101 | under either pattern, with a codec whose decompression inverts compression, `postRetrieve(preStore(bytes)) == bytes` for every path `preStore` accepts |
| Inventories.SamePathsFail | src/main/java/nl/knaw/dans/lib/ocflext/StoreInventoryDbBackedContentManager.java:63-101 | under either pattern, `preStore` throws exactly on the paths where the sidecar check throws, and `postRetrieve` throws on those paths too |

## Left out

- Byte I/O is not modelled: `Files.*` on real disks, streams, the zip codec, Hibernate sessions, SQL execution and transactions. The file system is a map from name paths to files and directories. The table is a sequence of rows. Each DAO call is atomic.
- gzip is an abstract `Codec` pair. `Inventories.StoreRoundTrip` assumes only that decompression inverts compression.
- `File.listFiles` is the parameter `listing` of `Layers.Archive`. The laws about archiving tie it to the staging directory through `Layers.Lists`: the directory holds exactly the listed tree. Only the child order stays free, because `listFiles` leaves it unspecified.
- The point at which a zip write fails is a parameter. It stands for every `IOException` of `createZipFile`.
- The clock (`System.currentTimeMillis`) is the `now` parameter of `LayerManager.NewTopLayer` and `LayerManager.Create`.
- The executor's threads are out of scope. The archiving executor is one sequential queue of tasks. An exception in a task is recorded as that task's outcome and nobody observes it.
- The `synchronized` modifiers are out of scope, as is `MultiLock`.
- LayerManager.NewTopLayerLaw: a rollover within the same millisecond replaces the registry entry. The model keeps that, and keeps both layer objects as separate slots. It does not model concurrent rollovers.
- LayerManager.NewTopLayerKeepsInvariant: requires a clock reading under which no layer is registered. Within one millisecond the old and the new top share `stagingRoot/<id>` and `<id>.zip`, so archiving the old one packs and deletes the new top's files. Each slot holds its own staging tree, so that shared disk is not modelled; `LayerManager.SameMillisecondRollover` states the shared locations and the lost invariant.
- LayerManager.RunNext: the executor's task wraps any exception as `new RuntimeException(e)`, whose message is the cause's `toString()`. The model records a fixed message.
- The layerstore `LayerImpl` and `ZipArchive` that `layerstore/LayerManagerImpl.java:52-53` and `:86-88` construct are not part of this model. They are modelled by the `ocflext` classes: `Layers` and `Zip`.
- LayerManager.GetLayerAtLaw: the existence checks on disk are a set of existing paths given as a parameter. A reconstructed layer is built over what exists at its staging location (the parameter `found`), and its archive is not archived. The zip file's own contents are not read back.
- Layers.FileExists: on an archived layer `LayerImpl.java:158` calls `archive.fileExists`, which neither `ZipArchive.java` nor the `Archive` interface declares. The model compares the path with the entry names. A directory entry's trailing '/' is a flag here rather than part of its name.
- Layers.ValidatePath: does not model `Path.of` rejecting a NUL character.
- Layers.ValidatePathInside: `Path.normalize` is lexical, and the model resolves every path through it. Java opens the un-normalised path, so a `..` after a symbolic link leaves through the link's target. The model has no symbolic links.
- Layers.CreateDirectories: acts on the lexically normalised path; see the symbolic-link note under Layers.ValidatePathInside.
- Layers.DeleteFiles: acts on the lexically normalised path, for the same reason.
- Layers.Write: acts on the lexically normalised path, for the same reason.
- Layers.MoveDirectoryInternal: acts on the lexically normalised paths, for the same reason.
- Layers.DeleteDirectory: acts on the lexically normalised path, for the same reason.
- Layers.MoveDirectoryInto: `source` is the tree found there, not a path. So `source.relativize(path)` at `LayerImpl.java:137` is not evaluated. Java computes it for every walked path although `getListing` ignores it, and it throws IllegalArgumentException after the move when `source` and the staging directory differ in rootedness.
- Layers.MoveDirectoryInto: removing the tree from its place outside the staging directory is not modelled. Only the staging tree is.
- Layers.MoveDirectoryInto: acts on the lexically normalised destination; see the symbolic-link note under Layers.ValidatePathInside.
- Layers.Read: the rest of the file system is a parameter `disk`, keyed by normalised path. It is read only for paths that leave the staging directory, which `Layers.ReadNotConfined` states.
- ItemDatabase.AddDirLoopFails: the IllegalStateException message names the path. In the code it prints the offending record list.
- ItemDatabase.AddDirectoryOverFileAgain: its message names the path `a`, as under ItemDatabase.AddDirLoopFails. The code appends the Lombok `toString` of the record list (`[ItemRecord(generatedId=1, ...), ...]`), which the model does not render.
- ItemDatabase.AddDirectoryLaw: `getTopLayerId` runs the `MAX(layerId)` query through a query typed for `ItemRecord` and calls `getLayerId()` on the result. The model takes the value the query computes. On an empty table that value is NULL, which the model reports as a NullPointerException. Whether Hibernate accepts the typed query is library behaviour outside the model.
- The `layerstore/InventoryFilter` class is not modelled, because it inspects the real file system for NAMASTE files.
- `LayeredStorage` is left out. It adapts to an `ItemStore` from a library outside this repository, and its directory-pruning loop never shortens its path list.
- The object-root directory iterators are left out. One does not compile; the other's traversal lives in a base class outside this repository.
- The `ocflext/LayerManagerImpl` and `LayeredFileStore` stubs are left out, because they only return null or false.
- `ArchiveTask` and `CloseNotifyingInputStream` are left out as plain wrappers.
- The interface files have no code. Their comments describe deletes from non-top and archived layers. `LayerImpl.deleteFiles` does not implement those, so the model does not either.
- `LIKE` is modelled in general, but the laws assume directory arguments contain no `%` or `_`.
- ListingDatabase.ListDirectoryLaw: requires a literal argument. For a directory name containing `%` or `_` the query would match more paths, and that case is not characterised.
- ListingDatabase.ListRecursiveLaw: requires a literal argument, for the same reason.
- ItemDatabase.ListDirectoryLaw: requires a literal argument, for the same reason.
- ItemDatabase.ListDirectoryLaw: excludes the argument "". That argument takes the root branch, which `ItemDatabase.ListRootNeverListsItself` states.
- ItemDatabase.AddDirectoryFails: requires a non-empty table, as does ItemDatabase.AddDirectoryLaw. On an empty table the code throws before its loop, which `ItemDatabase.AddDirectoryEmptyTable` states.
- ItemDatabase.AddDirectoryFails: its "only if" direction also requires a well-formed path. A malformed path can walk a path twice; `ItemDatabase.PrefixesOfRootedA` shows the root walked twice, and a root held only by files of lower layers is then mixed by the first visit and rejected on the second. `ItemDatabase.AddDirectoryMixedFails` states the direction that holds for every path.
- ItemDatabase.AddDirectoryPrefixesWalk: characterises the walk of well-formed paths only. `ItemDatabase.PrefixesOfRootedA` shows one malformed walk.
- Records.SaveAllLaw: states the appended rows only when every identity given is below the generator. Otherwise a later argument may carry the identity that an earlier insert has just received, which turns that argument into an update. Records.Save says what the model does with an unstored identity.
- Records.Save: a record whose identity is set but not stored is inserted under a fresh identity. That follows the comment at `layerstore/LayerDatabaseImpl.java:45`, not the call. `persist` is Dropwizard's `AbstractDAO.persist`, i.e. Hibernate's `saveOrUpdate`, so a set identity schedules an UPDATE that matches no row, and the flush fails; the model raises no such failure.
- ListingDatabase.DeleteRecords: records are values, so two equal records are taken to be one entity instance, and deleting it again does nothing. Two distinct but equal Java instances would make the second call throw NonUniqueObjectException. The instances the session already holds from earlier queries are not modelled either.
- Records.Save: the merge branch at `LayerDatabaseImpl.java:42-44` closes the current session with try-with-resources. Sessions are not modelled, so the model does not show later calls in the same unit of work losing that session.
- ListingDatabase.AddDirectoriesLaw: requires a well-formed path: non-empty '/'-separated names without empty pieces. For other paths, `String.split` drops or keeps empty pieces, and the prefixes the walk visits are not characterised.
- Inventories.AcceptLaw: characterises relative paths, which is what the storage layer passes. Inventories.TestLaw does the same. Absolute paths throw NullPointerException whenever the walk reaches the root, and `Inventories.AcceptAbsolute` states only those cases.
- Listings.ToListingOutside: assumes, like Listings.FromItemOutside and JavaPaths.RelativizeOutside, that neither path has `.` or `..` names. `Path.relativize` with such names normalises first, and that is modelled but not characterised.
- The tests written against other API variants are not used: `LayerImplTest` and `layerstore/LayerDatabaseListDirectoryTest`.

## Findings

| source | as written | input that shows it | evidently intended | confidence | as-written member | corrected member |
|---|---|---|---|---|---|---|
| src/main/java/nl/knaw/dans/lib/ocflext/LayerDatabaseImpl.java:160 | the max by layer compares with `(int) (r1.getLayerId() - r2.getLayerId())`, narrowing a 64-bit difference of epoch-millisecond ids to 32 bits | rows of `f` in layers 1700000000000 and 1700000000000 + 3221225472 (about 37 days later): the difference narrows to a negative int, so the older layer's content is read | compare the ids with `Long.compare`, reading the greatest layer's content | not executed | ListingDatabase.NarrowedCompareCounterexample | ListingDatabase.ReadContentIntendedNewest |
| src/main/java/nl/knaw/dans/lib/ocflext/ListingRecord.java:54-64 | listings keep every row whose `layerId` is IN the set of per-path maxima, whichever path that maximum belongs to | rows a@1, a@2, b@1 in the root: `a` is listed twice, from layers 1 and 2 (the same query shape is in `layerstore/ItemRecord.java:45-76`) | per child path, only the row of its greatest layer | not executed | Queries.RootListingCounterexample | Queries.ListDirectoryIntendedLaw |
| src/main/java/nl/knaw/dans/lib/ocflext/layerstore/LayerManagerImpl.java:85-86 | `getLayer` looks for an archived layer at `<archiveRoot>/<id>`, but `newTopLayer` writes `<archiveRoot>/<id>.zip` | after a restart with only `archive/1.zip` on disk, `getLayer(1)` throws "No layer found with id 1" | probe and reconstruct over `<id>.zip` | not executed | LayerManager.RestartCounterexample | LayerManager.ArchivedLayerFound |
| src/main/java/nl/knaw/dans/lib/ocflext/InventoryFilter.java:30 | the sidecar pattern `^inventory.json\..+$` leaves the first dot unescaped, so it matches any character | `inventoryXjson.sha512` is accepted as an inventory sidecar; the same pattern at `StoreInventoryDbBackedContentManager.java:37` stores its bytes and passes them through `preStore` and `postRetrieve` uncompressed | `^inventory\.json\..+$`: only `inventory.json.` followed by an extension | not executed | Inventories.SidecarCounterexample | Inventories.AcceptLaw, Inventories.TestLaw, Inventories.SidecarUnchanged |

=== FILE: files.dfy ===
/** The few `java.nio.file.Files` and commons-io `FileUtils` operations the
    layer and archive code performs, on the flat file system view of
    `FileTrees.Fs`.  Path resolution is lexical and there are no links. */
module Files {
  import opened Outcomes
  import JavaStrings
  import opened FileTrees

  /** Every entry's ancestors, the root included, exist as directories. */
  predicate Coherent(fs: Fs) {
    forall k :: k in fs ==> forall i :: 0 <= i < |k| ==> k[..i] in fs && fs[k[..i]] == Dir
  }

  predicate IsDirIn(fs: Fs, p: seq<string>) {
    p in fs && fs[p] == Dir
  }

  /** `k` is `p` or lies below it. */
  predicate AtOrBelow(k: seq<string>, p: seq<string>) {
    |k| >= |p| && k[..|p|] == p
  }

  predicate HasChildren(fs: Fs, p: seq<string>) {
    exists k :: k in fs && Below(k, p)
  }

  function Parent(p: seq<string>): seq<string>
    requires |p| > 0
  {
    p[..|p| - 1]
  }

  function Name(p: seq<string>): string {
    JavaStrings.Join(p)
  }

  // ---------------------------------------------------------------------
  // Files.createDirectories

  /** `Files.createDirectories(p)`: an existing directory is fine, an
      existing other file fails with `FileAlreadyExistsException`; otherwise
      the parents are created first, and a file among them fails the call. */
  function CreateDirectories(fs: Fs, p: seq<string>): (r: Result<Fs>)
    decreases |p|
  {
    if p in fs then
      if fs[p] == Dir then Ok(fs) else Err(FileAlreadyExists(Name(p)))
    else if |p| == 0 then Ok(fs[p := Dir])
    else match CreateDirectories(fs, Parent(p))
      case Err(_) => Err(NotDirectory(Name(p)))
      case Ok(fs') => Ok(fs'[p := Dir])
  }

  /** Creating directories that all exist changes nothing. */
  lemma CreateExisting(fs: Fs, p: seq<string>)
    requires DirsUpTo(fs, p)
    ensures CreateDirectories(fs, p) == Ok(fs)
  {
    assert p[..|p|] == p;
  }

  /** `createDirectories` fails exactly when the path or one of its
      ancestors is a file; otherwise it adds the missing directories on the
      way to `p`, and nothing else. */
  lemma {:induction false} CreateDirectoriesLaw(fs: Fs, p: seq<string>)
    requires Coherent(fs)
    ensures CreateDirectories(fs, p).Err? <==> exists i :: 0 <= i <= |p| && p[..i] in fs && fs[p[..i]] != Dir
    ensures CreateDirectories(fs, p).Ok? ==>
      var r := CreateDirectories(fs, p).value;
      && DirsUpTo(r, p)
      && (forall k :: k in r <==> k in fs || AtOrBelow(p, k))
      && (forall k :: k in fs ==> r[k] == fs[k])
    decreases |p|
  {
    var r := CreateDirectories(fs, p);
    assert p[..|p|] == p;
    if p in fs {
      assert forall i :: 0 <= i < |p| ==> p[..i] in fs && fs[p[..i]] == Dir;
    } else if |p| == 0 {
    } else {
      var q := Parent(p);
      CreateDirectoriesLaw(fs, q);
      assert forall i :: 0 <= i <= |q| ==> p[..i] == q[..i];
      if CreateDirectories(fs, q).Ok? {
        var fs' := CreateDirectories(fs, q).value;
        assert DirsUpTo(r.value, p) by {
          forall i | 0 <= i <= |p| ensures p[..i] in r.value && r.value[p[..i]] == Dir {
            if i < |p| { assert p[..i] == q[..i]; }
          }
        }
        forall k ensures k in r.value <==> k in fs || AtOrBelow(p, k) {
          if AtOrBelow(p, k) && k != p {
            assert |k| < |p| && k == p[..|k|] == q[..|k|];
            assert AtOrBelow(q, k);
          }
          if AtOrBelow(q, k) {
            assert k == q[..|k|] == p[..|k|];
          }
        }
      } else {
        var i :| 0 <= i <= |q| && q[..i] in fs && fs[q[..i]] != Dir;
        assert p[..i] == q[..i];
      }
    }
  }

  /** `createDirectories` keeps the file system coherent. */
  lemma CreateDirectoriesCoherent(fs: Fs, p: seq<string>)
    requires Coherent(fs) && CreateDirectories(fs, p).Ok?
    ensures Coherent(CreateDirectories(fs, p).value)
  {
    var r := CreateDirectories(fs, p).value;
    CreateDirectoriesLaw(fs, p);
    forall k, i | k in r && 0 <= i < |k| ensures k[..i] in r && r[k[..i]] == Dir {
      if k !in fs {
        assert k == p[..|k|];
        assert k[..i] == p[..i];
      }
    }
  }

  // ---------------------------------------------------------------------
  // Files.copy

  /** Opening `p` for writing: its parent must be a directory. */
  function CheckParent(fs: Fs, p: seq<string>): Result<()>
    requires |p| > 0
  {
    if IsDirIn(fs, Parent(p)) then Ok(())
    else if Parent(p) in fs then Err(NotDirectory(Name(p)))
    else Err(NoSuchFile(Name(p)))
  }

  /** `Files.copy(in, p)`: creates a new file; an existing `p` fails. */
  function CopyNew(fs: Fs, p: seq<string>, data: Bytes): (r: Result<Fs>) {
    if p in fs || |p| == 0 then Err(FileAlreadyExists(Name(p)))
    else
      var _ :- CheckParent(fs, p);
      Ok(fs[p := Regular(data)])
  }

  /** `Files.copy(in, p, REPLACE_EXISTING)`: an existing file or empty
      directory at `p` is replaced by the new file; a non-empty directory
      fails.  At the root this replaces the whole (empty) directory. */
  function CopyReplacing(fs: Fs, p: seq<string>, data: Bytes): (r: Result<Fs>) {
    if p in fs && fs[p] == Dir && HasChildren(fs, p) then Err(DirectoryNotEmpty(Name(p)))
    else if |p| == 0 then Ok(fs[p := Regular(data)])
    else
      var _ :- CheckParent(fs, p);
      Ok(fs[p := Regular(data)])
  }

  lemma CopyLaw(fs: Fs, p: seq<string>, data: Bytes)
    ensures CopyNew(fs, p, data).Ok? <==> p !in fs && |p| > 0 && IsDirIn(fs, Parent(p))
    ensures CopyReplacing(fs, p, data).Ok? <==>
      !(p in fs && fs[p] == Dir && HasChildren(fs, p)) && (|p| == 0 || IsDirIn(fs, Parent(p)))
    ensures CopyNew(fs, p, data).Ok? ==> CopyReplacing(fs, p, data) == CopyNew(fs, p, data)
    ensures CopyReplacing(fs, p, data).Ok? ==>
      var r := CopyReplacing(fs, p, data).value;
      p in r && r[p] == Regular(data) && (forall k :: k != p ==> (k in r <==> k in fs) && (k in fs ==> r[k] == fs[k]))
  {
  }

  /** Writing a file keeps the file system coherent. */
  lemma CopyReplacingCoherent(fs: Fs, p: seq<string>, data: Bytes)
    requires Coherent(fs) && CopyReplacing(fs, p, data).Ok?
    ensures Coherent(CopyReplacing(fs, p, data).value)
  {
    var r := CopyReplacing(fs, p, data).value;
    forall k, i | k in r && 0 <= i < |k| ensures k[..i] in r && r[k[..i]] == Dir {
      if k == p {
        var q := Parent(p);
        assert q in fs && k[..i] == q[..i];
        if i < |q| { assert q[..i] != p; } else { assert k[..i] == q; }
      } else {
        assert k in fs;
        if k[..i] == p {
          assert fs[p] == Dir && Below(k, p);
          assert HasChildren(fs, p);
        }
      }
    }
  }

  // ---------------------------------------------------------------------
  // Files.delete, FileUtils.deleteDirectory

  /** `Files.delete(p)`: a missing file or a non-empty directory fails. */
  function Delete(fs: Fs, p: seq<string>): (r: Result<Fs>) {
    if p !in fs then Err(NoSuchFile(Name(p)))
    else if fs[p] == Dir && HasChildren(fs, p) then Err(DirectoryNotEmpty(Name(p)))
    else Ok(fs - {p})
  }

  /** What is left when `p` and everything below it is removed. */
  function Prune(fs: Fs, p: seq<string>): (r: Fs)
    ensures forall k :: k in r <==> k in fs && !AtOrBelow(k, p)
    ensures forall k :: k in r ==> r[k] == fs[k]
  {
    map k | k in fs && !AtOrBelow(k, p) :: fs[k]
  }

  /** `FileUtils.deleteDirectory(p)`: nothing to do when `p` is missing; a
      file that is not a directory is refused; otherwise the directory and
      its contents go. */
  function DeleteDirectory(fs: Fs, p: seq<string>): Result<Fs> {
    if p !in fs then Ok(fs)
    else if fs[p] != Dir then Err(IllegalArgument(Name(p) + " is not a directory"))
    else Ok(Prune(fs, p))
  }

  /** In a coherent file system only an existing directory has entries
      below it. */
  lemma OnlyDirectoriesHaveChildren(fs: Fs, p: seq<string>)
    requires Coherent(fs)
    ensures HasChildren(fs, p) ==> IsDirIn(fs, p)
    ensures forall k :: k in fs && AtOrBelow(k, p) ==> k == p || HasChildren(fs, p)
  {
    if HasChildren(fs, p) {
      var k :| k in fs && Below(k, p);
      assert k[..|p|] == p;
    }
  }

  /** Nothing lies at or below a path that does not exist. */
  lemma NothingBelowMissing(fs: Fs, p: seq<string>)
    requires Coherent(fs) && p !in fs
    ensures forall k :: k in fs ==> !AtOrBelow(k, p)
  {
    forall k | k in fs ensures !AtOrBelow(k, p) {
      if |k| > |p| {
        assert k[..|p|] in fs;
      } else if |k| == |p| {
        assert k[..|p|] == k;
      }
    }
  }

  lemma DeleteLaw(fs: Fs, p: seq<string>)
    requires Coherent(fs)
    ensures Delete(fs, p).Ok? <==> p in fs && !(fs[p] == Dir && HasChildren(fs, p))
    ensures Delete(fs, p).Ok? ==> Delete(fs, p).value == Prune(fs, p)
  {
    OnlyDirectoriesHaveChildren(fs, p);
  }

  /** Removing a whole subtree keeps the file system coherent. */
  lemma PruneCoherent(fs: Fs, p: seq<string>)
    requires Coherent(fs)
    ensures Coherent(Prune(fs, p))
  {
    var r := Prune(fs, p);
    forall k, i | k in r && 0 <= i < |k| ensures k[..i] in r && r[k[..i]] == Dir {
    }
  }

  // ---------------------------------------------------------------------
  // Files.move

  /** The entries at and below `src` carried over to `dst`, the rest kept. */
  function Rename(fs: Fs, src: seq<string>, dst: seq<string>): Fs {
    RenameKeyInjective(src, dst);
    var kept := map k | k in fs && !AtOrBelow(k, src) :: fs[k];
    var moved := map k | k in fs && AtOrBelow(k, src) :: dst + k[|src|..] := fs[k];
    kept + moved
  }

  /** `Files.move(src, dst)` without options: a missing source fails; moving
      a file onto itself does nothing; an existing target fails; a target
      inside the source fails; the target's parent must be a directory. */
  function Move(fs: Fs, src: seq<string>, dst: seq<string>): Result<Fs> {
    if src !in fs then Err(NoSuchFile(Name(src)))
    else if src == dst then Ok(fs)
    else if dst in fs then Err(FileAlreadyExists(Name(dst)))
    else if AtOrBelow(dst, src) then Err(IOFailure("Invalid argument"))
    else if |dst| == 0 then Err(NoSuchFile(Name(dst)))
    else
      var _ :- CheckParent(fs, dst);
      Ok(Rename(fs, src, dst))
  }

  lemma RenameKeyInjective(src: seq<string>, dst: seq<string>)
    ensures forall k1, k2 :: AtOrBelow(k1, src) && AtOrBelow(k2, src) && dst + k1[|src|..] == dst + k2[|src|..] ==> k1 == k2
  {
    forall k1, k2 | AtOrBelow(k1, src) && AtOrBelow(k2, src) && dst + k1[|src|..] == dst + k2[|src|..] ensures k1 == k2 {
      assert k1[|src|..] == (dst + k1[|src|..])[|dst|..];
      assert k2[|src|..] == (dst + k2[|src|..])[|dst|..];
      assert k1 == k1[..|src|] + k1[|src|..];
      assert k2 == k2[..|src|] + k2[|src|..];
    }
  }

  lemma RenameMoved(fs: Fs, src: seq<string>, dst: seq<string>, s: seq<string>)
    requires src + s in fs
    ensures dst + s in Rename(fs, src, dst) && Rename(fs, src, dst)[dst + s] == fs[src + s]
  {
    var k := src + s;
    assert AtOrBelow(k, src) && k[|src|..] == s;
    RenameKeyInjective(src, dst);
  }

  lemma RenameOrigin(fs: Fs, src: seq<string>, dst: seq<string>, k: seq<string>)
    requires k in Rename(fs, src, dst) && !AtOrBelow(k, dst)
    ensures k in fs && !AtOrBelow(k, src) && Rename(fs, src, dst)[k] == fs[k]
  {
  }

  lemma RenameTarget(fs: Fs, src: seq<string>, dst: seq<string>, s: seq<string>)
    requires dst + s in Rename(fs, src, dst)
    requires forall k :: k in fs ==> !AtOrBelow(k, dst)
    ensures src + s in fs
  {
    var t := dst + s;
    assert AtOrBelow(t, dst) && t[..|dst|] == dst;
    var j :| j in fs && AtOrBelow(j, src) && t == dst + j[|src|..];
    assert s == j[|src|..];
    assert j == src + s;
  }

  /** A successful move carries every entry at or below `src` to the same
      relative place below `dst`, removes it from `src`, and leaves every
      other entry as it was. */
  lemma MoveLaw(fs: Fs, src: seq<string>, dst: seq<string>)
    requires Coherent(fs) && Move(fs, src, dst).Ok? && src != dst
    ensures var r := Move(fs, src, dst).value;
      && (forall s :: src + s in fs <==> dst + s in r)
      && (forall s :: src + s in fs ==> r[dst + s] == fs[src + s])
      && (forall k :: !AtOrBelow(k, src) && !AtOrBelow(k, dst) ==> (k in r <==> k in fs))
      && (forall k :: k in r && !AtOrBelow(k, dst) ==> r[k] == fs[k])
      && (forall k :: AtOrBelow(k, src) && !AtOrBelow(k, dst) ==> k !in r)
  {
    var r := Move(fs, src, dst).value;
    assert r == Rename(fs, src, dst);
    NothingBelowMissing(fs, dst);
    forall s ensures src + s in fs <==> dst + s in r {
      if src + s in fs { RenameMoved(fs, src, dst, s); }
      if dst + s in r { RenameTarget(fs, src, dst, s); }
    }
    forall s | src + s in fs ensures r[dst + s] == fs[src + s] {
      RenameMoved(fs, src, dst, s);
    }
    forall k | !AtOrBelow(k, src) && !AtOrBelow(k, dst) ensures k in r <==> k in fs {
      if k in r { RenameOrigin(fs, src, dst, k); }
    }
    forall k | AtOrBelow(k, src) && !AtOrBelow(k, dst) ensures k !in r {
      if k in r { RenameOrigin(fs, src, dst, k); }
    }
    forall k | k in r && !AtOrBelow(k, dst) ensures r[k] == fs[k] {
      RenameOrigin(fs, src, dst, k);
    }
  }

  /** A successful move keeps the file system coherent. */
  lemma MoveCoherent(fs: Fs, src: seq<string>, dst: seq<string>)
    requires Coherent(fs) && Move(fs, src, dst).Ok?
    ensures Coherent(Move(fs, src, dst).value)
  {
    if src != dst {
      var r := Move(fs, src, dst).value;
      NothingBelowMissing(fs, dst);
      MoveLaw(fs, src, dst);
      forall k, i | k in r && 0 <= i < |k| ensures k[..i] in r && r[k[..i]] == Dir {
        if AtOrBelow(k, dst) {
          MovedAncestor(fs, src, dst, k, i);
        } else {
          KeptAncestor(fs, src, dst, k, i);
        }
      }
    }
  }

  lemma KeptAncestor(fs: Fs, src: seq<string>, dst: seq<string>, k: seq<string>, i: nat)
    requires Coherent(fs) && Move(fs, src, dst).Ok? && src != dst
    requires k in Move(fs, src, dst).value && !AtOrBelow(k, dst) && i < |k|
    ensures k[..i] in Move(fs, src, dst).value && Move(fs, src, dst).value[k[..i]] == Dir
  {
    var r := Move(fs, src, dst).value;
    assert r == Rename(fs, src, dst);
    RenameOrigin(fs, src, dst, k);
    PrefixNotAtOrBelow(k, i, src);
    PrefixNotAtOrBelow(k, i, dst);
    MoveLaw(fs, src, dst);
  }

  /** A prefix of a path that is not at or below `p` is not either. */
  lemma PrefixNotAtOrBelow(k: seq<string>, i: nat, p: seq<string>)
    requires i <= |k| && !AtOrBelow(k, p)
    ensures !AtOrBelow(k[..i], p)
  {
    if |k[..i]| >= |p| { assert k[..i][..|p|] == k[..|p|]; }
  }

  lemma MovedAncestor(fs: Fs, src: seq<string>, dst: seq<string>, k: seq<string>, i: nat)
    requires Coherent(fs) && Move(fs, src, dst).Ok? && src != dst
    requires k in Move(fs, src, dst).value && AtOrBelow(k, dst) && i < |k|
    ensures k[..i] in Move(fs, src, dst).value && Move(fs, src, dst).value[k[..i]] == Dir
  {
    assert Move(fs, src, dst).value == Rename(fs, src, dst);
    if i >= |dst| {
      MovedInnerAncestor(fs, src, dst, k, i);
    } else {
      MovedOuterAncestor(fs, src, dst, i);
      assert k[..i] == dst[..i];
    }
  }

  lemma MovedInnerAncestor(fs: Fs, src: seq<string>, dst: seq<string>, k: seq<string>, i: nat)
    requires Coherent(fs) && dst !in fs
    requires k in Rename(fs, src, dst) && AtOrBelow(k, dst) && |dst| <= i < |k|
    ensures k[..i] in Rename(fs, src, dst) && Rename(fs, src, dst)[k[..i]] == Dir
  {
    NothingBelowMissing(fs, dst);
    var sfx := k[|dst|..];
    assert k == dst + sfx;
    RenameTarget(fs, src, dst, sfx);
    var j := i - |dst|;
    assert k[..i] == dst + sfx[..j];
    assert (src + sfx)[..|src| + j] == src + sfx[..j];
    RenameMoved(fs, src, dst, sfx[..j]);
  }

  lemma MovedOuterAncestor(fs: Fs, src: seq<string>, dst: seq<string>, i: nat)
    requires Coherent(fs) && Move(fs, src, dst).Ok? && src != dst && i < |dst|
    ensures dst[..i] in Rename(fs, src, dst) && Rename(fs, src, dst)[dst[..i]] == Dir
  {
    var q := Parent(dst);
    assert IsDirIn(fs, q) && !AtOrBelow(dst, src);
    assert dst[..i] == q[..i];
    if i < |q| { assert q[..i] in fs; } else { assert q[..i] == q; }
    assert !AtOrBelow(q[..i], src) by {
      if |q[..i]| >= |src| { assert dst[..|src|] == q[..i][..|src|]; }
    }
  }

  /** The node renamed. */
  function Renamed(n: Node, name: string): (r: Node)
    ensures r.name == name
  {
    match n
    case FileNode(_, c) => FileNode(name, c)
    case DirNode(_, ch) => DirNode(name, ch)
  }

  /** `Files.move(source, dst)` of a file or directory `n` from outside the
      root: it arrives at `dst`, with its contents. */
  function MoveInto(fs: Fs, n: Node, dst: seq<string>): Result<Fs> {
    if dst in fs || |dst| == 0 then Err(FileAlreadyExists(Name(dst)))
    else
      var _ :- CheckParent(fs, dst);
      Ok(fs + ToFsNode(Renamed(n, dst[|dst| - 1]), Parent(dst)))
  }

  /** A well-formed forest's file system is coherent below its directory. */
  lemma {:induction false} ToFsCoherent(nodes: seq<Node>, prefix: seq<string>)
    requires WellFormed(nodes)
    ensures forall k, i :: k in ToFs(nodes, prefix) && |prefix| < i < |k| ==>
      k[..i] in ToFs(nodes, prefix) && ToFs(nodes, prefix)[k[..i]] == Dir
    decreases nodes, 0
  {
    var r := ToFs(nodes, prefix);
    if |nodes| > 0 {
      var first := ToFsNode(nodes[0], prefix);
      var rest := ToFs(nodes[1..], prefix);
      WellFormedTail(nodes);
      ToFsNodeCoherent(nodes[0], prefix);
      ToFsCoherent(nodes[1..], prefix);
      forall k, i | k in r && |prefix| < i < |k| ensures k[..i] in r && r[k[..i]] == Dir {
        assert k[..i][..|prefix|] == k[..|prefix|];
        assert k[..i][|prefix|] == k[|prefix|];
        if k in rest {
          assert k[..i] in rest;
        } else {
          assert k in first;
          assert k[..i] in first && first[k[..i]] == Dir;
          assert k[..i][..|prefix| + 1] == prefix + [nodes[0].name] by {
            assert k[..i][..|prefix| + 1] == k[..|prefix| + 1];
          }
          assert k[..i] !in rest;
        }
      }
    }
  }

  lemma {:induction false} ToFsNodeCoherent(n: Node, prefix: seq<string>)
    requires WellFormedNode(n)
    ensures forall k, i :: k in ToFsNode(n, prefix) && |prefix| < i < |k| ==>
      k[..i] in ToFsNode(n, prefix) && ToFsNode(n, prefix)[k[..i]] == Dir
    decreases n, 1
  {
    var p := prefix + [n.name];
    if n.DirNode? {
      var below := ToFs(n.children, p);
      ToFsCoherent(n.children, p);
      forall k, i | k in ToFsNode(n, prefix) && |prefix| < i < |k| ensures k[..i] in ToFsNode(n, prefix) && ToFsNode(n, prefix)[k[..i]] == Dir {
        if i == |p| {
          assert k[..i] == p;
        }
      }
    }
  }

  /** Moving a well-formed file or directory in from outside keeps the
      file system coherent, puts it at `dst`, and adds nothing outside
      `dst`. */
  lemma MoveIntoLaw(fs: Fs, n: Node, dst: seq<string>)
    requires Coherent(fs) && WellFormedNode(n) && MoveInto(fs, n, dst).Ok?
    ensures var r := MoveInto(fs, n, dst).value;
      && Coherent(r)
      && dst in r && (r[dst] == Dir <==> n.DirNode?)
      && (forall k :: k in fs ==> k in r && r[k] == fs[k])
      && (forall k :: k in r && k !in fs ==> AtOrBelow(k, dst))
  {
    var m := Renamed(n, dst[|dst| - 1]);
    var added := ToFsNode(m, Parent(dst));
    assert Parent(dst) + [m.name] == dst;
    ToFsNodeCoherent(m, Parent(dst));
    NothingBelowMissing(fs, dst);
    assert forall k :: k in added ==> AtOrBelow(k, dst) by {
      forall k | k in added ensures AtOrBelow(k, dst) {
        assert k[..|dst|] == dst;
      }
    }
    AddedCoherent(fs, added, dst);
  }

  lemma AddedCoherent(fs: Fs, added: Fs, dst: seq<string>)
    requires Coherent(fs) && |dst| > 0 && IsDirIn(fs, Parent(dst))
    requires forall k :: k in added ==> AtOrBelow(k, dst)
    requires forall k, i :: k in added && |dst| - 1 < i < |k| ==> k[..i] in added && added[k[..i]] == Dir
    requires forall k :: k in fs ==> !AtOrBelow(k, dst)
    ensures Coherent(fs + added)
  {
    var r := fs + added;
    forall k, i | k in r && 0 <= i < |k| ensures k[..i] in r && r[k[..i]] == Dir {
      if k in added {
        ParentChain(fs, added, dst, k, i);
      } else {
        assert !AtOrBelow(k[..i], dst) by {
          if |k[..i]| >= |dst| { assert k[..i][..|dst|] == k[..|dst|]; }
        }
      }
    }
  }

  lemma ParentChain(fs: Fs, added: Fs, dst: seq<string>, k: seq<string>, i: nat)
    requires Coherent(fs) && |dst| > 0 && IsDirIn(fs, Parent(dst))
    requires k in added && AtOrBelow(k, dst) && i < |k|
    requires forall k :: k in added ==> AtOrBelow(k, dst)
    requires forall k, i :: k in added && |dst| - 1 < i < |k| ==> k[..i] in added && added[k[..i]] == Dir
    ensures k[..i] in fs + added && (fs + added)[k[..i]] == Dir
  {
    var q := Parent(dst);
    if i < |dst| {
      assert k[..i] == q[..i];
      if i < |q| { assert q[..i] in fs && fs[q[..i]] == Dir; } else { assert k[..i] == q; }
      assert k[..i] !in added by {
        assert |k[..i]| < |dst|;
      }
    }
  }
}

=== FILE: filetree.dfy ===
/** Directory trees as the archiving code sees them through
    `File.listFiles()`, and the flat view of a file system below a root
    directory that `Files.createDirectories` and `Files.copy` act on. */
module FileTrees {
  import opened Outcomes

  /** A file with its bytes, or a directory with its entries in the order
      `listFiles()` returns them. */
  datatype Node = FileNode(name: string, content: Bytes) | DirNode(name: string, children: seq<Node>)

  /** What exists at a path. */
  datatype FsObj = Dir | Regular(content: Bytes)

  /** The file system at and below a root directory, keyed by the name
      sequence relative to the root; the root directory itself, when it
      exists, is the key `[]`. */
  type Fs = map<seq<string>, FsObj>

  /** A name a directory listing can return. */
  predicate ProperName(s: string) {
    s != "" && '/' !in s && s != "." && s != ".."
  }

  predicate ProperPath(p: seq<string>) {
    forall i :: 0 <= i < |p| ==> ProperName(p[i])
  }

  /** Sibling names are proper and distinct, at every level. */
  predicate WellFormed(nodes: seq<Node>)
    decreases nodes
  {
    && (forall i, j :: 0 <= i < j < |nodes| ==> nodes[i].name != nodes[j].name)
    && (forall i :: 0 <= i < |nodes| ==> ProperName(nodes[i].name) && WellFormedNode(nodes[i]))
  }

  predicate WellFormedNode(n: Node)
    decreases n
  {
    n.DirNode? ==> WellFormed(n.children)
  }

  /** The names of a directory's entries. */
  function Names(nodes: seq<Node>): (r: set<string>)
    ensures forall s :: s in r <==> exists i :: 0 <= i < |nodes| && nodes[i].name == s
  {
    set i | 0 <= i < |nodes| :: nodes[i].name
  }

  lemma NamesCons(nodes: seq<Node>)
    requires |nodes| > 0
    ensures Names(nodes) == {nodes[0].name} + Names(nodes[1..])
  {
    forall s | s in Names(nodes) ensures s in {nodes[0].name} + Names(nodes[1..]) {
      var i :| 0 <= i < |nodes| && nodes[i].name == s;
      if i > 0 { assert nodes[1..][i - 1] == nodes[i]; }
    }
  }

  /** Number of files and directories in a forest. */
  function Count(nodes: seq<Node>): nat
    decreases nodes
  {
    if |nodes| == 0 then 0 else CountNode(nodes[0]) + Count(nodes[1..])
  }

  function CountNode(n: Node): nat
    decreases n
  {
    match n
    case FileNode(_, _) => 1
    case DirNode(_, children) => 1 + Count(children)
  }

  /** `k` lies strictly below `prefix`. */
  predicate Below(k: seq<string>, prefix: seq<string>) {
    |k| > |prefix| && k[..|prefix|] == prefix
  }

  /** The file system a forest describes when its directory is `prefix`. */
  function ToFs(nodes: seq<Node>, prefix: seq<string>): (r: Fs)
    ensures forall k :: k in r ==> Below(k, prefix) && k[|prefix|] in Names(nodes)
    decreases nodes
  {
    if |nodes| == 0 then map[]
    else
      var first := ToFsNode(nodes[0], prefix);
      var rest := ToFs(nodes[1..], prefix);
      NamesCons(nodes);
      first + rest
  }

  function ToFsNode(n: Node, prefix: seq<string>): (r: Fs)
    ensures forall k :: k in r ==> Below(k, prefix) && k[..|prefix| + 1] == prefix + [n.name]
    ensures prefix + [n.name] in r
    decreases n
  {
    var p := prefix + [n.name];
    match n
    case FileNode(_, content) => map[p := Regular(content)]
    case DirNode(_, children) =>
      var below := ToFs(children, p);
      assert forall k :: k in below ==> k[..|prefix|] == prefix && k[..|p|] == p by {
        forall k | k in below ensures k[..|prefix|] == prefix && k[..|p|] == p {
          assert k[..|prefix|] == k[..|p|][..|prefix|];
        }
      }
      below[p := Dir]
  }

  /** The entries after the first of a well-formed forest are well formed
      and do not repeat its name. */
  lemma WellFormedTail(nodes: seq<Node>)
    requires WellFormed(nodes) && |nodes| > 0
    ensures WellFormed(nodes[1..]) && WellFormedNode(nodes[0]) && ProperName(nodes[0].name)
    ensures nodes[0].name !in Names(nodes[1..])
  {
    forall a, b | 0 <= a < b < |nodes[1..]| ensures nodes[1..][a].name != nodes[1..][b].name {
      assert nodes[1..][a] == nodes[a + 1] && nodes[1..][b] == nodes[b + 1];
    }
    forall a | 0 <= a < |nodes[1..]| ensures ProperName(nodes[1..][a].name) && WellFormedNode(nodes[1..][a]) {
      assert nodes[1..][a] == nodes[a + 1];
    }
    forall j | 0 <= j < |nodes[1..]| ensures nodes[1..][j].name != nodes[0].name {
      assert nodes[1..][j] == nodes[j + 1];
    }
  }

  /** Each node of a forest appears at its path with its kind and bytes. */
  lemma {:induction false} ToFsHas(nodes: seq<Node>, prefix: seq<string>, i: nat)
    requires WellFormed(nodes) && i < |nodes|
    ensures var p := prefix + [nodes[i].name];
      && p in ToFs(nodes, prefix)
      && ToFs(nodes, prefix)[p] == (if nodes[i].FileNode? then Regular(nodes[i].content) else Dir)
    decreases |nodes|
  {
    var p := prefix + [nodes[i].name];
    var first := ToFsNode(nodes[0], prefix);
    var rest := ToFs(nodes[1..], prefix);
    WellFormedTail(nodes);
    if i > 0 {
      ToFsHas(nodes[1..], prefix, i - 1);
      assert nodes[1..][i - 1] == nodes[i];
    }
  }

  /** The paths of a well-formed forest below a proper prefix are proper. */
  lemma {:induction false} ToFsProper(nodes: seq<Node>, prefix: seq<string>)
    requires WellFormed(nodes) && ProperPath(prefix)
    ensures forall k :: k in ToFs(nodes, prefix) ==> ProperPath(k)
    decreases nodes, 0
  {
    if |nodes| > 0 {
      WellFormedTail(nodes);
      ToFsNodeProper(nodes[0], prefix);
      ToFsProper(nodes[1..], prefix);
    }
  }

  lemma {:induction false} ToFsNodeProper(n: Node, prefix: seq<string>)
    requires WellFormedNode(n) && ProperName(n.name) && ProperPath(prefix)
    ensures forall k :: k in ToFsNode(n, prefix) ==> ProperPath(k)
    decreases n, 1
  {
    ProperSnoc(prefix, n.name);
    if n.DirNode? {
      ToFsProper(n.children, prefix + [n.name]);
    }
  }

  /** A proper path extended by a proper name is proper. */
  lemma ProperSnoc(prefix: seq<string>, name: string)
    requires ProperPath(prefix) && ProperName(name)
    ensures ProperPath(prefix + [name])
  {
    var p := prefix + [name];
    forall i | 0 <= i < |p| ensures ProperName(p[i]) {
      if i < |prefix| { assert p[i] == prefix[i]; }
    }
  }


  /** Every directory on the way to `prefix`, the root and `prefix`
      included, exists. */
  predicate DirsUpTo(fs: Fs, prefix: seq<string>) {
    forall i :: 0 <= i <= |prefix| ==> prefix[..i] in fs && fs[prefix[..i]] == Dir
  }

  /** Nothing exists yet at the paths of the entries `names` of `prefix`,
      nor below them. */
  predicate FreeFor(fs: Fs, prefix: seq<string>, names: set<string>) {
    forall k :: k in fs && Below(k, prefix) ==> k[|prefix|] !in names
  }
}

=== FILE: inventory.dfy ===
/** Which storage paths count as inventory files.

    `InventoryFilter.accept` selects the files whose listings the
    database-backed storage keeps: `inventory.json` and its sidecars,
    outside any `content` directory.  `StoreInventoryDbBackedContentManager`
    decides which files have their bytes stored in the database (`test`)
    and gzips those bytes on the way in and out (`preStore` and
    `postRetrieve`); sidecars are stored as they are.

    Both classes walk the `getParent` chain of the path and call
    `getFileName().toString()` on every parent.  The root of an absolute
    path has no file name, so reaching it throws a NullPointerException;
    storage paths are relative, where the walk ends without reaching a root. */
module Inventories {
  import opened Outcomes
  import opened JavaPaths
  import JavaStrings

  const InventoryName := "inventory.json"

  /** The characters `.` does not match in a `java.util.regex` pattern
      compiled without flags. */
  predicate IsLineTerminator(c: char) {
    c == '\n' || c == '\r' || c == '\U{85}' || c == '\U{2028}' || c == '\U{2029}'
  }

  /** `^inventory.json\..+$` as compiled, under `Matcher.matches()`: the
      character between "inventory" and "json" is an unescaped `.`, so it
      may be any character but a line terminator. */
  predicate SidecarPattern(n: string) {
    && |n| >= 16
    && n[..9] == "inventory"
    && !IsLineTerminator(n[9])
    && n[10..15] == "json."
    && forall i :: 15 <= i < |n| ==> !IsLineTerminator(n[i])
  }

  /** The sidecar names the pattern is meant to describe, `inventory.json.`
      followed by an algorithm name: the first dot escaped too. */
  predicate IsSidecarName(n: string) {
    && |n| >= 16
    && n[..15] == "inventory.json."
    && forall i :: 15 <= i < |n| ==> !IsLineTerminator(n[i])
  }

  /** The names of the directories above the last element of `p`. */
  function Parents(p: JPath): seq<string>
    requires |p.names| > 0
  {
    p.names[..|p.names| - 1]
  }

  /** `Stream.iterate(path.getParent(), Objects::nonNull, Path::getParent)
      .anyMatch(parent -> parent.getFileName().toString().equals(name))`
      over the ancestors of a path, nearest first: the first ancestor with
      that name ends the walk, the root (whose file name is null) throws. */
  function AnyAncestorNamed(ancestors: seq<Ancestor>, name: string): Result<bool> {
    if |ancestors| == 0 then Ok(false)
    else match ancestors[0]
      case Root => Err(NullPointer)
      case Named(n) => if n == name then Ok(true) else AnyAncestorNamed(ancestors[1..], name)
  }

  /** The walk finds `name` among the parents if it is there, and otherwise
      runs into the root of an absolute path. */
  lemma {:induction false} AncestorWalk(p: JPath, name: string)
    requires |p.names| > 0
    ensures AnyAncestorNamed(Ancestors(p), name)
      == if name in Parents(p) then Ok(true)
         else if p.absolute then Err(NullPointer)
         else Ok(false)
    decreases |p.names|
  {
    if |p.names| > 1 {
      var q := JPath(p.absolute, Parents(p));
      var last := q.names[|q.names| - 1];
      assert Ancestors(p) == [Named(last)] + Ancestors(q);
      AncestorWalk(q, name);
      assert Parents(p) == Parents(q) + [last];
    }
  }

  /** `hasContentDirAncestor` (negated by `accept`) and
      `isOutsideContentDirectory`, which is `noneMatch` of the same walk. */
  function HasContentAncestor(p: JPath): Result<bool> {
    AnyAncestorNamed(Ancestors(p), "content")
  }

  function OutsideContent(p: JPath): Result<bool> {
    var has :- HasContentAncestor(p);
    Ok(!has)
  }

  /** `getFileName().toString()`; the root path has no file name. */
  function NameOf(p: JPath): Result<string> {
    match FileName(p)
    case None => Err(NullPointer)
    case Some(n) => Ok(n)
  }

  /** The two readings of `^inventory.json\..+$`: as the code compiles it,
      and as its comment ("inventory.json.* is a sidecar file") means it.
      Both classes compile the same pattern. */
  datatype Pattern = Compiled | Intended

  predicate IsSidecar(n: string, pattern: Pattern) {
    match pattern
    case Compiled => SidecarPattern(n)
    case Intended => IsSidecarName(n)
  }

  /** The inventory itself or one of its sidecars. */
  predicate IsInventoryFile(n: string, pattern: Pattern) {
    n == InventoryName || IsSidecar(n, pattern)
  }

  /** `InventoryFilter.accept`: the name test, then the walk. */
  function Accept(s: string, pattern: Pattern): Result<bool> {
    var p := Parse(s);
    var n :- NameOf(p);
    if IsInventoryFile(n, pattern) then OutsideContent(p) else Ok(false)
  }

  /** For a relative path, `accept` holds exactly for an inventory name with
      no `content` directory above it; a bare file name is judged by its
      name alone. */
  lemma AcceptLaw(s: string, pattern: Pattern)
    requires !Parse(s).absolute
    ensures var p := Parse(s);
      Accept(s, pattern) == Ok(if |p.names| == 0 then false
                               else IsInventoryFile(p.names[|p.names| - 1], pattern) && "content" !in Parents(p))
  {
    var p := Parse(s);
    if |p.names| > 0 {
      AncestorWalk(p, "content");
    }
  }

  /** A path under a `content` directory is never accepted, absolute or
      not, whatever its name. */
  lemma AcceptRejectsContent(s: string, pattern: Pattern)
    requires |Parse(s).names| > 0 && "content" in Parents(Parse(s))
    ensures Accept(s, pattern) == Ok(false)
  {
    AncestorWalk(Parse(s), "content");
  }

  /** An absolute inventory path outside `content` walks up to the root and
      throws, and the root itself has no file name. */
  lemma AcceptAbsolute(s: string, pattern: Pattern)
    requires Parse(s).absolute
    ensures var p := Parse(s);
      |p.names| == 0 ==> Accept(s, pattern) == Err(NullPointer)
    ensures var p := Parse(s);
      (|p.names| > 0 && IsInventoryFile(p.names[|p.names| - 1], pattern) && "content" !in Parents(p))
      ==> Accept(s, pattern) == Err(NullPointer)
  {
    var p := Parse(s);
    if |p.names| > 0 {
      AncestorWalk(p, "content");
    }
  }

  /** Every intended sidecar name matches the compiled pattern, so the
      code accepts and stores at least what the intended pattern does. */
  lemma SidecarPatternWider(n: string)
    requires IsSidecarName(n)
    ensures SidecarPattern(n)
  {
    assert n[..9] == n[..15][..9];
    assert n[10..15] == n[..15][10..15];
  }

  /** The two patterns differ exactly in the character after "inventory". */
  lemma SidecarPatternsAgree(n: string)
    requires |n| >= 16 && n[9] == '.'
    ensures SidecarPattern(n) <==> IsSidecarName(n)
  {
    if SidecarPattern(n) {
      assert n[..15] == n[..9] + [n[9]] + n[10..15];
    }
    if IsSidecarName(n) {
      SidecarPatternWider(n);
    }
  }

  // ---------------------------------------------------------------------
  // StoreInventoryDbBackedContentManager

  /** `isSidecar`: the name test first, then the walk, so a non-sidecar
      name never walks. */
  function IsSidecarPath(p: JPath, pattern: Pattern): Result<bool> {
    var n :- NameOf(p);
    if IsSidecar(n, pattern) then OutsideContent(p) else Ok(false)
  }

  /** `test`: `isInventoryJson || isSidecar || isFileInExtensionsDir`, each
      evaluated only when the ones before it returned false, and each one's
      exception propagated. */
  function Test(s: string, pattern: Pattern): Result<bool> {
    var p := Parse(s);
    var n :- NameOf(p);
    var inventory :- if n == InventoryName then OutsideContent(p) else Ok(false);
    if inventory then Ok(true)
    else
      var sidecar :- IsSidecarPath(p, pattern);
      if sidecar then Ok(true)
      else
        var outside :- OutsideContent(p);
        if !outside then Ok(false)
        else AnyAncestorNamed(Ancestors(p), "extensions")
  }

  /** For a relative path, `test` holds exactly for an inventory name or a
      file below an `extensions` directory, with no `content` directory
      above it. */
  lemma TestLaw(s: string, pattern: Pattern)
    requires !Parse(s).absolute
    ensures var p := Parse(s);
      Test(s, pattern) == Ok(if |p.names| == 0 then false
                             else (IsInventoryFile(p.names[|p.names| - 1], pattern) || "extensions" in Parents(p))
                                  && "content" !in Parents(p))
  {
    var p := Parse(s);
    if |p.names| > 0 {
      AncestorWalk(p, "content");
      AncestorWalk(p, "extensions");
    }
  }

  /** A path under a `content` directory never has its bytes stored in the
      database. */
  lemma TestRejectsContent(s: string, pattern: Pattern)
    requires |Parse(s).names| > 0 && "content" in Parents(Parse(s))
    ensures Test(s, pattern) == Ok(false)
  {
    AncestorWalk(Parse(s), "content");
  }

  /** Every listing the filter selects also has its content in the
      database, when both classes read the pattern the same way. */
  lemma AcceptedIsStored(s: string, pattern: Pattern)
    requires Accept(s, pattern) == Ok(true)
    ensures Test(s, pattern) == Ok(true)
  {
    var p := Parse(s);
    assert |p.names| > 0;
    AncestorWalk(p, "content");
    AncestorWalk(p, "extensions");
  }

  /** The gzip streams, abstracted: compressing an in-memory array cannot
      fail, decompressing arbitrary bytes can. */
  datatype Codec = Codec(compress: Bytes -> Bytes, decompress: Bytes -> Option<Bytes>)

  /** Decompression undoes compression. */
  ghost predicate RoundTrips(c: Codec) {
    forall b :: c.decompress(c.compress(b)) == Some(b)
  }

  /** `preStore`: sidecars as they are, everything else compressed. */
  function PreStore(c: Codec, path: string, bytes: Bytes, pattern: Pattern): Result<Bytes> {
    var sidecar :- IsSidecarPath(Parse(path), pattern);
    if sidecar then Ok(bytes) else Ok(c.compress(bytes))
  }

  /** `postRetrieve`: sidecars as they are, everything else decompressed,
      a corrupt stream reported as "Failed to decompress data". */
  function PostRetrieve(c: Codec, path: string, bytes: Bytes, pattern: Pattern): Result<Bytes> {
    var sidecar :- IsSidecarPath(Parse(path), pattern);
    if sidecar then Ok(bytes)
    else match c.decompress(bytes)
      case None => Err(Runtime("Failed to decompress data"))
      case Some(b) => Ok(b)
  }

  /** Sidecar bytes pass through both directions unchanged, and every other
      path's bytes are compressed on the way in. */
  lemma SidecarUnchanged(c: Codec, path: string, bytes: Bytes, pattern: Pattern)
    ensures IsSidecarPath(Parse(path), pattern) == Ok(true) ==>
      PreStore(c, path, bytes, pattern) == Ok(bytes) && PostRetrieve(c, path, bytes, pattern) == Ok(bytes)
    ensures IsSidecarPath(Parse(path), pattern) == Ok(false) ==>
      PreStore(c, path, bytes, pattern) == Ok(c.compress(bytes))
  {
  }

  /** Whatever `preStore` stores, `postRetrieve` gives back. */
  lemma StoreRoundTrip(c: Codec, path: string, bytes: Bytes, pattern: Pattern)
    requires RoundTrips(c)
    requires PreStore(c, path, bytes, pattern).Ok?
    ensures PostRetrieve(c, path, PreStore(c, path, bytes, pattern).value, pattern) == Ok(bytes)
  {
  }

  /** Both directions fail on the same paths, whatever the bytes. */
  lemma SamePathsFail(c: Codec, path: string, stored: Bytes, bytes: Bytes, pattern: Pattern)
    ensures PreStore(c, path, bytes, pattern).Err? <==> IsSidecarPath(Parse(path), pattern).Err?
    ensures IsSidecarPath(Parse(path), pattern).Err? ==> PostRetrieve(c, path, stored, pattern).Err?
  {
  }

  // ---------------------------------------------------------------------
  // The unescaped dot

  const LookAlike := "inventoryXjson.sha512"

  /** A name that is not a sidecar passes the compiled pattern: the
      unescaped dot matches the 'X'.  As compiled, the filter accepts it,
      `test` stores its bytes, and `preStore` and `postRetrieve` pass them
      through unchanged; as intended it is rejected and not stored, and its
      bytes would be compressed. */
  lemma SidecarCounterexample(c: Codec, bytes: Bytes)
    ensures SidecarPattern(LookAlike) && !IsSidecarName(LookAlike)
    ensures Accept(LookAlike, Compiled) == Ok(true) && Accept(LookAlike, Intended) == Ok(false)
    ensures Test(LookAlike, Compiled) == Ok(true) && Test(LookAlike, Intended) == Ok(false)
    ensures PreStore(c, LookAlike, bytes, Compiled) == Ok(bytes)
    ensures PostRetrieve(c, LookAlike, bytes, Compiled) == Ok(bytes)
    ensures PreStore(c, LookAlike, bytes, Intended) == Ok(c.compress(bytes))
  {
    LookAlikeMatches();
    LookAlikeBare();
    LookAlikeJudged(LookAlike);
  }

  lemma LookAlikeMatches()
    ensures SidecarPattern(LookAlike) && !IsSidecarName(LookAlike)
  {
    assert LookAlike[..9] == "inventory";
    assert LookAlike[10..15] == "json.";
    assert LookAlike[..15][9] == 'X';
  }

  lemma LookAlikeBare()
    ensures LookAlike != InventoryName && '/' !in LookAlike
  {
    assert LookAlike[9] == 'X';
  }

  /** A bare name that only the compiled pattern matches is a sidecar as
      written and an ordinary file as meant. */
  lemma LookAlikeJudged(n: string)
    requires SidecarPattern(n) && !IsSidecarName(n)
    requires n != InventoryName && '/' !in n
    ensures Accept(n, Compiled) == Ok(true) && Accept(n, Intended) == Ok(false)
    ensures IsSidecarPath(Parse(n), Compiled) == Ok(true) && IsSidecarPath(Parse(n), Intended) == Ok(false)
    ensures Test(n, Compiled) == Ok(true) && Test(n, Intended) == Ok(false)
  {
    ParseBareName(n);
  }

  /** A name without a slash parses to a relative path of that one name. */
  lemma ParseBareName(n: string)
    requires n != "" && '/' !in n
    ensures Parse(n) == JPath(false, [n])
  {
    assert JavaStrings.Join([n]) == n;
    ParseJoin([n]);
  }
}

=== FILE: item_db.dfy ===
/** The `layerstore` layer index DAO (`layerstore.LayerDatabaseImpl` over
    `ItemRecord`).  It shares the table and the named queries with the other
    variant but differs in its argument errors, its root listing, its
    deletion by identity, and in `addDirectory`, which writes into the
    greatest layer present and starts its walk at the root `""`. */
module ItemDatabase {
  import opened Outcomes
  import opened JavaStrings
  import opened Like
  import opened Records
  import opened Queries

  /** `layerstore.Item`: the path and type of a record. */
  datatype Item = Item(path: string, kind: Kind)

  /** `ItemRecord.toItem`: keeps path and type, drops identity, layer and content. */
  function ToItem(r: Record): Item {
    Item(r.path, r.kind)
  }

  function ToItems(recs: seq<Record>): (r: seq<Item>)
    ensures |r| == |recs| && forall i :: 0 <= i < |recs| ==> r[i] == ToItem(recs[i])
  {
    seq(|recs|, i requires 0 <= i < |recs| => ToItem(recs[i]))
  }

  lemma ItemsOf(recs: seq<Record>)
    ensures forall it :: it in ToItems(recs) <==> exists x :: x in recs && ToItem(x) == it
  {
    forall it | it in ToItems(recs) ensures exists x :: x in recs && ToItem(x) == it {
      var i :| 0 <= i < |recs| && ToItems(recs)[i] == it;
      assert recs[i] in recs;
    }
    forall it | exists x :: x in recs && ToItem(x) == it ensures it in ToItems(recs) {
      var x :| x in recs && ToItem(x) == it;
      var i :| 0 <= i < |recs| && recs[i] == x;
      assert ToItems(recs)[i] == it;
    }
  }

  // ---------------------------------------------------------------------
  // deleteRecordsById

  /** No identity is named twice. */
  predicate DistinctIds(ids: seq<int>) {
    forall j, k :: 0 <= j < k < |ids| ==> ids[j] != ids[k]
  }

  /** `x` carries one of the identities `ids`. */
  predicate NamedBy(x: Record, ids: seq<int>) {
    exists k :: 0 <= k < |ids| && x.generatedId == Some(ids[k])
  }

  /** `deleteRecordsById`: `get(id)` of an identity that is not stored (or was
      deleted earlier in the same call) is null, and deleting null fails. */
  function DeleteRecordsById(db: Db, ids: seq<int>): Result<Db>
    decreases |ids|
  {
    if |ids| == 0 then Ok(db)
    else if !HasId(db.rows, ids[0]) then Err(IllegalArgument("attempt to create delete event with null entity"))
    else DeleteRecordsById(Db(RemoveId(db.rows, Some(ids[0])), db.nextId), ids[1..])
  }

  lemma DeleteStep(rows: seq<Record>, ids: seq<int>)
    requires |ids| > 0 && HasId(rows, ids[0])
    ensures (forall k :: 0 <= k < |ids| ==> HasId(rows, ids[k])) && DistinctIds(ids) <==>
      (forall k :: 0 <= k < |ids[1..]| ==> HasId(RemoveId(rows, Some(ids[0])), ids[1..][k])) && DistinctIds(ids[1..])
    ensures forall x :: NamedBy(x, ids) <==> x.generatedId == Some(ids[0]) || NamedBy(x, ids[1..])
  {
    RemoveIdHas(rows, ids[0]);
    DeleteStepChecks(rows, ids);
    NamedByStep(ids);
  }

  /** Removing the rows of one identity removes exactly that identity. */
  lemma RemoveIdHas(rows: seq<Record>, id: int)
    ensures forall v :: HasId(RemoveId(rows, Some(id)), v) <==> HasId(rows, v) && v != id
  {
    var rows' := RemoveId(rows, Some(id));
    forall v | true ensures HasId(rows', v) <==> HasId(rows, v) && v != id {
      if HasId(rows', v) {
        var i :| 0 <= i < |rows'| && rows'[i].generatedId == Some(v);
        assert rows'[i] in rows;
      }
      if HasId(rows, v) && v != id {
        var i :| 0 <= i < |rows| && rows[i].generatedId == Some(v);
        assert rows[i] in rows';
      }
    }
  }

  lemma DeleteStepChecks(rows: seq<Record>, ids: seq<int>)
    requires |ids| > 0 && HasId(rows, ids[0])
    requires forall v :: HasId(RemoveId(rows, Some(ids[0])), v) <==> HasId(rows, v) && v != ids[0]
    ensures (forall k :: 0 <= k < |ids| ==> HasId(rows, ids[k])) && DistinctIds(ids) <==>
      (forall k :: 0 <= k < |ids[1..]| ==> HasId(RemoveId(rows, Some(ids[0])), ids[1..][k])) && DistinctIds(ids[1..])
  {
    var rows' := RemoveId(rows, Some(ids[0]));
    var tail := ids[1..];
    if (forall k :: 0 <= k < |tail| ==> HasId(rows', tail[k])) && DistinctIds(tail) {
      forall j, k | 0 <= j < k < |ids| ensures ids[j] != ids[k] {
        assert ids[k] == tail[k - 1];
        if j > 0 { assert ids[j] == tail[j - 1]; }
      }
      forall k | 0 <= k < |ids| ensures HasId(rows, ids[k]) {
        if k > 0 { assert ids[k] == tail[k - 1]; }
      }
    }
    if (forall k :: 0 <= k < |ids| ==> HasId(rows, ids[k])) && DistinctIds(ids) {
      forall k | 0 <= k < |tail| ensures HasId(rows', tail[k]) {
        assert tail[k] == ids[k + 1];
      }
      forall j, k | 0 <= j < k < |tail| ensures tail[j] != tail[k] {
        assert tail[j] == ids[j + 1] && tail[k] == ids[k + 1];
      }
    }
  }

  lemma NamedByStep(ids: seq<int>)
    requires |ids| > 0
    ensures forall x :: NamedBy(x, ids) <==> x.generatedId == Some(ids[0]) || NamedBy(x, ids[1..])
  {
    var tail := ids[1..];
    forall x | NamedBy(x, ids) && x.generatedId != Some(ids[0]) ensures NamedBy(x, tail) {
      var k :| 0 <= k < |ids| && x.generatedId == Some(ids[k]);
      assert tail[k - 1] == ids[k];
    }
    forall x | NamedBy(x, tail) ensures NamedBy(x, ids) {
      var k :| 0 <= k < |tail| && x.generatedId == Some(tail[k]);
      assert ids[k + 1] == tail[k];
    }
  }

  /** Deleting by identities succeeds exactly when each is stored and named
      once; it removes exactly the rows carrying them, keeps every other row,
      and with no identities changes nothing. */
  lemma {:induction false} DeleteRecordsByIdLaw(db: Db, ids: seq<int>)
    requires Valid(db)
    ensures DeleteRecordsById(db, ids).Ok? <==> (forall k :: 0 <= k < |ids| ==> HasId(db.rows, ids[k])) && DistinctIds(ids)
    ensures DeleteRecordsById(db, ids).Ok? ==>
      && Valid(DeleteRecordsById(db, ids).value)
      && DeleteRecordsById(db, ids).value.nextId == db.nextId
      && forall x :: x in DeleteRecordsById(db, ids).value.rows <==> x in db.rows && !NamedBy(x, ids)
    ensures |ids| == 0 ==> DeleteRecordsById(db, ids) == Ok(db)
    decreases |ids|
  {
    if |ids| > 0 && HasId(db.rows, ids[0]) {
      var db' := Db(RemoveId(db.rows, Some(ids[0])), db.nextId);
      RemoveIdValid(db, Some(ids[0]));
      DeleteRecordsByIdLaw(db', ids[1..]);
      DeleteStep(db.rows, ids);
    }
  }

  // ---------------------------------------------------------------------
  // Listings

  /** `preprocessDirectoryArgument` of this variant: the same checks as the
      other, reported as `IllegalArgumentException`s. */
  function PreprocessDirectoryArgument(rows: seq<Record>, dir: Option<string>): (r: Result<string>)
    ensures dir.None? ==> r == Err(IllegalArgument("directoryPath must not be null"))
    ensures dir.Some? && IsBlank(dir.value) ==> r == Ok(dir.value)
    ensures dir.Some? && !IsBlank(dir.value) && !HasPath(rows, dir.value) ==>
      r == Err(IllegalArgument("No such directory: " + dir.value))
    ensures dir.Some? && !IsBlank(dir.value) && HasPath(rows, dir.value) && HasNonDirectory(rows, dir.value) ==>
      r == Err(IllegalArgument("Not a directory: " + dir.value))
    ensures dir.Some? && !IsBlank(dir.value) && HasPath(rows, dir.value) && !HasNonDirectory(rows, dir.value) ==>
      r.Ok? && EndsWithSlash(r.value) && (r.value == dir.value || r.value == dir.value + "/")
      && (EndsWithSlash(dir.value) ==> r.value == dir.value)
  {
    if dir.None? then Err(IllegalArgument("directoryPath must not be null"))
    else
      var d := dir.value;
      if IsBlank(d) then Ok(d)
      else
        var recs := ByPath(rows, d);
        if |recs| == 0 then
          Err(IllegalArgument("No such directory: " + d))
        else if exists x :: x in recs && x.kind != Directory then
          assert HasPath(rows, d) by { assert recs[0] in rows; }
          Err(IllegalArgument("Not a directory: " + d))
        else
          assert HasPath(rows, d) by { assert recs[0] in rows; }
          Ok(if EndsWithSlash(d) then d else d + "/")
  }

  /** `listDirectory`: the root `""` is answered by the root query. */
  function ListDirectory(db: Db, dir: Option<string>): Result<seq<Item>> {
    var d :- PreprocessDirectoryArgument(db.rows, dir);
    if d == "" then Ok(ToItems(ListRootDirectoryQuery(db.rows)))
    else Ok(ToItems(ListDirectoryQuery(db.rows, d)))
  }

  function ListRecursive(db: Db, dir: Option<string>): Result<seq<Item>> {
    var d :- PreprocessDirectoryArgument(db.rows, dir);
    Ok(ToItems(ListRecursiveQuery(db.rows, d)))
  }

  /** Listing the root never lists the root itself: every item is a
      non-empty top-level path, and every greatest-layer top-level row is
      listed. */
  lemma ListRootNeverListsItself(db: Db)
    ensures ListDirectory(db, Some("")).Ok?
    ensures forall it :: it in ListDirectory(db, Some("")).value ==>
      it.path != "" && '/' !in it.path && exists x :: x in db.rows && ToItem(x) == it
    ensures forall x :: x in db.rows && x.path != "" && '/' !in x.path && IsNewest(db.rows, x) ==>
      ToItem(x) in ListDirectory(db, Some("")).value
  {
    ListRootDirectoryLaw(db.rows);
    ItemsOf(ListRootDirectoryQuery(db.rows));
  }

  /** Below the root, `listDirectory` lists direct children only, and every
      greatest-layer child. */
  lemma ListDirectoryLaw(db: Db, dir: string)
    requires Literal(dir) && dir != ""
    ensures ListDirectory(db, Some(dir)).Err? <==> PreprocessDirectoryArgument(db.rows, Some(dir)).Err?
    ensures ListDirectory(db, Some(dir)).Ok? ==>
      var d := PreprocessDirectoryArgument(db.rows, Some(dir)).value;
      && (forall it :: it in ListDirectory(db, Some(dir)).value ==> exists x :: x in db.rows && IsChild(x.path, d) && ToItem(x) == it)
      && (forall x :: x in db.rows && IsChild(x.path, d) && IsNewest(db.rows, x) ==> ToItem(x) in ListDirectory(db, Some(dir)).value)
  {
    var r := PreprocessDirectoryArgument(db.rows, Some(dir));
    if r.Ok? {
      var d := r.value;
      PreprocessedLiteral(db.rows, dir);
      assert d != "";
      ListDirectoryQueryLaw(db.rows, d);
      ItemsOf(ListDirectoryQuery(db.rows, d));
    }
  }

  /** A preprocessed argument is non-empty and wildcard-free when the
      argument is. */
  lemma PreprocessedLiteral(rows: seq<Record>, dir: string)
    requires Literal(dir) && dir != "" && PreprocessDirectoryArgument(rows, Some(dir)).Ok?
    ensures var d := PreprocessDirectoryArgument(rows, Some(dir)).value;
      Literal(d) && d != ""
  {
  }

  // ---------------------------------------------------------------------
  // addDirectory

  /** The rows of `path` do not all have the same type. */
  predicate Mixed(rows: seq<Record>, path: string) {
    exists i, j :: 0 <= i < |rows| && 0 <= j < |rows| && rows[i].path == path && rows[j].path == path && rows[i].kind != rows[j].kind
  }

  /** The loop of `addDirectory` over the walked prefixes: it returns the new
      table and the records it inserted.  `getTopLayerId()` is asked again at
      every step; over an empty table it yields null and dereferencing it
      fails. */
  function AddDirLoop(db: Db, ps: seq<string>): (r: Result<(Db, seq<Record>)>)
    requires Valid(db)
    ensures r.Ok? ==> Valid(r.value.0)
    decreases |ps|
  {
    if |ps| == 0 then Ok((db, []))
    else if Mixed(db.rows, ps[0]) then
      Err(IllegalState("Encountered records of different types in: " + ps[0]))
    else match TopLayerId(db.rows)
      case None => Err(NullPointer)
      case Some(top) =>
        if HasLayerRow(db.rows, top, ps[0]) then AddDirLoop(db, ps[1..])
        else
          var rec := Record(Some(db.nextId), top, ps[0], Directory, None);
          var rest :- AddDirLoop(Save(db, Record(None, top, ps[0], Directory, None)), ps[1..]);
          Ok((rest.0, [rec] + rest.1))
  }

  /** `getPathComponents` prepends the root, so the walk starts at `""`. */
  function AddDirectoryPrefixes(path: string): seq<string> {
    WalkPrefixes("", [""] + Split(path))
  }

  /** `addDirectory(path)`. */
  function AddDirectory(db: Db, path: string): Result<(Db, seq<Record>)>
    requires Valid(db)
  {
    AddDirLoop(db, AddDirectoryPrefixes(path))
  }

  /** Appending rows of the top layer keeps the top layer. */
  lemma TopLayerExtend(rows: seq<Record>, added: seq<Record>)
    requires |rows| > 0
    requires forall x :: x in added ==> x.layerId == TopLayerId(rows).value
    ensures TopLayerId(rows + added) == TopLayerId(rows)
  {
    var top := TopLayerId(rows).value;
    var t := TopLayerId(rows + added).value;
    var m :| m in rows && m.layerId == top;
    assert m in rows + added;
    var y :| y in rows + added && y.layerId == t;
    if y !in added {
      assert y in rows;
    }
  }

  /** Inserting a row at `q` changes no other path's type mix. */
  lemma MixedElsewhere(rows: seq<Record>, rec: Record, p: string)
    requires rec.path != p
    ensures Mixed(rows + [rec], p) <==> Mixed(rows, p)
  {
    var rows' := rows + [rec];
    if Mixed(rows', p) {
      var i, j :| 0 <= i < |rows'| && 0 <= j < |rows'| && rows'[i].path == p && rows'[j].path == p && rows'[i].kind != rows'[j].kind;
      assert i < |rows| && j < |rows|;
      assert rows[i] == rows'[i] && rows[j] == rows'[j];
    }
    if Mixed(rows, p) {
      var i, j :| 0 <= i < |rows| && 0 <= j < |rows| && rows[i].path == p && rows[j].path == p && rows[i].kind != rows[j].kind;
      assert rows'[i] == rows[i] && rows'[j] == rows[j];
    }
  }

  /** A walk without repeats: the rest of it never revisits its head. */
  lemma DistinctTail(ps: seq<string>)
    requires |ps| > 0 && forall i, j :: 0 <= i < j < |ps| ==> ps[i] != ps[j]
    ensures forall i, j :: 0 <= i < j < |ps[1..]| ==> ps[1..][i] != ps[1..][j]
    ensures ps[0] !in ps[1..]
  {
    forall i, j | 0 <= i < j < |ps[1..]| ensures ps[1..][i] != ps[1..][j] {
      assert ps[1..][i] == ps[i + 1] && ps[1..][j] == ps[j + 1];
    }
  }

  /** A prefix that already has a row in the layer adds nothing to extend. */
  lemma ExtendsSkip(db: Db, after: Db, layer: int, ps: seq<string>)
    requires |ps| > 0 && HasLayerRow(db.rows, layer, ps[0])
    requires ExtendsWithDirectories(db, after, layer, ps[1..])
    ensures ExtendsWithDirectories(db, after, layer, ps)
  {
    forall k | 0 <= k < |ps| ensures HasLayerRow(after.rows, layer, ps[k]) {
      if k == 0 {
        var i :| 0 <= i < |db.rows| && db.rows[i].path == ps[0] && db.rows[i].layerId == layer;
        assert after.rows[i] == after.rows[..|db.rows|][i];
      } else {
        assert ps[k] == ps[1..][k - 1];
      }
    }
    forall i | |db.rows| <= i < |after.rows| ensures after.rows[i].path in ps {
      assert after.rows[i].path in ps[1..];
    }
  }

  /** One unfolding of the loop at a prefix that gets a new directory row. */
  lemma AddDirLoopUnfold(db: Db, ps: seq<string>)
    requires Valid(db) && |db.rows| > 0 && |ps| > 0
    requires !Mixed(db.rows, ps[0]) && !HasLayerRow(db.rows, TopLayerId(db.rows).value, ps[0])
    ensures var next := Save(db, Record(None, TopLayerId(db.rows).value, ps[0], Directory, None));
      var rec := Record(Some(db.nextId), TopLayerId(db.rows).value, ps[0], Directory, None);
      && (AddDirLoop(db, ps).Err? <==> AddDirLoop(next, ps[1..]).Err?)
      && (AddDirLoop(db, ps).Err? ==> AddDirLoop(db, ps).error == AddDirLoop(next, ps[1..]).error)
      && (AddDirLoop(db, ps).Ok? ==> AddDirLoop(db, ps).value == (AddDirLoop(next, ps[1..]).value.0, [rec] + AddDirLoop(next, ps[1..]).value.1))
  {
  }

  /** A new directory row at the first prefix, followed by an extension by
      the rest, extends by all prefixes. */
  lemma ExtendsInsert(db: Db, layer: int, ps: seq<string>, after: Db, added: seq<Record>)
    requires Valid(db) && |ps| > 0 && !HasLayerRow(db.rows, layer, ps[0])
    requires var next := Save(db, Record(None, layer, ps[0], Directory, None));
      after.rows == next.rows + added && ExtendsWithDirectories(next, after, layer, ps[1..])
    ensures after.rows == db.rows + ([Record(Some(db.nextId), layer, ps[0], Directory, None)] + added)
    ensures ExtendsWithDirectories(db, after, layer, ps)
  {
    var next := Save(db, Record(None, layer, ps[0], Directory, None));
    ExtendsOne(db, layer, ps[0]);
    ExtendsCompose(db, next, after, layer, ps);
  }

  /** The loop over distinct prefixes in a non-empty table fails exactly
      when some prefix is mixed, and then with an `IllegalStateException`. */
  lemma {:induction false} AddDirLoopFails(db: Db, ps: seq<string>)
    requires Valid(db) && |db.rows| > 0
    requires forall i, j :: 0 <= i < j < |ps| ==> ps[i] != ps[j]
    ensures AddDirLoop(db, ps).Err? <==> exists q :: q in ps && Mixed(db.rows, q)
    ensures AddDirLoop(db, ps).Err? ==> AddDirLoop(db, ps).error.IllegalState?
    decreases |ps|
  {
    if |ps| > 0 && !Mixed(db.rows, ps[0]) {
      var top := TopLayerId(db.rows).value;
      DistinctTail(ps);
      MixedInTail(db.rows, ps);
      if HasLayerRow(db.rows, top, ps[0]) {
        SkipPresent(db, ps);
        AddDirLoopFails(db, ps[1..]);
      } else {
        var next := Save(db, Record(None, top, ps[0], Directory, None));
        InsertStep(db, ps);
        AddDirLoopFails(next, ps[1..]);
      }
    }
  }

  /** The facts about one inserting step of the loop that the failure
      analysis needs. */
  lemma InsertStep(db: Db, ps: seq<string>)
    requires Valid(db) && |db.rows| > 0 && |ps| > 0 && ps[0] !in ps[1..]
    requires !Mixed(db.rows, ps[0]) && !HasLayerRow(db.rows, TopLayerId(db.rows).value, ps[0])
    ensures var next := Save(db, Record(None, TopLayerId(db.rows).value, ps[0], Directory, None));
      && Valid(next) && |next.rows| > 0
      && (AddDirLoop(db, ps).Err? <==> AddDirLoop(next, ps[1..]).Err?)
      && (AddDirLoop(db, ps).Err? ==> AddDirLoop(db, ps).error == AddDirLoop(next, ps[1..]).error)
      && ((exists q :: q in ps[1..] && Mixed(next.rows, q)) <==> (exists q :: q in ps[1..] && Mixed(db.rows, q)))
  {
    var top := TopLayerId(db.rows).value;
    var rec := Record(Some(db.nextId), top, ps[0], Directory, None);
    var next := Save(db, Record(None, top, ps[0], Directory, None));
    AddDirLoopUnfold(db, ps);
    assert next.rows == db.rows + [rec];
    MixedInTailAfterInsert(db.rows, rec, ps);
  }

  /** With the first prefix unmixed, a mixed prefix lies in the rest. */
  lemma MixedInTail(rows: seq<Record>, ps: seq<string>)
    requires |ps| > 0 && !Mixed(rows, ps[0])
    ensures (exists q :: q in ps && Mixed(rows, q)) <==> (exists q :: q in ps[1..] && Mixed(rows, q))
  {
    assert ps == [ps[0]] + ps[1..];
  }

  /** A row at the first prefix leaves the rest mixed or unmixed as it was. */
  lemma MixedInTailAfterInsert(rows: seq<Record>, rec: Record, ps: seq<string>)
    requires |ps| > 0 && rec.path == ps[0] && ps[0] !in ps[1..]
    ensures (exists q :: q in ps[1..] && Mixed(rows + [rec], q)) <==> (exists q :: q in ps[1..] && Mixed(rows, q))
  {
    forall q | q in ps[1..] ensures Mixed(rows + [rec], q) <==> Mixed(rows, q) {
      MixedElsewhere(rows, rec, q);
    }
  }

  /** A successful loop in a non-empty table appends the records it
      returns, extending the table by directories in the top layer; a
      prefix that comes again finds the row made for it and adds nothing. */
  lemma {:induction false} AddDirLoopExtends(db: Db, ps: seq<string>)
    requires Valid(db) && |db.rows| > 0
    requires AddDirLoop(db, ps).Ok?
    ensures AddDirLoop(db, ps).value.0.rows == db.rows + AddDirLoop(db, ps).value.1
    ensures ExtendsWithDirectories(db, AddDirLoop(db, ps).value.0, TopLayerId(db.rows).value, ps)
    decreases |ps|
  {
    var top := TopLayerId(db.rows).value;
    if |ps| == 0 {
      assert db.rows + [] == db.rows;
      assert db.rows[..|db.rows|] == db.rows;
    } else {
      var q := ps[0];
      var tail := ps[1..];
      if HasLayerRow(db.rows, top, q) {
        AddDirLoopExtends(db, tail);
        ExtendsSkip(db, AddDirLoop(db, ps).value.0, top, ps);
      } else {
        var rec := Record(Some(db.nextId), top, q, Directory, None);
        var next := Save(db, Record(None, top, q, Directory, None));
        AddDirLoopUnfold(db, ps);
        TopLayerExtend(db.rows, [rec]);
        AddDirLoopExtends(next, tail);
        var rest := AddDirLoop(next, tail).value;
        ExtendsInsert(db, top, ps, rest.0, rest.1);
      }
    }
  }

  /** The walk of `addDirectory` over a well-formed path: the root first,
      then each boundary prefix once. */
  lemma AddDirectoryPrefixesWalk(path: string)
    requires WellFormedPath(path)
    ensures |AddDirectoryPrefixes(path)| > 0 && AddDirectoryPrefixes(path)[0] == ""
    ensures forall q :: q in AddDirectoryPrefixes(path) <==> q == "" || IsBoundaryPrefix(q, path)
    ensures forall i, j :: 0 <= i < j < |AddDirectoryPrefixes(path)| ==> AddDirectoryPrefixes(path)[i] != AddDirectoryPrefixes(path)[j]
  {
    var walk := WalkPrefixes("", Split(path));
    var ps := AddDirectoryPrefixes(path);
    assert ([""] + Split(path))[1..] == Split(path);
    assert ps == [""] + walk;
    WalkDistinct(path);
    forall q ensures q in walk <==> IsBoundaryPrefix(q, path) {
      WalkVisitsBoundaryPrefixes(path, q);
    }
    RootThenDistinct(walk);
  }

  /** The root followed by distinct non-empty prefixes is distinct. */
  lemma RootThenDistinct(walk: seq<string>)
    requires forall i, j :: 0 <= i < j < |walk| ==> walk[i] != walk[j]
    requires "" !in walk
    ensures var ps := [""] + walk; forall i, j :: 0 <= i < j < |ps| ==> ps[i] != ps[j]
  {
    var ps := [""] + walk;
    forall i, j | 0 <= i < j < |ps| ensures ps[i] != ps[j] {
      if i == 0 {
        assert ps[j] == walk[j - 1];
      } else {
        assert ps[i] == walk[i - 1] && ps[j] == walk[j - 1];
      }
    }
  }

  /** `addDirectory` on a well-formed path in a non-empty table fails
      exactly when the root or some prefix holds rows of mixed types (a
      prefix held only by files is accepted), and then with an
      `IllegalStateException`. */
  lemma AddDirectoryFails(db: Db, path: string)
    requires Valid(db) && |db.rows| > 0 && WellFormedPath(path)
    ensures AddDirectory(db, path).Err? <==>
      Mixed(db.rows, "") || exists q :: IsBoundaryPrefix(q, path) && Mixed(db.rows, q)
    ensures AddDirectory(db, path).Err? ==> AddDirectory(db, path).error.IllegalState?
  {
    AddDirectoryPrefixesWalk(path);
    AddDirLoopFails(db, AddDirectoryPrefixes(path));
  }

  /** A successful `addDirectory` appends exactly the records it returns,
      each a content-less directory in the top layer at a walked prefix
      that had no row in that layer, no two at the same path; afterwards
      every walked prefix has a row in the top layer.  For a well-formed
      path the walked prefixes are the root and the boundary prefixes. */
  lemma AddDirectoryLaw(db: Db, path: string)
    requires Valid(db) && |db.rows| > 0
    requires AddDirectory(db, path).Ok?
    ensures
      var (after, added) := AddDirectory(db, path).value;
      var top := TopLayerId(db.rows).value;
      && after.rows == db.rows + added
      && (forall i :: 0 <= i < |added| ==>
            added[i] == Record(added[i].generatedId, top, added[i].path, Directory, None)
            && added[i].path in AddDirectoryPrefixes(path)
            && !HasLayerRow(db.rows, top, added[i].path))
      && (forall i, j :: 0 <= i < j < |added| ==> added[i].path != added[j].path)
      && (forall q :: q in AddDirectoryPrefixes(path) ==> HasLayerRow(after.rows, top, q))
      && (WellFormedPath(path) ==>
            && (forall i :: 0 <= i < |added| ==> added[i].path == "" || IsBoundaryPrefix(added[i].path, path))
            && HasLayerRow(after.rows, top, "")
            && (forall q :: IsBoundaryPrefix(q, path) ==> HasLayerRow(after.rows, top, q)))
  {
    var ps := AddDirectoryPrefixes(path);
    AddDirLoopExtends(db, ps);
    var (after, added) := AddDirectory(db, path).value;
    forall i | 0 <= i < |added| ensures added[i] == after.rows[|db.rows| + i] {
    }
    forall q | q in ps ensures HasLayerRow(after.rows, TopLayerId(db.rows).value, q) {
      var k :| 0 <= k < |ps| && ps[k] == q;
    }
    if WellFormedPath(path) {
      AddDirectoryPrefixesWalk(path);
    }
  }

  /** `addDirectory` in a non-empty table fails whenever the root or a
      walked prefix holds rows of mixed types, and it fails only with an
      `IllegalStateException`, whatever the path. */
  lemma AddDirectoryMixedFails(db: Db, path: string)
    requires Valid(db) && |db.rows| > 0
    ensures (exists q :: q in AddDirectoryPrefixes(path) && Mixed(db.rows, q)) ==> AddDirectory(db, path).Err?
    ensures AddDirectory(db, path).Err? ==> AddDirectory(db, path).error.IllegalState?
  {
    AddDirLoopMixedFails(db, AddDirectoryPrefixes(path));
  }

  /** The loop in a non-empty table fails when some prefix is mixed, since
      adding directory rows never unmixes a path, and every failure is an
      `IllegalStateException`. */
  lemma {:induction false} AddDirLoopMixedFails(db: Db, ps: seq<string>)
    requires Valid(db) && |db.rows| > 0
    ensures (exists q :: q in ps && Mixed(db.rows, q)) ==> AddDirLoop(db, ps).Err?
    ensures AddDirLoop(db, ps).Err? ==> AddDirLoop(db, ps).error.IllegalState?
    decreases |ps|
  {
    if |ps| > 0 && !Mixed(db.rows, ps[0]) {
      var top := TopLayerId(db.rows).value;
      MixedInTail(db.rows, ps);
      if HasLayerRow(db.rows, top, ps[0]) {
        SkipPresent(db, ps);
        AddDirLoopMixedFails(db, ps[1..]);
      } else {
        var rec := Record(Some(db.nextId), top, ps[0], Directory, None);
        var next := Save(db, Record(None, top, ps[0], Directory, None));
        AddDirLoopUnfold(db, ps);
        assert next.rows == db.rows + [rec];
        forall q | q in ps[1..] && Mixed(db.rows, q) ensures Mixed(next.rows, q) {
          MixedStays(db.rows, rec, q);
        }
        AddDirLoopMixedFails(next, ps[1..]);
      }
    }
  }

  /** An appended row never unmixes a path. */
  lemma MixedStays(rows: seq<Record>, rec: Record, p: string)
    requires Mixed(rows, p)
    ensures Mixed(rows + [rec], p)
  {
    var i, j :| 0 <= i < |rows| && 0 <= j < |rows| && rows[i].path == p && rows[j].path == p && rows[i].kind != rows[j].kind;
    assert (rows + [rec])[i] == rows[i] && (rows + [rec])[j] == rows[j];
  }

  /** A path with a leading '/' is not well formed: its walk visits the
      root twice, so a root held only by files of lower layers is given a
      directory row on the first visit and found mixed on the second. */
  lemma PrefixesOfRootedA()
    ensures AddDirectoryPrefixes("/a") == ["", "", "a"]
  {
    var empty := [""];
    assert "a"[0] == 'a' && "a"[1..] == "" && RawSplit("") == empty;
    assert empty[0] == "" && empty[1..] == [] && ['a'] + "" == "a";
    assert RawSplit("a") == ["a"];
    assert "/a"[0] == '/' && "/a"[1..] == "a";
    assert RawSplit("/a") == ["", "a"];
    assert Split("/a") == ["", "a"];
    assert [""] + Split("/a") == ["", "", "a"];
    var walk := ["", "", "a"];
    assert walk[1..] == ["", "a"] && walk[1..][1..] == ["a"] && ["a"][1..] == [];
    assert WalkPrefixes("", ["a"]) == ["a"];
    assert WalkPrefixes("", ["", "a"]) == ["", "a"];
  }

  /** Over an empty table there is no top layer and `addDirectory` fails. */
  lemma AddDirectoryEmptyTable(nextId: int, path: string)
    ensures AddDirectory(Db([], nextId), path) == Err(NullPointer)
  {
    assert !Mixed([], "");
  }

  /** A table where every prefix already has a row in the top layer and none
      is mixed is left unchanged, with nothing returned. */
  lemma {:induction false} AddDirLoopNothingToDo(db: Db, ps: seq<string>)
    requires Valid(db) && |db.rows| > 0
    requires forall k :: 0 <= k < |ps| ==> HasLayerRow(db.rows, TopLayerId(db.rows).value, ps[k]) && !Mixed(db.rows, ps[k])
    ensures AddDirLoop(db, ps) == Ok((db, []))
    decreases |ps|
  {
    if |ps| > 0 {
      AddDirLoopNothingToDo(db, ps[1..]);
    }
  }

  /** Appending directory rows cannot mix a path that held only directories. */
  lemma DirectoriesKeepUnmixed(rows: seq<Record>, added: seq<Record>, p: string)
    requires forall x :: x in added ==> x.kind == Directory
    requires !HasNonDirectory(rows, p)
    ensures !Mixed(rows + added, p)
  {
    var all := rows + added;
    forall i | 0 <= i < |all| && all[i].path == p ensures all[i].kind == Directory {
      if i < |rows| { assert all[i] == rows[i]; } else { assert all[i] == added[i - |rows|]; }
    }
  }

  /** Repeating `addDirectory` returns no records and changes nothing, as
      long as no prefix held a file: a directory added over a file of a
      lower layer would make that prefix mixed. */
  lemma AddDirectoryAgain(db: Db, path: string)
    requires Valid(db) && |db.rows| > 0
    requires AddDirectory(db, path).Ok?
    requires forall q :: q in AddDirectoryPrefixes(path) ==> !HasNonDirectory(db.rows, q)
    ensures var after := AddDirectory(db, path).value.0;
      AddDirectory(after, path) == Ok((after, []))
  {
    var ps := AddDirectoryPrefixes(path);
    var (after, added) := AddDirectory(db, path).value;
    var top := TopLayerId(db.rows).value;
    AddDirLoopExtends(db, ps);
    AddedAreTopDirectories(db, after, added, top, ps);
    TopLayerExtend(db.rows, added);
    PrefixesStayUnmixed(db.rows, added, ps);
    AddDirLoopNothingToDo(after, ps);
  }

  /** The rows an extension appends are directories of its layer. */
  lemma AddedAreTopDirectories(db: Db, after: Db, added: seq<Record>, layer: int, ps: seq<string>)
    requires after.rows == db.rows + added && ExtendsWithDirectories(db, after, layer, ps)
    ensures forall x :: x in added ==> x.layerId == layer && x.kind == Directory
  {
    forall x | x in added ensures x.layerId == layer && x.kind == Directory {
      var i :| 0 <= i < |added| && added[i] == x;
      assert after.rows[|db.rows| + i] == x;
    }
  }

  /** Prefixes that held no file stay unmixed once directories are added. */
  lemma PrefixesStayUnmixed(rows: seq<Record>, added: seq<Record>, ps: seq<string>)
    requires forall x :: x in added ==> x.kind == Directory
    requires forall q :: q in ps ==> !HasNonDirectory(rows, q)
    ensures forall k :: 0 <= k < |ps| ==> !Mixed(rows + added, ps[k])
  {
    forall k | 0 <= k < |ps| ensures !Mixed(rows + added, ps[k]) {
      DirectoriesKeepUnmixed(rows, added, ps[k]);
    }
  }

  lemma PrefixesOfA()
    ensures AddDirectoryPrefixes("a") == ["", "a"]
  {
    assert Split("a") == ["a"];
    assert [""] + Split("a") == ["", "a"];
    assert ["", "a"][1..] == ["a"];
    assert WalkPrefixes("", ["a"]) == ["a"];
  }

  /** A prefix held only by a file of a lower layer is not rejected: a
      directory is added over it in the top layer. */
  lemma AddDirectoryOverFile()
    ensures var file := Record(Some(1), 1, "a", File, None);
            var root := Record(Some(2), 2, "", Directory, None);
            var dir := Record(Some(3), 2, "a", Directory, None);
            AddDirectory(Db([file, root], 3), "a") == Ok((Db([file, root, dir], 4), [dir]))
  {
    var file := Record(Some(1), 1, "a", File, None);
    var root := Record(Some(2), 2, "", Directory, None);
    var db := Db([file, root], 3);
    var dir := Record(Some(3), 2, "a", Directory, None);
    var next := Db([file, root, dir], 4);
    PrefixesOfA();
    ExampleDbsValid();
    OverFileFacts(db.rows);
    SkipPresent(db, ["", "a"]);
    assert ["", "a"][1..] == ["a"];
    InsertLast(db, "a");
    assert Save(db, Record(None, 2, "a", Directory, None)) == next;
  }

  /** A single prefix without a row in the top layer gets one. */
  lemma InsertLast(db: Db, q: string)
    requires Valid(db) && |db.rows| > 0 && !Mixed(db.rows, q)
    requires !HasLayerRow(db.rows, TopLayerId(db.rows).value, q)
    ensures var top := TopLayerId(db.rows).value;
      AddDirLoop(db, [q]) == Ok((Save(db, Record(None, top, q, Directory, None)), [Record(Some(db.nextId), top, q, Directory, None)]))
  {
    var top := TopLayerId(db.rows).value;
    var next := Save(db, Record(None, top, q, Directory, None));
    var rec := Record(Some(db.nextId), top, q, Directory, None);
    assert [q][1..] == [];
    assert AddDirLoop(next, [q][1..]) == Ok((next, []));
    AddDirLoopUnfold(db, [q]);
    assert [rec] + [] == [rec];
    assert AddDirLoop(db, [q]).value == (next, [rec]);
  }

  lemma OverFileFacts(rows: seq<Record>)
    requires rows == [Record(Some(1), 1, "a", File, None), Record(Some(2), 2, "", Directory, None)]
    ensures TopLayerId(rows) == Some(2)
    ensures !Mixed(rows, "") && !Mixed(rows, "a")
    ensures HasLayerRow(rows, 2, "") && !HasLayerRow(rows, 2, "a")
  {
    assert rows[1] in rows;
    assert forall x :: x in rows ==> x.layerId <= 2;
  }

  /** After a directory was added over a file, the same call fails: the
      prefix now holds rows of both types. */
  lemma AddDirectoryOverFileAgain()
    ensures var file := Record(Some(1), 1, "a", File, None);
            var root := Record(Some(2), 2, "", Directory, None);
            var dir := Record(Some(3), 2, "a", Directory, None);
            AddDirectory(Db([file, root, dir], 4), "a") == Err(IllegalState("Encountered records of different types in: " + "a"))
  {
    var file := Record(Some(1), 1, "a", File, None);
    var root := Record(Some(2), 2, "", Directory, None);
    var dir := Record(Some(3), 2, "a", Directory, None);
    var db := Db([file, root, dir], 4);
    PrefixesOfA();
    ExampleDbsValid();
    MixedAfterOverFile(db.rows);
    SkipPresent(db, ["", "a"]);
    assert ["", "a"][1..] == ["a"];
    MixedPrefixFails(db, ["a"]);
  }

  lemma ExampleDbsValid()
    ensures var file := Record(Some(1), 1, "a", File, None);
            var root := Record(Some(2), 2, "", Directory, None);
            var dir := Record(Some(3), 2, "a", Directory, None);
            Valid(Db([file, root], 3)) && Valid(Db([file, root, dir], 4))
  {
  }

  /** A prefix that already has a row in the top layer is passed over. */
  lemma SkipPresent(db: Db, ps: seq<string>)
    requires Valid(db) && |ps| > 0 && !Mixed(db.rows, ps[0])
    requires TopLayerId(db.rows).Some? && HasLayerRow(db.rows, TopLayerId(db.rows).value, ps[0])
    ensures AddDirLoop(db, ps) == AddDirLoop(db, ps[1..])
  {
  }

  lemma MixedPrefixFails(db: Db, ps: seq<string>)
    requires Valid(db) && |ps| > 0 && Mixed(db.rows, ps[0])
    ensures AddDirLoop(db, ps) == Err(IllegalState("Encountered records of different types in: " + ps[0]))
  {
  }

  lemma MixedAfterOverFile(rows: seq<Record>)
    requires rows == [Record(Some(1), 1, "a", File, None), Record(Some(2), 2, "", Directory, None), Record(Some(3), 2, "a", Directory, None)]
    ensures Mixed(rows, "a") && !Mixed(rows, "")
    ensures TopLayerId(rows) == Some(2) && HasLayerRow(rows, 2, "")
  {
    assert rows[0].kind != rows[2].kind;
    assert rows[1] in rows;
    assert forall x :: x in rows ==> x.layerId <= 2;
  }
}

=== FILE: java_longs.dfy ===
/** `Long.toString(long)`, which names every layer's staging directory and
    zip file, with `Long.parseLong` as its inverse. */
module JavaLongs {

  predicate IsDigit(c: char) {
    '0' <= c <= '9'
  }

  function DigitChar(d: nat): (c: char)
    requires d < 10
    ensures IsDigit(c) && (c as int) - ('0' as int) == d
  {
    (d + '0' as int) as char
  }

  /** The decimal digits of `n`, most significant first, without leading
      zeros. */
  function Digits(n: nat): (r: string)
    ensures |r| > 0 && forall i :: 0 <= i < |r| ==> IsDigit(r[i])
    ensures |r| > 1 <==> n >= 10
    decreases n
  {
    if n < 10 then [DigitChar(n)] else Digits(n / 10) + [DigitChar(n % 10)]
  }

  /** `Long.toString(n)`: a '-' for a negative number, then the digits. */
  function LongToString(n: int): (r: string)
    ensures |r| > 0 && '.' !in r && '/' !in r
    ensures (n < 0 <==> r[0] == '-')
  {
    var d := if n < 0 then Digits(-n) else Digits(n);
    assert IsDigit(d[0]);
    if n < 0 then "-" + d else d
  }

  /** The value of a string of digits. */
  function DigitsValue(s: string): nat
    requires forall i :: 0 <= i < |s| ==> IsDigit(s[i])
    decreases |s|
  {
    if |s| == 0 then 0
    else
      var last := s[|s| - 1];
      assert IsDigit(last);
      10 * DigitsValue(s[..|s| - 1]) + ((last as int) - ('0' as int))
  }

  /** `Long.parseLong(s)` on an optional '-' followed by digits. */
  function ParseLong(s: string): int
    requires |s| > 0
    requires s[0] == '-' ==> |s| > 1 && forall i :: 1 <= i < |s| ==> IsDigit(s[i])
    requires s[0] != '-' ==> forall i :: 0 <= i < |s| ==> IsDigit(s[i])
  {
    if s[0] == '-' then 0 - DigitsValue(s[1..]) else DigitsValue(s)
  }

  lemma {:induction false} DigitsRoundTrip(n: nat)
    ensures DigitsValue(Digits(n)) == n
    decreases n
  {
    if n >= 10 {
      var s := Digits(n);
      DigitsRoundTrip(n / 10);
      assert s[..|s| - 1] == Digits(n / 10);
    }
  }

  /** `Long.parseLong(Long.toString(n)) == n`. */
  lemma LongRoundTrip(n: int)
    ensures var s := LongToString(n);
      && (s[0] == '-' ==> |s| > 1 && forall i :: 1 <= i < |s| ==> IsDigit(s[i]))
      && (s[0] != '-' ==> forall i :: 0 <= i < |s| ==> IsDigit(s[i]))
      && ParseLong(s) == n
  {
    if n < 0 {
      NegativeRoundTrip(n);
    } else {
      NaturalRoundTrip(n);
    }
  }

  lemma NegativeRoundTrip(n: int)
    requires n < 0
    ensures var s := LongToString(n);
      && s[0] == '-' && |s| > 1 && (forall i :: 1 <= i < |s| ==> IsDigit(s[i]))
      && ParseLong(s) == n
  {
    var s := LongToString(n);
    var d := Digits(-n);
    assert s == "-" + d && s[1..] == d;
    DigitsRoundTrip(-n);
    assert ParseLong(s) == 0 - DigitsValue(d);
  }

  lemma NaturalRoundTrip(n: nat)
    ensures var s := LongToString(n);
      && s[0] != '-' && (forall i :: 0 <= i < |s| ==> IsDigit(s[i]))
      && ParseLong(s) == n
  {
    var s := LongToString(n);
    assert s == Digits(n) && IsDigit(s[0]);
    DigitsRoundTrip(n);
    assert ParseLong(s) == DigitsValue(s);
  }

  /** Distinct ids get distinct names. */
  lemma LongToStringInjective(a: int, b: int)
    requires LongToString(a) == LongToString(b)
    ensures a == b
  {
    LongRoundTrip(a);
    LongRoundTrip(b);
  }

  lemma OneText()
    ensures LongToString(1) == "1"
  {
  }
}

=== FILE: java_paths.dfy ===
/** `java.nio.file.Path` on a Unix file system, as far as the modelled code
    uses it: `Path.of`, `resolve`, `normalize`, `startsWith`, `relativize`,
    `getFileName`/`getParent` and `toString`. */
module JavaPaths {
  import opened Outcomes
  import JavaStrings

  /** A path: whether it starts at the root, and its name elements. The
      empty path has no names and is not absolute. */
  datatype JPath = JPath(absolute: bool, names: seq<string>)

  function NonEmptyPieces(pieces: seq<string>): (r: seq<string>)
    ensures forall i :: 0 <= i < |r| ==> r[i] != "" && r[i] in pieces
  {
    if |pieces| == 0 then []
    else if pieces[0] == "" then NonEmptyPieces(pieces[1..])
    else [pieces[0]] + NonEmptyPieces(pieces[1..])
  }

  /** `Path.of(s)`: redundant and trailing slashes are dropped. */
  function Parse(s: string): JPath {
    JPath(|s| > 0 && s[0] == '/', NonEmptyPieces(JavaStrings.RawSplit(s)))
  }

  /** `toString()`. */
  function Show(p: JPath): string {
    (if p.absolute then "/" else "") + JavaStrings.Join(p.names)
  }

  /** Name elements as `Path.of` produces them: non-empty, without '/'. */
  predicate ProperNames(names: seq<string>) {
    forall i :: 0 <= i < |names| ==> names[i] != "" && '/' !in names[i]
  }

  lemma {:induction false} NonEmptyPiecesOfProper(names: seq<string>)
    requires ProperNames(names)
    ensures NonEmptyPieces(names) == names
    decreases |names|
  {
    if |names| > 0 {
      NonEmptyPiecesOfProper(names[1..]);
    }
  }

  /** Every parsed path has proper names. */
  lemma ParseProper(s: string)
    ensures ProperNames(Parse(s).names)
  {
  }

  /** `Path.of(p.toString())` gives `p` back. */
  lemma ParseShow(p: JPath)
    requires ProperNames(p.names)
    ensures Parse(Show(p)) == p
  {
    var j := JavaStrings.Join(p.names);
    if |p.names| == 0 {
      assert Show(p) == (if p.absolute then "/" else "");
      if p.absolute {
        assert Show(p) == "/" && "/"[1..] == "";
        assert JavaStrings.RawSplit("/") == ["", ""];
        assert ["", ""][1..] == [""] && [""][1..] == [];
      } else {
        assert [""][1..] == [];
      }
    } else {
      JavaStrings.RawSplitJoin(p.names);
      NonEmptyPiecesOfProper(p.names);
      JavaStrings.JoinStartsWithFirst(p.names);
      assert j[0] == p.names[0][0] && p.names[0][0] in p.names[0];
      if p.absolute {
        var s := "/" + j;
        assert s[1..] == j;
        assert JavaStrings.RawSplit(s) == [""] + p.names;
        assert ([""] + p.names)[1..] == p.names;
        assert NonEmptyPieces([""] + p.names) == NonEmptyPieces(p.names);
      } else {
        assert Show(p) == j && j[0] != '/';
      }
    }
  }

  /** Names joined with '/' parse back as the relative path of those names. */
  lemma ParseJoin(names: seq<string>)
    requires ProperNames(names)
    ensures Parse(JavaStrings.Join(names)) == JPath(false, names)
  {
    ParseShow(JPath(false, names));
    assert Show(JPath(false, names)) == JavaStrings.Join(names);
  }

  /** `resolve(other)`: an absolute `other` replaces the base. */
  function Resolve(base: JPath, other: JPath): JPath {
    if other.absolute then other else JPath(base.absolute, base.names + other.names)
  }

  /** `startsWith(other)`: same rootedness and `other`'s names are a prefix. */
  predicate StartsWith(p: JPath, other: JPath) {
    p.absolute == other.absolute && |other.names| <= |p.names| && p.names[..|other.names|] == other.names
  }

  predicate HasDotNames(names: seq<string>) {
    exists i :: 0 <= i < |names| && (names[i] == "." || names[i] == "..")
  }

  /** Names without dot names stay so when concatenated. */
  lemma NoDotNamesConcat(a: seq<string>, b: seq<string>)
    requires !HasDotNames(a) && !HasDotNames(b)
    ensures !HasDotNames(a + b)
  {
    forall i | 0 <= i < |a + b| ensures (a + b)[i] != "." && (a + b)[i] != ".." {
      if i < |a| { assert (a + b)[i] == a[i]; } else { assert (a + b)[i] == b[i - |a|]; }
    }
  }

  /** The `normalize()` pass over names, with `stack` the names kept so far:
      `.` is dropped, `..` removes the last kept name unless that is itself
      `..`; at the root of an absolute path `..` is dropped, in a relative
      path it is kept. */
  function NormalizeFrom(absolute: bool, stack: seq<string>, rest: seq<string>): seq<string>
    decreases |rest|
  {
    if |rest| == 0 then stack
    else if rest[0] == "." then NormalizeFrom(absolute, stack, rest[1..])
    else if rest[0] == ".." then
      if |stack| > 0 && stack[|stack| - 1] != ".." then NormalizeFrom(absolute, stack[..|stack| - 1], rest[1..])
      else if absolute then NormalizeFrom(absolute, stack, rest[1..])
      else NormalizeFrom(absolute, stack + [".."], rest[1..])
    else NormalizeFrom(absolute, stack + [rest[0]], rest[1..])
  }

  function Normalize(p: JPath): JPath {
    JPath(p.absolute, NormalizeFrom(p.absolute, [], p.names))
  }

  /** Lexical normalisation of a path relative to some base directory:
      `None` when a `..` would climb above that base. */
  function ClimbFrom(stack: seq<string>, rest: seq<string>): Option<seq<string>>
    decreases |rest|
  {
    if |rest| == 0 then Some(stack)
    else if rest[0] == "." then ClimbFrom(stack, rest[1..])
    else if rest[0] == ".." then
      if |stack| == 0 then None else ClimbFrom(stack[..|stack| - 1], rest[1..])
    else ClimbFrom(stack + [rest[0]], rest[1..])
  }

  /** Below a base without dot names, normalising never touches the base as
      long as the relative walk does not climb above it. */
  lemma {:induction false} NormalizeBelowBase(absolute: bool, base: seq<string>, stack: seq<string>, rest: seq<string>)
    requires !HasDotNames(base + stack)
    requires ClimbFrom(stack, rest).Some?
    ensures NormalizeFrom(absolute, base + stack, rest) == base + ClimbFrom(stack, rest).value
    decreases |rest|
  {
    if |rest| > 0 {
      if rest[0] == "." {
        NormalizeBelowBase(absolute, base, stack, rest[1..]);
      } else if rest[0] == ".." {
        var s := base + stack;
        assert s[|s| - 1] == stack[|stack| - 1];
        assert s[..|s| - 1] == base + stack[..|stack| - 1];
        NoDotNamesPrefix(base + stack, |s| - 1);
        NormalizeBelowBase(absolute, base, stack[..|stack| - 1], rest[1..]);
      } else {
        assert (base + stack) + [rest[0]] == base + (stack + [rest[0]]);
        NormalizeBelowBase(absolute, base, stack + [rest[0]], rest[1..]);
      }
    }
  }

  /** Without dot names the walk climbs nowhere: every name is kept. */
  lemma {:induction false} ClimbWithoutDots(stack: seq<string>, rest: seq<string>)
    requires !HasDotNames(rest)
    ensures ClimbFrom(stack, rest) == Some(stack + rest)
    decreases |rest|
  {
    if |rest| == 0 {
      assert stack + rest == stack;
    } else {
      assert rest[0] != "." && rest[0] != "..";
      assert !HasDotNames(rest[1..]) by {
        forall i | 0 <= i < |rest[1..]| ensures rest[1..][i] != "." && rest[1..][i] != ".." {
          assert rest[1..][i] == rest[i + 1];
        }
      }
      ClimbWithoutDots(stack + [rest[0]], rest[1..]);
      assert stack + [rest[0]] + rest[1..] == stack + rest;
    }
  }

  /** Names without dots are pushed one by one. */
  lemma {:induction false} NormalizeFromPlain(absolute: bool, stack: seq<string>, plain: seq<string>, rest: seq<string>)
    requires !HasDotNames(plain)
    ensures NormalizeFrom(absolute, stack, plain + rest) == NormalizeFrom(absolute, stack + plain, rest)
    decreases |plain|
  {
    if |plain| == 0 {
      assert plain + rest == rest && stack + plain == stack;
    } else {
      assert (plain + rest)[0] == plain[0] && (plain + rest)[1..] == plain[1..] + rest;
      assert plain[0] != "." && plain[0] != "..";
      assert !HasDotNames(plain[1..]) by {
        forall i | 0 <= i < |plain[1..]| ensures plain[1..][i] != "." && plain[1..][i] != ".." {
          assert plain[1..][i] == plain[i + 1];
        }
      }
      NormalizeFromPlain(absolute, stack + [plain[0]], plain[1..], rest);
      assert stack + [plain[0]] + plain[1..] == stack + plain;
    }
  }

  /** `normalize()` leaves a path without dot names as it is. */
  lemma NormalizeWithoutDots(p: JPath)
    requires !HasDotNames(p.names)
    ensures Normalize(p) == p
  {
    var empty: seq<string> := [];
    ClimbWithoutDots(empty, p.names);
    assert empty + empty == empty && empty + p.names == p.names;
    NormalizeBelowBase(p.absolute, empty, empty, p.names);
  }

  /** Normalising an absolute path removes every dot name: at the root a
      `..` is dropped, elsewhere it removes the name before it. */
  lemma {:induction false} NormalizeAbsoluteClean(stack: seq<string>, rest: seq<string>)
    requires !HasDotNames(stack)
    ensures !HasDotNames(NormalizeFrom(true, stack, rest))
    decreases |rest|
  {
    if |rest| > 0 {
      if rest[0] == "." {
        NormalizeAbsoluteClean(stack, rest[1..]);
      } else if rest[0] == ".." {
        if |stack| > 0 {
          NoDotNamesPrefix(stack, |stack| - 1);
          NormalizeAbsoluteClean(stack[..|stack| - 1], rest[1..]);
        } else {
          NormalizeAbsoluteClean(stack, rest[1..]);
        }
      } else {
        assert !HasDotNames(stack + [rest[0]]) by {
          forall i | 0 <= i < |stack| + 1 ensures (stack + [rest[0]])[i] != "." && (stack + [rest[0]])[i] != ".." {
            if i < |stack| { assert (stack + [rest[0]])[i] == stack[i]; }
          }
        }
        NormalizeAbsoluteClean(stack + [rest[0]], rest[1..]);
      }
    }
  }

  lemma NoDotNamesPrefix(names: seq<string>, n: nat)
    requires n <= |names| && !HasDotNames(names)
    ensures !HasDotNames(names[..n])
  {
    forall i | 0 <= i < n ensures names[..n][i] == names[i] {
    }
  }

  /** `relativize(child)` as the JDK computes it: equal paths give the empty
      path, the empty base path gives `child`, dot names make both sides
      normalised first, the common leading names are dropped and every
      remaining base name becomes `..`.  Mixed rootedness, and a remaining
      base that still holds dot names, are rejected. */
  function Relativize(base: JPath, child: JPath): Result<JPath> {
    if child == base then Ok(JPath(false, []))
    else if base.absolute != child.absolute then Err(IllegalArgument("'other' is different type of Path"))
    else if !base.absolute && |base.names| == 0 then Ok(child)
    else
      var b := if HasDotNames(base.names) || HasDotNames(child.names) then Normalize(base) else base;
      var c := if HasDotNames(base.names) || HasDotNames(child.names) then Normalize(child) else child;
      var i := CommonPrefixLength(b.names, c.names);
      if i < |b.names| && HasDotNames(b.names[i..]) then Err(IllegalArgument("Unable to compute relative  path from " + Show(base) + " to " + Show(child)))
      else Ok(JPath(false, Dots(|b.names| - i) + c.names[i..]))
  }

  function Dots(n: nat): (r: seq<string>)
    ensures |r| == n && forall i :: 0 <= i < n ==> r[i] == ".."
  {
    if n == 0 then [] else [".."] + Dots(n - 1)
  }

  function CommonPrefixLength(a: seq<string>, b: seq<string>): (n: nat)
    ensures n <= |a| && n <= |b| && a[..n] == b[..n]
    ensures n < |a| && n < |b| ==> a[n] != b[n]
  {
    if |a| == 0 || |b| == 0 || a[0] != b[0] then 0
    else
      var m := CommonPrefixLength(a[1..], b[1..]);
      assert a[..m + 1] == [a[0]] + a[1..][..m];
      assert b[..m + 1] == [b[0]] + b[1..][..m];
      m + 1
  }

  /** `relativize` of a descendant: the names below the base, and joining
      them back onto the base gives the child again. */
  lemma RelativizeDescendant(base: JPath, child: JPath)
    requires base.absolute == child.absolute
    requires !HasDotNames(base.names) && !HasDotNames(child.names)
    requires |base.names| <= |child.names| && child.names[..|base.names|] == base.names
    ensures Relativize(base, child) == Ok(JPath(false, child.names[|base.names|..]))
    ensures base.names + Relativize(base, child).value.names == child.names
  {
    if child == base {
      assert child.names[|base.names|..] == [];
    } else if base.absolute || |base.names| > 0 {
      var i := CommonPrefixLength(base.names, child.names);
      if i < |base.names| {
        assert false;
      }
      assert i == |base.names| && Dots(0) + child.names[i..] == child.names[i..];
      assert Relativize(base, child) == Ok(JPath(false, Dots(0) + child.names[i..]));
    }
  }

  /** `relativize` of a path outside the base starts with `..`. */
  lemma RelativizeOutside(base: JPath, child: JPath)
    requires base.absolute == child.absolute && |base.names| > 0
    requires !HasDotNames(base.names) && !HasDotNames(child.names)
    requires !(|base.names| <= |child.names| && child.names[..|base.names|] == base.names)
    ensures Relativize(base, child).Ok? && !Relativize(base, child).value.absolute
    ensures |Relativize(base, child).value.names| > 0 && Relativize(base, child).value.names[0] == ".."
  {
    var i := CommonPrefixLength(base.names, child.names);
    if i == |base.names| {
      assert false;
    }
  }

  // ---------------------------------------------------------------------
  // getFileName / getParent

  /** One step of the `getParent` chain, seen through `getFileName()`:
      a named directory, or the root whose file name is `null`. */
  datatype Ancestor = Named(name: string) | Root

  /** `getFileName()`: `None` for the root; the empty path is its own
      file name `""`. */
  function FileName(p: JPath): Option<string> {
    if |p.names| == 0 then (if p.absolute then None else Some(""))
    else Some(p.names[|p.names| - 1])
  }

  /** The `getParent()` chain nearest first, up to and including the root of
      an absolute path; a one-name relative path has no parent. */
  function Ancestors(p: JPath): (r: seq<Ancestor>)
    ensures |p.names| == 0 ==> r == []
    decreases |p.names|
  {
    if |p.names| == 0 then []
    else if |p.names| == 1 then (if p.absolute then [Root] else [])
    else
      var parent := p.names[..|p.names| - 1];
      [Named(parent[|parent| - 1])] + Ancestors(JPath(p.absolute, parent))
  }
}

=== FILE: java_strings.dfy ===
/** The few `java.lang.String` operations the modelled code relies on:
    `isBlank`, `endsWith("/")`, `split("/")` and the prefix accumulation
    `currentPath.isEmpty() ? component : currentPath + "/" + component`
    that both index variants use to walk a path root-down. */
module JavaStrings {

  /** `Character.isWhitespace`: the ASCII controls it accepts plus the
      Unicode space, line and paragraph separators other than the
      non-breaking spaces U+00A0, U+2007 and U+202F. */
  predicate IsWhitespace(c: char) {
    || c == ' ' || c == '\t' || c == '\n' || c == '\U{000B}' || c == '\U{000C}' || c == '\r'
    || ('\U{001C}' <= c <= '\U{001F}')
    || c == '\U{1680}'
    || ('\U{2000}' <= c <= '\U{2006}') || ('\U{2008}' <= c <= '\U{200A}')
    || c == '\U{2028}' || c == '\U{2029}' || c == '\U{205F}' || c == '\U{3000}'
  }

  /** `String.isBlank`: empty or whitespace only. */
  predicate IsBlank(s: string) {
    forall i :: 0 <= i < |s| ==> IsWhitespace(s[i])
  }

  predicate EndsWithSlash(s: string) {
    |s| > 0 && s[|s| - 1] == '/'
  }

  /** Splits on every '/', keeping empty pieces: n slashes give n + 1 pieces. */
  function RawSplit(s: string): (pieces: seq<string>)
    ensures |pieces| >= 1
    ensures forall i :: 0 <= i < |pieces| ==> '/' !in pieces[i]
    decreases |s|
  {
    if |s| == 0 then [""]
    else if s[0] == '/' then [""] + RawSplit(s[1..])
    else
      var rest := RawSplit(s[1..]);
      [[s[0]] + rest[0]] + rest[1..]
  }

  function DropTrailingEmpty(xs: seq<string>): (r: seq<string>)
    ensures |r| <= |xs| && r == xs[..|r|]
    ensures |r| > 0 ==> r[|r| - 1] != ""
    ensures forall i :: |r| <= i < |xs| ==> xs[i] == ""
  {
    if |xs| > 0 && xs[|xs| - 1] == "" then DropTrailingEmpty(xs[..|xs| - 1]) else xs
  }

  /** `String.split("/")`: a string without '/' is returned as the only
      element (so `"".split("/")` is `[""]`); otherwise trailing empty pieces
      are removed (so `"/".split("/")` is empty). */
  function Split(s: string): seq<string> {
    if '/' !in s then [s] else DropTrailingEmpty(RawSplit(s))
  }

  /** `String.join("/", xs)`. */
  function Join(xs: seq<string>): string {
    if |xs| == 0 then ""
    else if |xs| == 1 then xs[0]
    else xs[0] + "/" + Join(xs[1..])
  }

  /** One step of the root-down walk over path components. */
  function Extend(current: string, component: string): string {
    if current == "" then component else current + "/" + component
  }

  /** The successive values of `currentPath` in the root-down walk. */
  function WalkPrefixes(current: string, components: seq<string>): (r: seq<string>)
    ensures |r| == |components|
    decreases |components|
  {
    if |components| == 0 then []
    else
      var next := Extend(current, components[0]);
      [next] + WalkPrefixes(next, components[1..])
  }

  /** A path whose components are all non-empty: no leading, trailing or
      doubled '/', and not the empty string. */
  predicate WellFormedPath(p: string) {
    var pieces := RawSplit(p);
    forall i :: 0 <= i < |pieces| ==> pieces[i] != ""
  }

  /** `q` is `p` cut at a component boundary: the prefixes the walk visits. */
  predicate IsBoundaryPrefix(q: string, p: string) {
    0 < |q| <= |p| && q == p[..|q|] && (|q| == |p| || p[|q|] == '/')
  }

  lemma {:induction false} JoinRawSplit(s: string)
    ensures Join(RawSplit(s)) == s
    decreases |s|
  {
    if |s| == 0 {
    } else if s[0] == '/' {
      JoinRawSplit(s[1..]);
      assert s == "/" + s[1..];
    } else {
      var rest := RawSplit(s[1..]);
      JoinRawSplit(s[1..]);
      if |rest| == 1 {
        assert s == [s[0]] + s[1..];
      } else {
        assert ([[s[0]] + rest[0]] + rest[1..])[1..] == rest[1..];
        assert s == [s[0]] + s[1..];
      }
    }
  }

  lemma RawSplitWithoutSlash(s: string)
    requires '/' !in s
    ensures RawSplit(s) == [s]
    decreases |s|
  {
    if |s| > 0 {
      assert '/' !in s[1..] by {
        forall i | 0 <= i < |s[1..]| ensures s[1..][i] != '/' {
          assert s[1..][i] == s[i + 1];
        }
      }
      RawSplitWithoutSlash(s[1..]);
      assert s == [s[0]] + s[1..];
    }
  }

  /** On a well-formed path `split("/")` drops nothing. */
  lemma SplitWellFormed(p: string)
    requires WellFormedPath(p)
    ensures Split(p) == RawSplit(p)
  {
    if '/' !in p {
      RawSplitWithoutSlash(p);
    }
  }

  /** Splitting then joining a well-formed path gives it back. */
  lemma SplitJoin(p: string)
    requires WellFormedPath(p)
    ensures Join(Split(p)) == p
  {
    SplitWellFormed(p);
    JoinRawSplit(p);
  }

  /** Components of a well-formed path: non-empty and slash-free. */
  predicate ProperComponents(cs: seq<string>) {
    forall i :: 0 <= i < |cs| ==> cs[i] != "" && '/' !in cs[i]
  }

  /** After the first step the walk only ever appends "/" + component. */
  lemma {:induction false} WalkFrom(current: string, cs: seq<string>, i: nat)
    requires current != "" && ProperComponents(cs) && i < |cs|
    ensures WalkPrefixes(current, cs)[i] == current + "/" + Join(cs[..i + 1])
    decreases |cs|
  {
    var next := current + "/" + cs[0];
    if i == 0 {
      assert cs[..1] == [cs[0]];
    } else {
      ProperTail(cs);
      WalkFrom(next, cs[1..], i - 1);
      JoinPrefixCons(cs, i + 1);
    }
  }

  /** The walk from the root visits exactly the joins of the non-empty
      component prefixes. */
  lemma WalkFromRoot(cs: seq<string>, i: nat)
    requires ProperComponents(cs) && i < |cs|
    ensures WalkPrefixes("", cs)[i] == Join(cs[..i + 1])
  {
    if i == 0 {
      assert cs[..1] == [cs[0]];
    } else {
      ProperTail(cs);
      assert WalkPrefixes("", cs)[i] == WalkPrefixes(cs[0], cs[1..])[i - 1];
      WalkFrom(cs[0], cs[1..], i - 1);
      JoinPrefixCons(cs, i + 1);
    }
  }

  lemma ProperTail(cs: seq<string>)
    requires |cs| > 0 && ProperComponents(cs)
    ensures ProperComponents(cs[1..])
  {
    forall j | 0 <= j < |cs[1..]| ensures cs[1..][j] != "" && '/' !in cs[1..][j] {
      assert cs[1..][j] == cs[j + 1];
    }
  }

  lemma JoinStartsWithFirst(cs: seq<string>)
    requires |cs| >= 1
    ensures |Join(cs)| >= |cs[0]| && Join(cs)[..|cs[0]|] == cs[0]
    ensures |cs| > 1 ==> |Join(cs)| > |cs[0]| && Join(cs)[|cs[0]|] == '/'
  {
  }

  /** The boundary prefixes of a joined component sequence are the joins of
      its non-empty prefixes. */
  lemma BoundaryPrefixesOfJoin(cs: seq<string>, q: string)
    requires |cs| >= 1 && ProperComponents(cs)
    ensures IsBoundaryPrefix(q, Join(cs)) <==> exists k :: 1 <= k <= |cs| && q == Join(cs[..k])
  {
    if IsBoundaryPrefix(q, Join(cs)) {
      BoundaryPrefixIsJoin(cs, q);
    }
    if exists k :: 1 <= k <= |cs| && q == Join(cs[..k]) {
      var k :| 1 <= k <= |cs| && q == Join(cs[..k]);
      JoinIsBoundaryPrefix(cs, k);
    }
  }

  /** Joining two or more components puts the first, a slash, and the join
      of the rest. */
  lemma JoinCons(cs: seq<string>)
    requires |cs| > 1 && ProperComponents(cs)
    ensures ProperComponents(cs[1..])
    ensures Join(cs) == cs[0] + "/" + Join(cs[1..])
    ensures |Join(cs[1..])| > 0 && Join(cs[1..])[0] == cs[1][0]
  {
    ProperTail(cs);
    JoinStartsWithFirst(cs[1..]);
  }

  /** The join of the first `k >= 2` components, through the rest. */
  lemma JoinPrefixCons(cs: seq<string>, k: nat)
    requires 2 <= k <= |cs|
    ensures Join(cs[..k]) == cs[0] + "/" + Join(cs[1..][..k - 1])
  {
    assert cs[..k][1..] == cs[1..][..k - 1];
  }

  lemma {:induction false} BoundaryPrefixIsJoin(cs: seq<string>, q: string)
    requires |cs| >= 1 && ProperComponents(cs) && IsBoundaryPrefix(q, Join(cs))
    ensures exists k :: 1 <= k <= |cs| && q == Join(cs[..k])
    decreases |cs|
  {
    var c := cs[0];
    var p := Join(cs);
    JoinStartsWithFirst(cs);
    if |cs| == 1 {
      assert cs[..1] == cs;
      assert |q| >= |c|;
    } else {
      var rest := cs[1..];
      JoinCons(cs);
      var r := Join(rest);
      if |q| <= |c| + 1 {
        assert |q| == |c|;
        assert cs[..1] == [c];
      } else {
        var q' := q[|c| + 1..];
        assert q' == r[..|q'|];
        assert |q'| == |r| || r[|q'|] == p[|q|];
        BoundaryPrefixIsJoin(rest, q');
        var k' :| 1 <= k' <= |rest| && q' == Join(rest[..k']);
        JoinPrefixCons(cs, k' + 1);
        assert q == c + "/" + q';
      }
    }
  }

  lemma {:induction false} JoinIsBoundaryPrefix(cs: seq<string>, k: nat)
    requires 1 <= k <= |cs| && ProperComponents(cs)
    ensures IsBoundaryPrefix(Join(cs[..k]), Join(cs))
    decreases |cs|
  {
    var c := cs[0];
    var p := Join(cs);
    var q := Join(cs[..k]);
    JoinStartsWithFirst(cs);
    if k == 1 {
      assert cs[..1] == [c];
    } else {
      var rest := cs[1..];
      JoinCons(cs);
      var r := Join(rest);
      var q' := Join(rest[..k - 1]);
      JoinPrefixCons(cs, k);
      JoinIsBoundaryPrefix(rest, k - 1);
      assert q[..|c| + 1] == c + "/";
      assert p[..|q|] == c + "/" + r[..|q'|];
      if |q'| < |r| {
        assert p[|q|] == r[|q'|];
      }
    }
  }

  /** The walk over `split("/")` of a well-formed path visits exactly its
      boundary prefixes `a`, `a/b`, `a/b/c`. */
  lemma WalkVisitsBoundaryPrefixes(p: string, q: string)
    requires WellFormedPath(p)
    ensures q in WalkPrefixes("", Split(p)) <==> IsBoundaryPrefix(q, p)
  {
    SplitWellFormed(p);
    JoinRawSplit(p);
    var cs := RawSplit(p);
    var walk := WalkPrefixes("", cs);
    BoundaryPrefixesOfJoin(cs, q);
    if q in walk {
      var i :| 0 <= i < |walk| && walk[i] == q;
      WalkFromRoot(cs, i);
    }
    if IsBoundaryPrefix(q, p) {
      var k :| 1 <= k <= |cs| && q == Join(cs[..k]);
      WalkFromRoot(cs, k - 1);
    }
  }

  lemma {:induction false} JoinSnoc(xs: seq<string>, c: string)
    requires |xs| > 0
    ensures Join(xs + [c]) == Join(xs) + "/" + c
    decreases |xs|
  {
    if |xs| == 1 {
      assert xs + [c] == [xs[0], c];
    } else {
      assert (xs + [c])[1..] == xs[1..] + [c];
      JoinSnoc(xs[1..], c);
    }
  }

  /** Each further component makes the visited prefix strictly longer. */
  lemma {:induction false} JoinPrefixesGrow(cs: seq<string>, i: nat, j: nat)
    requires 1 <= i < j <= |cs|
    ensures |Join(cs[..i])| < |Join(cs[..j])|
    decreases j - i
  {
    assert cs[..j] == cs[..j - 1] + [cs[j - 1]];
    JoinSnoc(cs[..j - 1], cs[j - 1]);
    if i < j - 1 {
      JoinPrefixesGrow(cs, i, j - 1);
    }
  }

  /** The walk over a well-formed path visits pairwise distinct, non-empty prefixes. */
  lemma WalkDistinct(p: string)
    requires WellFormedPath(p)
    ensures forall i :: 0 <= i < |WalkPrefixes("", Split(p))| ==> WalkPrefixes("", Split(p))[i] != ""
    ensures forall i, j :: 0 <= i < j < |WalkPrefixes("", Split(p))| ==> WalkPrefixes("", Split(p))[i] != WalkPrefixes("", Split(p))[j]
  {
    SplitWellFormed(p);
    var cs := RawSplit(p);
    assert ProperComponents(cs);
    var walk := WalkPrefixes("", cs);
    forall i | 0 <= i < |walk| ensures walk[i] != "" {
      WalkStepNonEmpty(cs, i);
    }
    forall i, j | 0 <= i < j < |walk| ensures walk[i] != walk[j] {
      WalkStepsDiffer(cs, i, j);
    }
  }

  lemma WalkStepNonEmpty(cs: seq<string>, i: nat)
    requires ProperComponents(cs) && i < |cs|
    ensures WalkPrefixes("", cs)[i] != ""
  {
    WalkFromRoot(cs, i);
    JoinStartsWithFirst(cs[..i + 1]);
  }

  lemma WalkStepsDiffer(cs: seq<string>, i: nat, j: nat)
    requires ProperComponents(cs) && i < j < |cs|
    ensures WalkPrefixes("", cs)[i] != WalkPrefixes("", cs)[j]
  {
    var a := Join(cs[..i + 1]);
    var b := Join(cs[..j + 1]);
    JoinPrefixesGrow(cs, i + 1, j + 1);
    assert a != b by { assert |a| < |b|; }
    WalkFromRoot(cs, i);
    WalkFromRoot(cs, j);
  }

  /** A slash-free head splits off as the first piece. */
  lemma {:induction false} RawSplitHead(a: string, b: string)
    requires '/' !in a
    ensures RawSplit(a + "/" + b) == [a] + RawSplit(b)
    decreases |a|
  {
    var s := a + "/" + b;
    if |a| == 0 {
      assert s == "/" + b && s[1..] == b;
    } else {
      assert s[1..] == a[1..] + "/" + b;
      assert '/' !in a[1..] by {
        forall i | 0 <= i < |a[1..]| ensures a[1..][i] != '/' {
          assert a[1..][i] == a[i + 1];
        }
      }
      RawSplitHead(a[1..], b);
      assert [a[0]] + a[1..] == a;
    }
  }

  /** Splitting a join of slash-free pieces gives the pieces back. */
  lemma {:induction false} RawSplitJoin(cs: seq<string>)
    requires |cs| > 0 && forall i :: 0 <= i < |cs| ==> '/' !in cs[i]
    ensures RawSplit(Join(cs)) == cs
    decreases |cs|
  {
    if |cs| == 1 {
      RawSplitWithoutSlash(cs[0]);
    } else {
      RawSplitHead(cs[0], Join(cs[1..]));
      RawSplitJoin(cs[1..]);
    }
  }
}

=== FILE: layer.dfy ===
/** `LayerImpl`: one layer of the layered storage, a staging directory that
    is writable while the layer is open and is packed into a zip archive
    once the layer is closed.

    The layer is an immutable value; each operation returns the layer
    after the call together with its outcome, because some side effects
    (creating the staging directory, deleting the first files of a list)
    survive an exception thrown later in the same call. */
module Layers {
  import opened Outcomes
  import JavaStrings
  import opened JavaPaths
  import opened FileTrees
  import Files
  import Zip
  import opened Records
  import opened Listings

  /** The `closed` flag, the staging directory (its location and the file
      system below it, the directory itself being the key `[]`) and the
      archive. */
  datatype Layer = Layer(id: int, stagingDir: JPath, closed: bool, staging: Fs, archive: Zip.ZipArchive)

  /** What an operation returns when it does not throw. */
  datatype Answer = Done | Listed(listings: seq<Listing>) | Content(data: Option<Bytes>) | Present(present: bool)

  /** The layer after a call, and the call's outcome. */
  datatype Step = Step(layer: Layer, result: Result<Answer>)

  const ClosedMessage := "Layer is closed, but must be open for this operation"
  const OpenMessage := "Layer is open, but must be closed for this operation"
  const ArchivedMessage := "Layer is already archived"

  /** `new LayerImpl(id, stagingDir, archive)`: open; `staging` is whatever
      already exists at the staging location. */
  function NewLayer(id: int, stagingDir: JPath, staging: Fs, archive: Zip.ZipArchive): (l: Layer)
    ensures !l.closed && l.id == id && l.archive == archive
  {
    Layer(id, stagingDir, false, staging, archive)
  }

  predicate IsArchived(l: Layer) {
    l.archive.archived
  }

  // ---------------------------------------------------------------------
  // Guards

  function CheckOpen(l: Layer): Result<()> {
    if l.closed then Err(IllegalState(ClosedMessage)) else Ok(())
  }

  function CheckClosed(l: Layer): Result<()> {
    if !l.closed then Err(IllegalState(OpenMessage)) else Ok(())
  }

  function CheckNotArchived(l: Layer): Result<()> {
    if IsArchived(l) then Err(IllegalState(ArchivedMessage)) else Ok(())
  }

  /** The names below the staging directory that `stagingDir.resolve(path)`
      denotes once normalised, or `None` when it lies outside. */
  function Target(stagingDir: JPath, path: string): Option<seq<string>> {
    var n := Normalize(Resolve(stagingDir, Parse(path)));
    if StartsWith(n, stagingDir) then Some(n.names[|stagingDir.names|..]) else None
  }

  /** `validatePath(path)`, answering the names the path denotes below the
      staging directory.  The empty path passes: it denotes the staging
      directory itself. */
  function ValidatePath(stagingDir: JPath, path: Option<string>): Result<seq<string>> {
    if path.None? then Err(IllegalArgument("Path cannot be null"))
    else if JavaStrings.IsBlank(path.value) && path.value != "" then Err(IllegalArgument("Path cannot be blank"))
    else match Target(stagingDir, path.value)
      case None => Err(IllegalArgument("Path is outside staging directory"))
      case Some(t) => Ok(t)
  }

  /** `ensureStagingDirExists()`: `Files.exists` is true for any kind of file. */
  function EnsureStagingDir(fs: Fs): (r: Fs)
    ensures [] in r
  {
    if [] in fs then fs else fs[[] := Dir]
  }

  /** `listing` is what `listFiles()` returns for the staging directory
      `fs`: once the directory exists, it holds exactly the listed tree. */
  predicate Lists(fs: Fs, listing: seq<Node>) {
    WellFormed(listing) && EnsureStagingDir(fs) == Zip.EmptyDir() + ToFs(listing, [])
  }

  // ---------------------------------------------------------------------
  // Mutators

  function CreateDirectories(l: Layer, path: Option<string>): Step {
    if l.closed then Step(l, Err(IllegalState(ClosedMessage)))
    else match ValidatePath(l.stagingDir, path)
      case Err(e) => Step(l, Err(e))
      case Ok(t) =>
        var fs := EnsureStagingDir(l.staging);
        match Files.CreateDirectories(fs, t)
        case Err(e) => Step(l.(staging := fs), Err(e))
        case Ok(fs') => Step(l.(staging := fs'), Ok(Done))
  }

  /** The loop of `deleteFiles`: each path is validated and deleted in
      turn; the first failure ends the loop, the deletions before it stay. */
  function DeleteEach(stagingDir: JPath, fs: Fs, paths: seq<Option<string>>): (Fs, Result<()>)
    decreases |paths|
  {
    if |paths| == 0 then (fs, Ok(()))
    else match ValidatePath(stagingDir, paths[0])
      case Err(e) => (fs, Err(e))
      case Ok(t) =>
        match Files.Delete(fs, t)
        case Err(e) => (fs, Err(e))
        case Ok(fs') => DeleteEach(stagingDir, fs', paths[1..])
  }

  /** `deleteFiles(paths)`: the state check, then the staging directory is
      created, then the list is checked for `null`. */
  function DeleteFiles(l: Layer, paths: Option<seq<Option<string>>>): Step {
    if l.closed then Step(l, Err(IllegalState(ClosedMessage)))
    else
      var fs := EnsureStagingDir(l.staging);
      if paths.None? then Step(l.(staging := fs), Err(IllegalArgument("Paths cannot be null")))
      else
        var (fs', r) := DeleteEach(l.stagingDir, fs, paths.value);
        Step(l.(staging := fs'), if r.Ok? then Ok(Done) else Err(r.error))
  }

  /** `write(path, content)`: replaces an existing file. */
  function Write(l: Layer, path: Option<string>, content: Bytes): Step {
    if l.closed then Step(l, Err(IllegalState(ClosedMessage)))
    else match ValidatePath(l.stagingDir, path)
      case Err(e) => Step(l, Err(e))
      case Ok(t) =>
        var fs := EnsureStagingDir(l.staging);
        match Files.CopyReplacing(fs, t, content)
        case Err(e) => Step(l.(staging := fs), Err(e))
        case Ok(fs') => Step(l.(staging := fs'), Ok(Done))
  }

  /** The `Files.walk` of a moved file or directory, in pre-order, each
      entry listed by its file name only. */
  function WalkNode(n: Node, name: string): (r: seq<Listing>)
    decreases n, 1
  {
    match n
    case FileNode(_, _) => [Listing(File, name)]
    case DirNode(_, children) => [Listing(Directory, name)] + WalkForest(children)
  }

  function WalkForest(nodes: seq<Node>): (r: seq<Listing>)
    decreases nodes, 0
  {
    if |nodes| == 0 then [] else WalkNode(nodes[0], nodes[0].name) + WalkForest(nodes[1..])
  }

  /** `moveDirectoryInto(source, destination)`: the staging directory is
      created before the destination is validated; `source` is `None` when
      nothing exists there. */
  function MoveDirectoryInto(l: Layer, source: Option<Node>, destination: Option<string>): Step {
    if l.closed then Step(l, Err(IllegalState(ClosedMessage)))
    else
      var fs := EnsureStagingDir(l.staging);
      match ValidatePath(l.stagingDir, destination)
      case Err(e) => Step(l.(staging := fs), Err(e))
      case Ok(t) =>
        if source.None? then Step(l.(staging := fs), Err(NoSuchFile("source")))
        else match Files.MoveInto(fs, source.value, t)
          case Err(e) => Step(l.(staging := fs), Err(e))
          case Ok(fs') => Step(l.(staging := fs'), Ok(Listed(WalkNode(source.value, t[|t| - 1]))))
  }

  function MoveDirectoryInternal(l: Layer, source: Option<string>, destination: Option<string>): Step {
    if l.closed then Step(l, Err(IllegalState(ClosedMessage)))
    else match ValidatePath(l.stagingDir, source)
      case Err(e) => Step(l, Err(e))
      case Ok(s) =>
        match ValidatePath(l.stagingDir, destination)
        case Err(e) => Step(l, Err(e))
        case Ok(d) =>
          match Files.Move(l.staging, s, d)
          case Err(e) => Step(l, Err(e))
          case Ok(fs') => Step(l.(staging := fs'), Ok(Done))
  }

  function DeleteDirectory(l: Layer, path: Option<string>): Step {
    if l.closed then Step(l, Err(IllegalState(ClosedMessage)))
    else match ValidatePath(l.stagingDir, path)
      case Err(e) => Step(l, Err(e))
      case Ok(t) =>
        match Files.DeleteDirectory(l.staging, t)
        case Err(e) => Step(l, Err(e))
        case Ok(fs') => Step(l.(staging := fs'), Ok(Done))
  }

  function Close(l: Layer): (r: Layer)
    ensures r.closed
  {
    l.(closed := true)
  }

  /** `archive()`: `listing` is what `listFiles()` returns for the staging
      directory, and the write of entry `failAt` fails when it is given.  A
      failure leaves the archive flag as it was, keeps the staging directory
      and reaches the caller as the `IOException` itself, rethrown
      unchecked. */
  function Archive(l: Layer, listing: seq<Node>, failAt: Option<nat>): Step {
    if !l.closed then Step(l, Err(IllegalState(OpenMessage)))
    else if IsArchived(l) then Step(l, Err(IllegalState(ArchivedMessage)))
    else
      var fs := EnsureStagingDir(l.staging);
      var (z, err) := Zip.ArchiveFrom(l.archive, if fs[[]] == Dir then Some(listing) else None, failAt);
      if err.Some? then Step(l.(staging := fs, archive := z), Err(err.value))
      else match Files.DeleteDirectory(fs, [])
        case Err(e) => Step(l.(staging := fs, archive := z), Err(e))
        case Ok(fs') => Step(l.(staging := fs', archive := z), Ok(Done))
  }

  // ---------------------------------------------------------------------
  // Queries

  /** `read(path)`: from the archive once archived, else the file that
      `stagingDir.resolve(path)` names, with no state check and no path
      validation.  A path that leaves the staging directory is read from
      `disk`, the rest of the file system keyed by normalised path. */
  function Read(l: Layer, path: string, disk: map<JPath, FsObj>): Result<Option<Bytes>> {
    if IsArchived(l) then
      if l.archive.zip.None? then Err(NoSuchFile(path)) else Ok(Zip.InputStreamFor(l.archive.zip.value, path))
    else
      var found: Option<FsObj> :=
        match Target(l.stagingDir, path)
        case Some(t) => if t in l.staging then Some(l.staging[t]) else None
        case None =>
          var n := Normalize(Resolve(l.stagingDir, Parse(path)));
          if n in disk then Some(disk[n]) else None;
      match found
      case None => Err(NoSuchFile(path))
      case Some(Regular(c)) => Ok(Some(c))
      case Some(Dir) => Err(IOFailure("Is a directory"))
  }

  /** `fileExists(path)`: validated; once archived, whether the archive has
      an entry of that name, else whether the path exists in staging. */
  function FileExists(l: Layer, path: Option<string>): Result<bool> {
    var t :- ValidatePath(l.stagingDir, path);
    if IsArchived(l) then
      Ok(l.archive.zip.Some? && exists i :: 0 <= i < |l.archive.zip.value| && l.archive.zip.value[i].name == path.value)
    else Ok(t in l.staging)
  }

  // ---------------------------------------------------------------------
  // All operations

  datatype Op =
    | CreateDirectoriesOp(path: Option<string>)
    | DeleteFilesOp(paths: Option<seq<Option<string>>>)
    | WriteOp(path: Option<string>, content: Bytes)
    | MoveDirectoryIntoOp(source: Option<Node>, destination: Option<string>)
    | MoveDirectoryInternalOp(from: Option<string>, to: Option<string>)
    | DeleteDirectoryOp(path: Option<string>)
    | CloseOp
    | ArchiveOp(listing: seq<Node>, failAt: Option<nat>)
    | ReadOp(readPath: string, disk: map<JPath, FsObj>)
    | FileExistsOp(path: Option<string>)

  /** The operations guarded by `checkOpen`. */
  predicate IsMutator(op: Op) {
    !(op.CloseOp? || op.ArchiveOp? || op.ReadOp? || op.FileExistsOp?)
  }

  function Run(l: Layer, op: Op): Step {
    match op
    case CreateDirectoriesOp(p) => CreateDirectories(l, p)
    case DeleteFilesOp(ps) => DeleteFiles(l, ps)
    case WriteOp(p, c) => Write(l, p, c)
    case MoveDirectoryIntoOp(s, d) => MoveDirectoryInto(l, s, d)
    case MoveDirectoryInternalOp(s, d) => MoveDirectoryInternal(l, s, d)
    case DeleteDirectoryOp(p) => DeleteDirectory(l, p)
    case CloseOp => Step(Close(l), Ok(Done))
    case ArchiveOp(listing, failAt) => Archive(l, listing, failAt)
    case ReadOp(p, disk) =>
      var r := Read(l, p, disk);
      Step(l, if r.Ok? then Ok(Content(r.value)) else Err(r.error))
    case FileExistsOp(p) =>
      var r := FileExists(l, p);
      Step(l, if r.Ok? then Ok(Present(r.value)) else Err(r.error))
  }

  /** The state invariant: an archived layer is closed, and the staging
      file system is coherent. */
  predicate Inv(l: Layer) {
    (IsArchived(l) ==> l.closed) && Files.Coherent(l.staging)
  }

  // ---------------------------------------------------------------------
  // Properties

  /** Every mutator of a closed layer throws the closed-layer
      `IllegalStateException` and changes nothing. */
  lemma ClosedRefusesMutators(l: Layer, op: Op)
    requires l.closed && IsMutator(op)
    ensures Run(l, op) == Step(l, Err(IllegalState(ClosedMessage)))
  {
  }

  /** Closing is one-way: no operation opens a closed layer, and closing
      again changes nothing. */
  lemma ClosedStaysClosed(l: Layer, op: Op)
    requires l.closed
    ensures Run(l, op).layer.closed
    ensures Close(l) == l
  {
  }

  /** `archive` refuses an open layer and an archived layer, in that order,
      and changes nothing then. */
  lemma ArchiveRefusals(l: Layer, listing: seq<Node>, failAt: Option<nat>)
    ensures !l.closed ==> Archive(l, listing, failAt) == Step(l, Err(IllegalState(OpenMessage)))
    ensures l.closed && IsArchived(l) ==> Archive(l, listing, failAt) == Step(l, Err(IllegalState(ArchivedMessage)))
  {
  }

  /** A successful `archive` leaves the layer archived with the staging
      directory gone; the zip holds the entries of the tree the staging
      directory held. */
  lemma ArchiveSuccess(l: Layer, listing: seq<Node>)
    requires l.closed && !IsArchived(l) && Files.Coherent(l.staging)
    requires Lists(l.staging, listing)
    ensures var s := Archive(l, listing, None);
      && s.result == Ok(Done)
      && IsArchived(s.layer) && s.layer.closed
      && [] !in s.layer.staging && s.layer.staging == map[]
      && s.layer.archive.zip == Some(Zip.ForestEntries(listing, ""))
  {
    var fs := EnsureStagingDir(l.staging);
    ListsRoot(l.staging, listing);
    assert Files.Prune(fs, []) == map[] by {
      forall k | k in fs ensures Files.AtOrBelow(k, []) {
        assert k[..0] == [];
      }
    }
  }

  /** The zip written by `archive` unpacks into an empty directory as
      exactly the staging directory it was made from. */
  lemma ArchiveKeepsContents(l: Layer, listing: seq<Node>)
    requires l.closed && !IsArchived(l) && Files.Coherent(l.staging)
    requires WellFormed(listing) && l.staging == Zip.EmptyDir() + ToFs(listing, [])
    ensures var s := Archive(l, listing, None);
      && s.result.Ok?
      && Zip.UnarchiveTo(s.layer.archive, Zip.EmptyDir()).1 == Zip.Extracted(l.staging, None)
  {
    ArchiveSuccess(l, listing);
    Zip.RoundTrip(l.archive, listing);
  }

  /** The staging directory a listing describes is a directory, and every
      other entry of it is the listed one. */
  lemma ListsRoot(fs: Fs, listing: seq<Node>)
    requires Lists(fs, listing)
    ensures [] !in fs || fs[[]] == Dir
    ensures forall q :: q in fs && q != [] ==> q in ToFs(listing, []) && ToFs(listing, [])[q] == fs[q]
  {
    var root: seq<string> := [];
    var t := ToFs(listing, root);
    assert root !in t;
    StagingRootAdded(fs, t);
  }

  /** A staging directory that, once ensured, is the root directory plus
      `t` holds `t` below its root. */
  lemma StagingRootAdded(fs: Fs, t: Fs)
    requires [] !in t && EnsureStagingDir(fs) == Zip.EmptyDir() + t
    ensures [] !in fs || fs[[]] == Dir
    ensures forall q :: q in fs && q != [] ==> q in t && t[q] == fs[q]
  {
    var e := EnsureStagingDir(fs);
    var d := Zip.EmptyDir();
    forall q | q in fs && q != [] ensures q in t && t[q] == fs[q] {
      assert q in e && e[q] == fs[q];
      assert q !in d;
    }
  }

  /** A failed `archive` leaves the flag unset and the staging directory in
      place, and throws the write's own `IOException`. */
  lemma ArchiveFailure(l: Layer, listing: seq<Node>, k: nat)
    requires l.closed && !IsArchived(l) && [] in l.staging && l.staging[[]] == Dir
    requires k < |Zip.ForestEntries(listing, "")|
    ensures var s := Archive(l, listing, Some(k));
      s.result == Err(IOFailure("write failed")) && !IsArchived(s.layer) && s.layer.staging == l.staging
  {
  }

  lemma EnsureCoherent(fs: Fs)
    requires Files.Coherent(fs)
    ensures Files.Coherent(EnsureStagingDir(fs))
  {
  }

  lemma CreateDirectoriesKeepsInvariant(l: Layer, p: Option<string>)
    requires Inv(l)
    ensures Inv(CreateDirectories(l, p).layer)
  {
    var fs := EnsureStagingDir(l.staging);
    EnsureCoherent(l.staging);
    var v := ValidatePath(l.stagingDir, p);
    if !l.closed && v.Ok? && Files.CreateDirectories(fs, v.value).Ok? {
      Files.CreateDirectoriesCoherent(fs, v.value);
    }
  }

  lemma DeleteFilesKeepsInvariant(l: Layer, ps: Option<seq<Option<string>>>)
    requires Inv(l)
    ensures Inv(DeleteFiles(l, ps).layer)
  {
    var fs := EnsureStagingDir(l.staging);
    EnsureCoherent(l.staging);
    if !l.closed && ps.Some? {
      DeleteEachCoherent(l.stagingDir, fs, ps.value);
    }
  }

  lemma WriteKeepsInvariant(l: Layer, p: Option<string>, c: Bytes)
    requires Inv(l)
    ensures Inv(Write(l, p, c).layer)
  {
    var fs := EnsureStagingDir(l.staging);
    EnsureCoherent(l.staging);
    var v := ValidatePath(l.stagingDir, p);
    if !l.closed && v.Ok? && Files.CopyReplacing(fs, v.value, c).Ok? {
      Files.CopyReplacingCoherent(fs, v.value, c);
    }
  }

  lemma MoveDirectoryIntoKeepsInvariant(l: Layer, s: Option<Node>, d: Option<string>)
    requires Inv(l) && (s.Some? ==> WellFormedNode(s.value))
    ensures Inv(MoveDirectoryInto(l, s, d).layer)
  {
    var fs := EnsureStagingDir(l.staging);
    EnsureCoherent(l.staging);
    var v := ValidatePath(l.stagingDir, d);
    if !l.closed && v.Ok? && s.Some? && Files.MoveInto(fs, s.value, v.value).Ok? {
      Files.MoveIntoLaw(fs, s.value, v.value);
    }
  }

  lemma MoveDirectoryInternalKeepsInvariant(l: Layer, s: Option<string>, d: Option<string>)
    requires Inv(l)
    ensures Inv(MoveDirectoryInternal(l, s, d).layer)
  {
    var vs := ValidatePath(l.stagingDir, s);
    var vd := ValidatePath(l.stagingDir, d);
    if !l.closed && vs.Ok? && vd.Ok? && Files.Move(l.staging, vs.value, vd.value).Ok? {
      Files.MoveCoherent(l.staging, vs.value, vd.value);
    }
  }

  lemma DeleteDirectoryKeepsInvariant(l: Layer, p: Option<string>)
    requires Inv(l)
    ensures Inv(DeleteDirectory(l, p).layer)
  {
    var v := ValidatePath(l.stagingDir, p);
    if !l.closed && v.Ok? && v.value in l.staging {
      Files.PruneCoherent(l.staging, v.value);
    }
  }

  lemma ArchiveKeepsInvariant(l: Layer, listing: seq<Node>, failAt: Option<nat>)
    requires Inv(l)
    ensures Inv(Archive(l, listing, failAt).layer)
  {
    var fs := EnsureStagingDir(l.staging);
    EnsureCoherent(l.staging);
    if l.closed && !IsArchived(l) {
      Zip.ArchiveFromLaw(l.archive, if fs[[]] == Dir then Some(listing) else None, failAt);
      Files.PruneCoherent(fs, []);
    }
  }

  lemma {:induction false} DeleteEachCoherent(stagingDir: JPath, fs: Fs, paths: seq<Option<string>>)
    requires Files.Coherent(fs)
    ensures Files.Coherent(DeleteEach(stagingDir, fs, paths).0)
    decreases |paths|
  {
    if |paths| > 0 {
      var v := ValidatePath(stagingDir, paths[0]);
      if v.Ok? && Files.Delete(fs, v.value).Ok? {
        Files.DeleteLaw(fs, v.value);
        Files.PruneCoherent(fs, v.value);
        DeleteEachCoherent(stagingDir, Files.Delete(fs, v.value).value, paths[1..]);
      }
    }
  }

  // ---------------------------------------------------------------------
  // validatePath

  /** `null` and whitespace-only paths are refused before anything else is
      looked at. */
  lemma ValidatePathRefusals(stagingDir: JPath, path: Option<string>)
    ensures path.None? ==> ValidatePath(stagingDir, path) == Err(IllegalArgument("Path cannot be null"))
    ensures path.Some? && path.value != "" && JavaStrings.IsBlank(path.value) ==>
      ValidatePath(stagingDir, path) == Err(IllegalArgument("Path cannot be blank"))
  {
  }

  /** Below an absolute staging directory a validated path names a place
      inside it: its names carry no `.` or `..`, and they are what the
      normalised resolved path adds to the staging directory. */
  lemma ValidatePathConfined(stagingDir: JPath, path: Option<string>)
    requires stagingDir.absolute && !HasDotNames(stagingDir.names)
    ensures ValidatePath(stagingDir, path).Ok? ==>
      var t := ValidatePath(stagingDir, path).value;
      && !HasDotNames(t)
      && Normalize(Resolve(stagingDir, Parse(path.value))) == JPath(true, stagingDir.names + t)
  {
    if ValidatePath(stagingDir, path).Ok? {
      var r := Resolve(stagingDir, Parse(path.value));
      var n := Normalize(r);
      var empty: seq<string> := [];
      NormalizeAbsoluteClean(empty, r.names);
      var t := ValidatePath(stagingDir, path).value;
      assert n.names == stagingDir.names + t;
      forall i | 0 <= i < |t| ensures t[i] != "." && t[i] != ".." {
        assert t[i] == n.names[|stagingDir.names| + i];
      }
    }
  }

  /** A relative path whose `..`s never climb above the staging directory
      is accepted, as the names its walk ends on; the empty path is one. */
  lemma ValidatePathInside(stagingDir: JPath, s: string)
    requires !HasDotNames(stagingDir.names)
    requires s == "" || !JavaStrings.IsBlank(s)
    requires !Parse(s).absolute && ClimbFrom([], Parse(s).names).Some?
    ensures ValidatePath(stagingDir, Some(s)) == Ok(ClimbFrom([], Parse(s).names).value)
  {
    var base := stagingDir.names;
    var names := Parse(s).names;
    var empty: seq<string> := [];
    NormalizeFromPlain(stagingDir.absolute, empty, base, names);
    assert empty + base == base && base + empty == base;
    NormalizeBelowBase(stagingDir.absolute, base, empty, names);
    var t := ClimbFrom(empty, names).value;
    assert (base + t)[..|base|] == base && (base + t)[|base|..] == t;
  }

  /** A staging directory `staging` inside an absolute test directory. */
  function TestStagingDir(): JPath {
    JPath(true, ["tmp", "test", "staging"])
  }

  lemma TestStagingDirClean()
    ensures !HasDotNames(TestStagingDir().names)
  {
    var names := TestStagingDir().names;
    assert names[0] == "tmp" && names[1] == "test" && names[2] == "staging";
  }

  /** The paths of the layer tests: climbing out, even part of the way
      through, is refused; a plain relative path and the empty path are
      accepted. */
  lemma ValidatePathExamples()
    ensures ValidatePath(TestStagingDir(), Some("path/to/../../../directory")) == Err(IllegalArgument("Path is outside staging directory"))
    ensures ValidatePath(TestStagingDir(), Some("../path/to/")) == Err(IllegalArgument("Path is outside staging directory"))
    ensures ValidatePath(TestStagingDir(), Some("path/to/directory")) == Ok(["path", "to", "directory"])
    ensures ValidatePath(TestStagingDir(), Some("")) == Ok([])
  {
    ClimbOutExample();
    ClimbOutFirstExample();
    PlainExample();
    EmptyExample();
  }

  /** `validatePath` on a relative path, given what its names normalise
      to below the staging directory. */
  lemma ValidateByNormalForm(stagingDir: JPath, s: string, names: seq<string>, n: seq<string>)
    requires s != "" && !JavaStrings.IsBlank(s) && !HasDotNames(stagingDir.names)
    requires Parse(s) == JPath(false, names)
    requires NormalizeFrom(stagingDir.absolute, stagingDir.names, names) == n
    ensures ValidatePath(stagingDir, Some(s)) ==
      if StartsWith(JPath(stagingDir.absolute, n), stagingDir) then Ok(n[|stagingDir.names|..])
      else Err(IllegalArgument("Path is outside staging directory"))
  {
    var empty: seq<string> := [];
    NormalizeFromPlain(stagingDir.absolute, empty, stagingDir.names, names);
    assert empty + stagingDir.names == stagingDir.names;
  }

  /** Names that leave `/tmp/test` for another entry than `staging` lie
      outside the test staging directory. */
  lemma NotUnderStaging(n: seq<string>)
    requires |n| >= 3 && n[2] != "staging"
    ensures !StartsWith(JPath(true, n), TestStagingDir())
  {
    assert TestStagingDir().names[2] == "staging";
  }

  lemma TestPathsNotBlank()
    ensures !JavaStrings.IsBlank("path/to/../../../directory")
    ensures !JavaStrings.IsBlank("../path/to/")
    ensures !JavaStrings.IsBlank("path/to/directory")
  {
    assert !JavaStrings.IsWhitespace('p') && !JavaStrings.IsWhitespace('.');
    assert "path/to/../../../directory"[0] == 'p';
    assert "../path/to/"[0] == '.';
    assert "path/to/directory"[0] == 'p';
  }

  lemma ClimbOutExample()
    ensures ValidatePath(TestStagingDir(), Some("path/to/../../../directory")) == Err(IllegalArgument("Path is outside staging directory"))
  {
    TestPathsNotBlank();
    ParseClimbOut();
    NormalizeClimbOut();
    var n := ["tmp", "test", "directory"];
    NotUnderStaging(n);
    TestStagingDirClean();
    ValidateByNormalForm(TestStagingDir(), "path/to/../../../directory", ["path", "to", "..", "..", "..", "directory"], n);
  }

  lemma NormalizeClimbOut()
    ensures NormalizeFrom(true, ["tmp", "test", "staging"], ["path", "to", "..", "..", "..", "directory"]) == ["tmp", "test", "directory"]
  {
    var base := ["tmp", "test", "staging"];
    NormalizeFromPlain(true, base, ["path", "to"], ["..", "..", "..", "directory"]);
    assert ["path", "to"] + ["..", "..", "..", "directory"] == ["path", "to", "..", "..", "..", "directory"];
    assert base + ["path", "to"] == ["tmp", "test", "staging", "path", "to"];
    var s0 := ["tmp", "test", "staging", "path", "to"];
    var r0 := ["..", "..", "..", "directory"];
    assert NormalizeFrom(true, s0, r0) == NormalizeFrom(true, ["tmp", "test", "staging", "path"], ["..", "..", "directory"]) by {
      assert s0[..|s0| - 1] == ["tmp", "test", "staging", "path"] && r0[1..] == ["..", "..", "directory"];
    }
    var s1 := ["tmp", "test", "staging", "path"];
    var r1 := ["..", "..", "directory"];
    assert NormalizeFrom(true, s1, r1) == NormalizeFrom(true, ["tmp", "test", "staging"], ["..", "directory"]) by {
      assert s1[..|s1| - 1] == ["tmp", "test", "staging"] && r1[1..] == ["..", "directory"];
    }
    var s2 := ["tmp", "test", "staging"];
    var r2 := ["..", "directory"];
    assert NormalizeFrom(true, s2, r2) == NormalizeFrom(true, ["tmp", "test"], ["directory"]) by {
      assert s2[..|s2| - 1] == ["tmp", "test"] && r2[1..] == ["directory"];
    }
    var s3 := ["tmp", "test"];
    var r3 := ["directory"];
    assert NormalizeFrom(true, s3, r3) == ["tmp", "test", "directory"] by {
      assert r3[1..] == [] && s3 + [r3[0]] == ["tmp", "test", "directory"];
    }
  }

  lemma ClimbOutFirstExample()
    ensures ValidatePath(TestStagingDir(), Some("../path/to/")) == Err(IllegalArgument("Path is outside staging directory"))
  {
    TestPathsNotBlank();
    ParseClimbOutFirst();
    NormalizeClimbOutFirst();
    var n := ["tmp", "test", "path", "to"];
    NotUnderStaging(n);
    TestStagingDirClean();
    ValidateByNormalForm(TestStagingDir(), "../path/to/", ["..", "path", "to"], n);
  }

  lemma NormalizeClimbOutFirst()
    ensures NormalizeFrom(true, ["tmp", "test", "staging"], ["..", "path", "to"]) == ["tmp", "test", "path", "to"]
  {
    var s0 := ["tmp", "test", "staging"];
    var r0 := ["..", "path", "to"];
    assert NormalizeFrom(true, s0, r0) == NormalizeFrom(true, ["tmp", "test"], ["path", "to"]) by {
      assert s0[..|s0| - 1] == ["tmp", "test"] && r0[1..] == ["path", "to"];
    }
    var s1 := ["tmp", "test"];
    var r1 := ["path", "to"];
    assert NormalizeFrom(true, s1, r1) == NormalizeFrom(true, ["tmp", "test", "path"], ["to"]) by {
      assert s1 + [r1[0]] == ["tmp", "test", "path"] && r1[1..] == ["to"];
    }
    var s2 := ["tmp", "test", "path"];
    var r2 := ["to"];
    assert NormalizeFrom(true, s2, r2) == ["tmp", "test", "path", "to"] by {
      assert s2 + [r2[0]] == ["tmp", "test", "path", "to"] && r2[1..] == [];
    }
  }

  lemma PlainExample()
    ensures ValidatePath(TestStagingDir(), Some("path/to/directory")) == Ok(["path", "to", "directory"])
  {
    TestPathsNotBlank();
    ParsePlain();
    NormalizePlain();
    var n := ["tmp", "test", "staging", "path", "to", "directory"];
    TestStagingDirClean();
    assert n[..3] == TestStagingDir().names && n[3..] == ["path", "to", "directory"];
    ValidateByNormalForm(TestStagingDir(), "path/to/directory", ["path", "to", "directory"], n);
  }

  lemma NormalizePlain()
    ensures NormalizeFrom(true, ["tmp", "test", "staging"], ["path", "to", "directory"]) == ["tmp", "test", "staging", "path", "to", "directory"]
  {
    var names := ["path", "to", "directory"];
    var empty: seq<string> := [];
    assert !HasDotNames(names) by {
      assert names[0] == "path" && names[1] == "to" && names[2] == "directory";
    }
    NormalizeFromPlain(true, ["tmp", "test", "staging"], names, empty);
    assert names + empty == names;
  }

  lemma EmptyExample()
    ensures ValidatePath(TestStagingDir(), Some("")) == Ok([])
  {
    assert JavaStrings.RawSplit("") == [""] && [""][1..] == [];
    assert Parse("") == JPath(false, []);
    ValidatePathInside(TestStagingDir(), "");
  }

  lemma ParseClimbOut()
    ensures Parse("path/to/../../../directory") == JPath(false, ["path", "to", "..", "..", "..", "directory"])
  {
    var a := ["path", "to", "..", "..", "..", "directory"];
    JoinClimbOut();
    ClimbOutNamesProper();
    ParseByJoin("path/to/../../../directory", a);
  }

  lemma ClimbOutNamesProper()
    ensures ProperNames(["path", "to", "..", "..", "..", "directory"])
  {
    var a := ["path", "to", "..", "..", "..", "directory"];
    assert '/' !in "path" && '/' !in "to" && '/' !in ".." && '/' !in "directory";
    forall i | 0 <= i < |a| ensures a[i] != "" && '/' !in a[i] {
      assert a[i] in {"path", "to", "..", "directory"};
    }
  }

  lemma JoinClimbOut()
    ensures JavaStrings.Join(["path", "to", "..", "..", "..", "directory"]) == "path/to/../../../directory"
  {
    var a := ["path", "to", "..", "..", "..", "directory"];
    var b := ["to", "..", "..", "..", "directory"];
    assert a[1..] == b && b[1..] == ["..", "..", "..", "directory"];
    JoinDots();
    ClimbOutText();
  }

  lemma ClimbOutText()
    ensures "path" + "/" + ("to" + "/" + "../../../directory") == "path/to/../../../directory"
  {
  }

  lemma JoinDots()
    ensures JavaStrings.Join(["..", "..", "..", "directory"]) == "../../../directory"
  {
    assert ["..", "..", "..", "directory"][1..] == ["..", "..", "directory"];
    JoinDots2();
    DotsText();
  }

  lemma JoinDots2()
    ensures JavaStrings.Join(["..", "..", "directory"]) == ".." + "/" + (".." + "/" + "directory")
  {
    assert ["..", "..", "directory"][1..] == ["..", "directory"];
    assert ["..", "directory"][1..] == ["directory"];
  }

  lemma DotsText()
    ensures ".." + "/" + (".." + "/" + (".." + "/" + "directory")) == "../../../directory"
  {
  }

  lemma ParseClimbOutFirst()
    ensures Parse("../path/to/") == JPath(false, ["..", "path", "to"])
  {
    var b := ["..", "path", "to", ""];
    SplitClimbOutFirst();
    assert NonEmptyPieces(b) == ["..", "path", "to"] by {
      assert b[1..] == ["path", "to", ""] && b[1..][1..] == ["to", ""] && b[1..][1..][1..] == [""];
      assert [""][1..] == [];
    }
  }

  lemma SplitClimbOutFirst()
    ensures JavaStrings.RawSplit("../path/to/") == ["..", "path", "to", ""]
  {
    ClimbOutFirstText();
    SplitPathTo();
    SplitDotDotThen("../path/to/", "path/to/", ["path", "to", ""]);
  }

  /** `..` followed by a path that splits into `pieces`. */
  lemma SplitDotDotThen(s: string, rest: string, pieces: seq<string>)
    requires s == ".." + "/" + rest && JavaStrings.RawSplit(rest) == pieces
    ensures JavaStrings.RawSplit(s) == [".."] + pieces
  {
    JavaStrings.RawSplitHead("..", rest);
  }

  lemma ClimbOutFirstText()
    ensures "../path/to/" == ".." + "/" + "path/to/"
  {
  }

  lemma SplitPathTo()
    ensures JavaStrings.RawSplit("path/to/") == ["path", "to", ""]
  {
    PathToText();
    JavaStrings.RawSplitHead("to", "");
    JavaStrings.RawSplitHead("path", "to/");
  }

  lemma PathToText()
    ensures "path/to/" == "path" + "/" + "to/" && "to/" == "to" + "/" + ""
  {
  }

  lemma ParsePlain()
    ensures Parse("path/to/directory") == JPath(false, ["path", "to", "directory"])
  {
    var c := ["path", "to", "directory"];
    assert JavaStrings.Join(c) == "path/to/directory" by {
      assert c[1..] == ["to", "directory"] && c[1..][1..] == ["directory"];
    }
    ParseByJoin("path/to/directory", c);
  }

  /** A string that joins proper names parses to them. */
  lemma ParseByJoin(s: string, names: seq<string>)
    requires ProperNames(names) && JavaStrings.Join(names) == s
    ensures Parse(s) == JPath(false, names)
  {
    ParseJoin(names);
  }

  // ---------------------------------------------------------------------
  // read and fileExists

  /** A file staged at proper names `q` reads back under the path `q`
      joined with '/', whether the layer is open or closed. */
  lemma ReadStaged(l: Layer, q: seq<string>, c: Bytes, disk: map<JPath, FsObj>)
    requires !IsArchived(l) && !HasDotNames(l.stagingDir.names)
    requires ProperPath(q) && q in l.staging && l.staging[q] == Regular(c)
    ensures Read(l, JavaStrings.Join(q), disk) == Ok(Some(c))
    ensures Read(Close(l), JavaStrings.Join(q), disk) == Ok(Some(c))
    ensures JavaStrings.Join(q) == "" || !JavaStrings.IsBlank(JavaStrings.Join(q)) ==>
      FileExists(l, Some(JavaStrings.Join(q))) == Ok(true)
  {
    StagedTarget(l.stagingDir, q);
  }

  /** `read` does not validate its path: a sibling of the staging
      directory, which `validatePath` refuses, is read from the rest of the
      disk. */
  lemma ReadNotConfined(l: Layer, name: string, c: Bytes, disk: map<JPath, FsObj>)
    requires !IsArchived(l) && |l.stagingDir.names| > 0 && !HasDotNames(l.stagingDir.names)
    requires ProperName(name) && name != l.stagingDir.names[|l.stagingDir.names| - 1]
    requires var d := l.stagingDir;
      JPath(d.absolute, d.names[..|d.names| - 1] + [name]) in disk
      && disk[JPath(d.absolute, d.names[..|d.names| - 1] + [name])] == Regular(c)
    ensures ValidatePath(l.stagingDir, Some(JavaStrings.Join(["..", name]))) ==
      Err(IllegalArgument("Path is outside staging directory"))
    ensures Read(l, JavaStrings.Join(["..", name]), disk) == Ok(Some(c))
  {
    var d := l.stagingDir;
    var base := d.names;
    var rest := ["..", name];
    var s := JavaStrings.Join(rest);
    var sibling := base[..|base| - 1] + [name];
    var empty: seq<string> := [];
    assert ProperNames(rest);
    ParseJoin(rest);
    NormalizeFromPlain(d.absolute, empty, base, rest);
    assert empty + base == base;
    assert base[|base| - 1] != ".." by {
      assert !(base[|base| - 1] == "." || base[|base| - 1] == "..");
    }
    var up := base[..|base| - 1];
    assert rest[0] == ".." && rest[1..] == [name] && [name][0] == name && [name][1..] == [];
    calc {
      NormalizeFrom(d.absolute, base, rest);
      NormalizeFrom(d.absolute, up, [name]);
      NormalizeFrom(d.absolute, up + [name], []);
    }
    assert Normalize(Resolve(d, Parse(s))) == JPath(d.absolute, sibling);
    assert sibling[|base| - 1] != base[|base| - 1];
    assert Target(d, s) == None;
    JoinClimbsOut(name);
  }

  /** `../name` is not blank. */
  lemma JoinClimbsOut(name: string)
    ensures JavaStrings.Join(["..", name]) != "" && !JavaStrings.IsBlank(JavaStrings.Join(["..", name]))
  {
    var s := JavaStrings.Join(["..", name]);
    var xs := ["..", name];
    assert xs[0] == ".." && xs[1..] == [name];
    assert JavaStrings.Join([name]) == name;
    assert s == xs[0] + "/" + JavaStrings.Join(xs[1..]);
    assert s[0] == '.';
  }

  /** The staging target of a joined proper path is that path. */
  lemma StagedTarget(stagingDir: JPath, q: seq<string>)
    requires !HasDotNames(stagingDir.names) && ProperPath(q)
    ensures Target(stagingDir, JavaStrings.Join(q)) == Some(q)
  {
    var base := stagingDir.names;
    var n := JPath(stagingDir.absolute, base + q);
    assert ProperNames(q);
    ParseJoin(q);
    assert Resolve(stagingDir, Parse(JavaStrings.Join(q))) == n;
    assert !HasDotNames(q) by {
      forall i | 0 <= i < |q| ensures q[i] != "." && q[i] != ".." {
        assert ProperName(q[i]);
      }
    }
    NoDotNamesConcat(base, q);
    NormalizeWithoutDots(n);
    assert n.names[..|base|] == base && n.names[|base|..] == q;
  }

  /** After a successful `archive` a file of the staging directory reads
      back from the zip under its joined path. */
  lemma ReadArchived(l: Layer, listing: seq<Node>, q: seq<string>, c: Bytes, disk: map<JPath, FsObj>)
    requires l.closed && !IsArchived(l) && Lists(l.staging, listing)
    requires q in l.staging && l.staging[q] == Regular(c)
    ensures Read(Archive(l, listing, None).layer, JavaStrings.Join(q), disk) == Ok(Some(c))
  {
    var root: seq<string> := [];
    ListsRoot(l.staging, listing);
    Zip.ForestEntriesRead(listing, root, q, c);
  }

  /** The read tests: a file written to the staging directory reads the
      same while open, once closed, and once archived, when the staging
      directory is what `listFiles()` lists. */
  lemma ReadInEveryState(l: Layer, listing: seq<Node>, q: seq<string>, c: Bytes, disk: map<JPath, FsObj>)
    requires !l.closed && !IsArchived(l) && !HasDotNames(l.stagingDir.names)
    requires Lists(l.staging, listing) && q in l.staging && l.staging[q] == Regular(c)
    ensures Read(l, JavaStrings.Join(q), disk) == Ok(Some(c))
    ensures Read(Close(l), JavaStrings.Join(q), disk) == Ok(Some(c))
    ensures Read(Archive(Close(l), listing, None).layer, JavaStrings.Join(q), disk) == Ok(Some(c))
  {
    var root: seq<string> := [];
    ListsRoot(l.staging, listing);
    ToFsProper(listing, root);
    ReadStaged(l, q, c, disk);
    ReadArchived(Close(l), listing, q, c, disk);
  }

  // ---------------------------------------------------------------------
  // deleteFiles

  /** The loop over a list split in two runs the second half only when the
      first half went through. */
  lemma {:induction false} DeleteEachAppend(stagingDir: JPath, fs: Fs, a: seq<Option<string>>, b: seq<Option<string>>)
    ensures DeleteEach(stagingDir, fs, a + b) ==
      (var (fs', r) := DeleteEach(stagingDir, fs, a); if r.Err? then (fs', r) else DeleteEach(stagingDir, fs', b))
    decreases |a|
  {
    if |a| == 0 {
      assert a + b == b;
    } else {
      assert (a + b)[0] == a[0] && (a + b)[1..] == a[1..] + b;
      var v := ValidatePath(stagingDir, a[0]);
      if v.Ok? && Files.Delete(fs, v.value).Ok? {
        DeleteEachAppend(stagingDir, Files.Delete(fs, v.value).value, a[1..], b);
      }
    }
  }

  /** A loop that goes through has validated every path and removed its
      target, and has added or changed nothing. */
  lemma {:induction false} DeleteEachRemoves(stagingDir: JPath, fs: Fs, paths: seq<Option<string>>)
    ensures var (fs', r) := DeleteEach(stagingDir, fs, paths);
      && (forall k :: k in fs' ==> k in fs && fs'[k] == fs[k])
      && (r.Ok? ==> forall i :: 0 <= i < |paths| ==>
            ValidatePath(stagingDir, paths[i]).Ok? && ValidatePath(stagingDir, paths[i]).value !in fs')
    decreases |paths|
  {
    if |paths| > 0 {
      var v := ValidatePath(stagingDir, paths[0]);
      if v.Ok? && Files.Delete(fs, v.value).Ok? {
        var fs1 := Files.Delete(fs, v.value).value;
        DeleteEachRemoves(stagingDir, fs1, paths[1..]);
        var (fs', r) := DeleteEach(stagingDir, fs1, paths[1..]);
        if r.Ok? {
          forall i | 0 < i < |paths|
            ensures ValidatePath(stagingDir, paths[i]).Ok? && ValidatePath(stagingDir, paths[i]).value !in fs'
          {
            assert paths[i] == paths[1..][i - 1];
          }
        }
      }
    }
  }

  /** `deleteFiles` checks the state first; an open layer gets its staging
      directory before the list is checked for `null`; a `null` in the list
      stops the loop with the deletions before it kept. */
  lemma DeleteFilesOrder(l: Layer, first: string, fs1: Fs)
    requires !l.closed
    requires ValidatePath(l.stagingDir, Some(first)).Ok?
    requires Files.Delete(EnsureStagingDir(l.staging), ValidatePath(l.stagingDir, Some(first)).value) == Ok(fs1)
    ensures Close(l).closed ==> DeleteFiles(Close(l), None) == Step(Close(l), Err(IllegalState(ClosedMessage)))
    ensures DeleteFiles(l, None) == Step(l.(staging := EnsureStagingDir(l.staging)), Err(IllegalArgument("Paths cannot be null")))
    ensures DeleteFiles(l, Some([Some(first), None])) == Step(l.(staging := fs1), Err(IllegalArgument("Path cannot be null")))
  {
    var fs := EnsureStagingDir(l.staging);
    var ps := [Some(first), None];
    assert ps[0] == Some(first) && ps[1..] == [None];
    assert DeleteEach(l.stagingDir, fs1, [None]) == (fs1, Err(IllegalArgument("Path cannot be null")));
  }
}

=== FILE: layer_manager.dfy ===
/** `layerstore/LayerManagerImpl`: the registry of layers by id, the top
    layer that receives new writes, and the rollover that closes the old
    top and hands it to the archiving executor.

    Java object identity matters here: `newTopLayer` closes and queues the
    old top *object*, which a rollover within the same millisecond has
    already replaced in the `layers` map.  So every `LayerImpl` ever
    constructed is a slot of `slots`, and the map, `topLayer` and the
    executor's queue refer to slots by index. */
module LayerManager {
  import opened Outcomes
  import opened JavaPaths
  import opened FileTrees
  import opened JavaLongs
  import Zip
  import Files
  import Layers

  /** A `LayerImpl` and the file its `ZipArchive` writes to. */
  datatype Slot = Slot(layer: Layers.Layer, zipFile: JPath)

  /** The manager's fields.  The executor is a single sequential queue of
      archiving tasks, each naming the slot it archives. */
  datatype Manager = Manager(
    stagingRoot: JPath,
    archiveRoot: JPath,
    slots: seq<Slot>,
    layers: map<int, nat>,
    top: Option<nat>,
    pending: seq<nat>)

  /** `root.resolve(name)` for a single name. */
  function Child(root: JPath, name: string): (p: JPath)
    ensures p.absolute == root.absolute && |p.names| == |root.names| + 1
  {
    JPath(root.absolute, root.names + [name])
  }

  /** `stagingRoot.resolve(Long.toString(id))`. */
  function StagingDirOf(m: Manager, id: int): JPath {
    Child(m.stagingRoot, LongToString(id))
  }

  /** `archiveRoot.resolve(Long.toString(id) + ".zip")`: where `newTopLayer`
      puts a layer's zip file. */
  function ZipFileOf(m: Manager, id: int): JPath {
    Child(m.archiveRoot, LongToString(id) + ".zip")
  }

  /** Every index the manager holds names a slot. */
  predicate Valid(m: Manager) {
    && (m.top.Some? ==> m.top.value < |m.slots|)
    && (forall id :: id in m.layers ==> m.layers[id] < |m.slots|)
    && (forall i :: 0 <= i < |m.pending| ==> m.pending[i] < |m.slots|)
  }

  /** The state that construction and `newTopLayer` keep: there is an open
      top, registered under its id; every registered layer is registered
      under its own id and, unless it is the top, closed; every layer ever
      constructed is still registered, over the locations named after its
      id; every queued layer is closed, not yet archived, queued once and
      not the top; and each layer keeps its own invariant. */
  predicate Inv(m: Manager) {
    Valid(m) && TopOk(m) && Registered(m) && Located(m) && QueueOk(m) && LayersOk(m)
  }

  predicate TopOk(m: Manager)
    requires Valid(m)
  {
    && m.top.Some?
    && var t := m.top.value;
    && m.slots[t].layer.id in m.layers && m.layers[m.slots[t].layer.id] == t
    && !m.slots[t].layer.closed
  }

  predicate Registered(m: Manager)
    requires Valid(m)
  {
    && (forall id :: id in m.layers ==> m.slots[m.layers[id]].layer.id == id)
    && (forall id :: id in m.layers && m.top != Some(m.layers[id]) ==> m.slots[m.layers[id]].layer.closed)
  }

  predicate Located(m: Manager)
    requires Valid(m)
  {
    forall i :: 0 <= i < |m.slots| ==>
      && m.slots[i].layer.id in m.layers && m.layers[m.slots[i].layer.id] == i
      && m.slots[i].layer.stagingDir == StagingDirOf(m, m.slots[i].layer.id)
      && m.slots[i].zipFile == ZipFileOf(m, m.slots[i].layer.id)
  }

  predicate QueueOk(m: Manager)
    requires Valid(m)
  {
    && (forall i :: 0 <= i < |m.pending| ==> Queued(m, m.pending[i]))
    && (forall i, j :: 0 <= i < j < |m.pending| ==> m.pending[i] != m.pending[j])
  }

  predicate LayersOk(m: Manager) {
    forall i :: 0 <= i < |m.slots| ==> Layers.Inv(m.slots[i].layer)
  }

  /** A slot waiting in the executor's queue. */
  predicate Queued(m: Manager, s: nat)
    requires Valid(m) && s < |m.slots|
  {
    m.slots[s].layer.closed && !Layers.IsArchived(m.slots[s].layer) && m.top != Some(s)
  }

  // ---------------------------------------------------------------------
  // newTopLayer and the constructor

  /** A fresh `LayerImpl` for `id` whose archive goes to `zipFile`; nothing
      exists at its staging directory yet. */
  function FreshSlot(stagingDir: JPath, id: int, zipFile: JPath): Slot {
    Slot(Layers.NewLayer(id, stagingDir, map[], Zip.Fresh()), zipFile)
  }

  /** `newTopLayer()` at clock reading `now`: the new layer becomes the top
      and is registered under `now` (replacing a layer created in the same
      millisecond); the old top, if any, is closed and then queued for
      archiving. */
  function NewTopLayer(m: Manager, now: int): (r: Manager)
    requires Valid(m)
  {
    var i := |m.slots|;
    var slots := m.slots + [FreshSlot(StagingDirOf(m, now), now, ZipFileOf(m, now))];
    var r := m.(slots := slots, layers := m.layers[now := i], top := Some(i));
    match m.top
    case None => r
    case Some(prev) =>
      r.(slots := slots[prev := slots[prev].(layer := Layers.Close(slots[prev].layer))],
         pending := m.pending + [prev])
  }

  /** `new LayerManagerImpl(stagingRoot, archiveRoot, executor)` at clock
      reading `now`. */
  function Create(stagingRoot: JPath, archiveRoot: JPath, now: int): (r: Manager)
  {
    NewTopLayer(Manager(stagingRoot, archiveRoot, [], map[], None, []), now)
  }

  /** A new manager has an open top layer, registered under `now`, with the
      staging directory and zip file named after `now`, and nothing queued. */
  lemma CreateLaw(stagingRoot: JPath, archiveRoot: JPath, now: int)
    ensures var m := Create(stagingRoot, archiveRoot, now);
      && Inv(m)
      && m.layers == map[now := 0] && m.top == Some(0) && m.pending == []
      && m.slots[0].layer.id == now && !m.slots[0].layer.closed
      && m.slots[0].layer.stagingDir == StagingDirOf(m, now)
      && m.slots[0].zipFile == ZipFileOf(m, now)
  {
    var m := Create(stagingRoot, archiveRoot, now);
    assert Files.Coherent(map[]);
  }

  /** `newTopLayer` registers a new open, unarchived layer under `now` and
      makes it the top; it closes the old top and queues it last; no other
      layer changes. */
  lemma NewTopLayerLaw(m: Manager, now: int)
    requires Valid(m)
    ensures var r := NewTopLayer(m, now); var t := |m.slots|;
      && Valid(r)
      && |r.slots| == t + 1 && r.top == Some(t)
      && r.layers == m.layers[now := t]
      && r.slots[t] == FreshSlot(StagingDirOf(m, now), now, ZipFileOf(m, now))
      && !r.slots[t].layer.closed && !Layers.IsArchived(r.slots[t].layer)
      && (m.top.None? ==> r.pending == m.pending && r.slots[..t] == m.slots)
      && (m.top.Some? ==>
            && r.pending == m.pending + [m.top.value]
            && r.slots[m.top.value] == m.slots[m.top.value].(layer := Layers.Close(m.slots[m.top.value].layer)))
      && (forall i :: 0 <= i < t && m.top != Some(i) ==> r.slots[i] == m.slots[i])
  {
  }

  /** `newTopLayer` at a clock reading no layer is registered under keeps
      the invariant. */
  lemma NewTopLayerKeepsInvariant(m: Manager, now: int)
    requires Inv(m) && now !in m.layers
    ensures Inv(NewTopLayer(m, now))
  {
    NewTopLayerLaw(m, now);
    var prev := m.slots[m.top.value].layer;
    assert Layers.Inv(prev);
    NewTopOk(m, now);
    NewRegistered(m, now);
    NewLocated(m, now);
    NewQueueOk(m, now);
    NewLayersOk(m, now);
  }

  lemma NewLocated(m: Manager, now: int)
    requires Valid(m) && Located(m) && now !in m.layers
    ensures Valid(NewTopLayer(m, now)) && Located(NewTopLayer(m, now))
  {
    var r := NewTopLayer(m, now);
    NewTopLayerLaw(m, now);
    forall i | 0 <= i < |m.slots|
      ensures r.slots[i].layer.id == m.slots[i].layer.id && r.slots[i].layer.stagingDir == m.slots[i].layer.stagingDir
      ensures r.slots[i].zipFile == m.slots[i].zipFile
    {
    }
  }

  /** Under the invariant no two layers share a staging directory or a zip
      file: each is named after its layer's id, and ids are registered
      once. */
  lemma SeparateLocations(m: Manager)
    requires Inv(m)
    ensures forall i, j :: 0 <= i < j < |m.slots| ==>
      m.slots[i].layer.stagingDir != m.slots[j].layer.stagingDir && m.slots[i].zipFile != m.slots[j].zipFile
  {
    forall i, j | 0 <= i < j < |m.slots|
      ensures m.slots[i].layer.stagingDir != m.slots[j].layer.stagingDir && m.slots[i].zipFile != m.slots[j].zipFile
    {
      var a := m.slots[i].layer.id;
      var b := m.slots[j].layer.id;
      assert a != b;
      NamesOfDistinctIds(m, a, b);
    }
  }

  /** Distinct ids name distinct staging directories and zip files. */
  lemma NamesOfDistinctIds(m: Manager, a: int, b: int)
    requires a != b
    ensures StagingDirOf(m, a) != StagingDirOf(m, b) && ZipFileOf(m, a) != ZipFileOf(m, b)
  {
    var x := LongToString(a);
    var y := LongToString(b);
    if StagingDirOf(m, a) == StagingDirOf(m, b) {
      var k := |m.stagingRoot.names|;
      assert StagingDirOf(m, a).names[k] == x && StagingDirOf(m, b).names[k] == y;
      LongToStringInjective(a, b);
    }
    if ZipFileOf(m, a) == ZipFileOf(m, b) {
      var k := |m.archiveRoot.names|;
      assert ZipFileOf(m, a).names[k] == x + ".zip" && ZipFileOf(m, b).names[k] == y + ".zip";
      SuffixCancel(x, y, ".zip");
      LongToStringInjective(a, b);
    }
  }

  lemma SuffixCancel(x: string, y: string, suffix: string)
    requires x + suffix == y + suffix
    ensures x == y
  {
    assert |x| == |y|;
    assert x == (x + suffix)[..|x|] && y == (y + suffix)[..|y|];
  }

  /** Two rollovers within one millisecond: the old top, closed and queued
      for archiving, and the new top are built over the same staging
      directory and the same zip file, so the old top's archiving task
      packs and then deletes the directory the new top writes to.  The map
      no longer reaches the old top, and the invariant is lost. */
  lemma SameMillisecondRollover(m: Manager, now: int)
    requires Inv(m) && m.slots[m.top.value].layer.id == now
    ensures var r := NewTopLayer(m, now); var p := m.top.value; var t := |m.slots|;
      && r.top == Some(t) && r.pending == m.pending + [p] && r.slots[p].layer.closed
      && r.slots[p].layer.stagingDir == r.slots[t].layer.stagingDir
      && r.slots[p].zipFile == r.slots[t].zipFile
      && r.layers[now] == t
      && !Inv(r)
  {
    NewTopLayerLaw(m, now);
    var r := NewTopLayer(m, now);
    var p := m.top.value;
    assert r.slots[p].layer.id == now && r.layers[now] != p;
  }

  lemma NewTopOk(m: Manager, now: int)
    requires Valid(m)
    ensures Valid(NewTopLayer(m, now)) && TopOk(NewTopLayer(m, now))
  {
    NewTopLayerLaw(m, now);
  }

  lemma NewRegistered(m: Manager, now: int)
    requires Valid(m) && Registered(m)
    ensures Valid(NewTopLayer(m, now)) && Registered(NewTopLayer(m, now))
  {
    var r := NewTopLayer(m, now);
    var t := |m.slots|;
    NewTopLayerLaw(m, now);
    forall id | id in r.layers ensures r.slots[r.layers[id]].layer.id == id {
      if id != now { assert r.slots[r.layers[id]].layer.id == m.slots[m.layers[id]].layer.id; }
    }
    forall id | id in r.layers && r.top != Some(r.layers[id]) ensures r.slots[r.layers[id]].layer.closed {
      assert id != now && r.layers[id] == m.layers[id];
    }
  }

  lemma NewQueueOk(m: Manager, now: int)
    requires Valid(m) && TopOk(m) && QueueOk(m)
    requires !Layers.IsArchived(m.slots[m.top.value].layer)
    ensures Valid(NewTopLayer(m, now)) && QueueOk(NewTopLayer(m, now))
  {
    var r := NewTopLayer(m, now);
    NewTopLayerLaw(m, now);
    forall i | 0 <= i < |r.pending| ensures Queued(r, r.pending[i]) {
      if i < |m.pending| {
        assert r.pending[i] == m.pending[i] && Queued(m, m.pending[i]);
      }
    }
    forall i, j | 0 <= i < j < |r.pending| ensures r.pending[i] != r.pending[j] {
      if j == |m.pending| {
        assert Queued(m, m.pending[i]);
      }
    }
  }

  lemma NewLayersOk(m: Manager, now: int)
    requires Valid(m) && LayersOk(m)
    ensures LayersOk(NewTopLayer(m, now))
  {
    var r := NewTopLayer(m, now);
    var t := |m.slots|;
    NewTopLayerLaw(m, now);
    assert Files.Coherent(map[]);
    forall i | 0 <= i < |r.slots| ensures Layers.Inv(r.slots[i].layer) {
      if i < t { assert Layers.Inv(m.slots[i].layer); }
    }
  }

  // ---------------------------------------------------------------------
  // The archiving executor

  /** The executor runs the oldest queued task: `archive()` on its layer.
      `listing` and `failAt` describe the staging directory as for
      `Layers.Archive`.  An exception escapes into the executor's thread,
      wrapped in a `RuntimeException`; the manager never sees it. */
  function RunNext(m: Manager, listing: seq<Node>, failAt: Option<nat>): (r: (Manager, Option<Result<()>>))
    requires Valid(m)
  {
    if |m.pending| == 0 then (m, None)
    else
      var step := Layers.Archive(m.slots[m.pending[0]].layer, listing, failAt);
      var outcome := if step.result.Ok? then Ok(()) else Err(Runtime("archiving failed"));
      (Dequeue(m, step.layer), Some(outcome))
  }

  /** The queue without its first task, whose layer is now `l`. */
  function Dequeue(m: Manager, l: Layers.Layer): Manager
    requires Valid(m) && |m.pending| > 0
  {
    var s := m.pending[0];
    m.(slots := m.slots[s := m.slots[s].(layer := l)], pending := m.pending[1..])
  }

  /** Archiving does not reopen a layer or close an open one, and keeps
      its id and staging location. */
  lemma ArchiveKeepsClosed(l: Layers.Layer, listing: seq<Node>, failAt: Option<nat>)
    ensures Layers.Archive(l, listing, failAt).layer.closed == l.closed
    ensures Layers.Archive(l, listing, failAt).layer.id == l.id
    ensures Layers.Archive(l, listing, failAt).layer.stagingDir == l.stagingDir
  {
  }

  /** Running a queued task keeps the invariant; the top and the map do not
      change. */
  lemma RunNextKeepsInvariant(m: Manager, listing: seq<Node>, failAt: Option<nat>)
    requires Inv(m)
    ensures var r := RunNext(m, listing, failAt).0;
      && Inv(r) && r.top == m.top && r.layers == m.layers
  {
    if |m.pending| > 0 {
      var l := m.slots[m.pending[0]].layer;
      assert Queued(m, m.pending[0]) && Layers.Inv(l);
      ArchiveKeepsClosed(l, listing, failAt);
      Layers.ArchiveKeepsInvariant(l, listing, failAt);
      DequeueKeepsInvariant(m, Layers.Archive(l, listing, failAt).layer);
    }
  }

  /** Replacing the first queued layer by a closed one with the same id and
      its own invariant, and dropping it from the queue, keeps the invariant. */
  lemma DequeueKeepsInvariant(m: Manager, l: Layers.Layer)
    requires Inv(m) && |m.pending| > 0
    requires l.closed && l.id == m.slots[m.pending[0]].layer.id && Layers.Inv(l)
    requires l.stagingDir == m.slots[m.pending[0]].layer.stagingDir
    ensures var r := Dequeue(m, l); Inv(r) && r.top == m.top && r.layers == m.layers
  {
    assert Queued(m, m.pending[0]);
    DequeueTopOk(m, l);
    DequeueRegistered(m, l);
    DequeueLocated(m, l);
    DequeueQueueOk(m, l);
    DequeueLayersOk(m, l);
  }

  lemma DequeueTopOk(m: Manager, l: Layers.Layer)
    requires Valid(m) && |m.pending| > 0 && TopOk(m) && m.top != Some(m.pending[0])
    ensures Valid(Dequeue(m, l)) && TopOk(Dequeue(m, l))
  {
  }

  lemma DequeueRegistered(m: Manager, l: Layers.Layer)
    requires Valid(m) && |m.pending| > 0 && Registered(m)
    requires l.closed && l.id == m.slots[m.pending[0]].layer.id
    ensures Valid(Dequeue(m, l)) && Registered(Dequeue(m, l))
  {
    var r := Dequeue(m, l);
    forall id | id in r.layers ensures r.slots[r.layers[id]].layer.id == id {
      assert m.slots[m.layers[id]].layer.id == id;
    }
    forall id | id in r.layers && r.top != Some(r.layers[id]) ensures r.slots[r.layers[id]].layer.closed {
      assert m.slots[m.layers[id]].layer.closed;
    }
  }

  lemma DequeueLocated(m: Manager, l: Layers.Layer)
    requires Valid(m) && |m.pending| > 0 && Located(m)
    requires l.id == m.slots[m.pending[0]].layer.id && l.stagingDir == m.slots[m.pending[0]].layer.stagingDir
    ensures Valid(Dequeue(m, l)) && Located(Dequeue(m, l))
  {
  }

  lemma DequeueQueueOk(m: Manager, l: Layers.Layer)
    requires Valid(m) && |m.pending| > 0 && QueueOk(m)
    ensures Valid(Dequeue(m, l)) && QueueOk(Dequeue(m, l))
  {
    var r := Dequeue(m, l);
    var s := m.pending[0];
    forall i | 0 <= i < |r.pending| ensures Queued(r, r.pending[i]) {
      assert r.pending[i] == m.pending[i + 1] && Queued(m, m.pending[i + 1]);
      assert m.pending[i + 1] != s;
    }
    forall i, j | 0 <= i < j < |r.pending| ensures r.pending[i] != r.pending[j] {
      assert r.pending[i] == m.pending[i + 1] && r.pending[j] == m.pending[j + 1];
    }
  }

  lemma DequeueLayersOk(m: Manager, l: Layers.Layer)
    requires Valid(m) && |m.pending| > 0 && LayersOk(m) && Layers.Inv(l)
    ensures LayersOk(Dequeue(m, l))
  {
    var r := Dequeue(m, l);
    forall i | 0 <= i < |r.slots| ensures Layers.Inv(r.slots[i].layer) {
      assert Layers.Inv(m.slots[i].layer);
    }
  }

  /** A queued layer is archived by its task when no entry fails: its zip
      holds the entries of the tree its staging directory held, and the
      staging directory is gone. */
  lemma RunNextArchives(m: Manager, listing: seq<Node>)
    requires Inv(m) && |m.pending| > 0
    requires Layers.Lists(m.slots[m.pending[0]].layer.staging, listing)
    ensures var (r, outcome) := RunNext(m, listing, None); var s := m.pending[0];
      && outcome == Some(Ok(()))
      && Layers.IsArchived(r.slots[s].layer) && r.slots[s].layer.staging == map[]
      && r.slots[s].layer.archive.zip == Some(Zip.ForestEntries(listing, ""))
      && r.pending == m.pending[1..]
  {
    var s := m.pending[0];
    assert Queued(m, s) && Layers.Inv(m.slots[s].layer);
    Layers.ArchiveSuccess(m.slots[s].layer, listing);
  }

  // ---------------------------------------------------------------------
  // getTopLayer

  /** The greatest element of a non-empty set of ids. */
  function MaxId(ids: set<int>): (r: int)
    requires ids != {}
    ensures r in ids && forall x :: x in ids ==> x <= r
  {
    MaxExists(ids);
    var r :| r in ids && forall x :: x in ids ==> x <= r;
    r
  }

  lemma {:induction false} MaxExists(ids: set<int>)
    requires ids != {}
    ensures exists r :: r in ids && forall x :: x in ids ==> x <= r
    decreases |ids|
  {
    var y := Pick(ids);
    if ids != {y} {
      var rest := ids - {y};
      MaxExists(rest);
      var r :| r in rest && forall x :: x in rest ==> x <= r;
      var top := if r < y then y else r;
      forall x | x in ids ensures x <= top {
        if x != y { assert x in rest; }
      }
    }
  }

  lemma Pick(ids: set<int>) returns (y: int)
    requires ids != {}
    ensures y in ids
  {
    if forall z :: z !in ids {
      assert false;
    }
    y :| y in ids;
  }

  /** `getTopLayer()`: the top layer; when there is none, the layer with the
      greatest id becomes the top, and with no layers at all it throws. */
  function GetTopLayer(m: Manager): (Manager, Result<nat>) {
    if m.top.Some? then (m, Ok(m.top.value))
    else if m.layers == map[] then (m, Err(IllegalState("No top layer found")))
    else
      var s := m.layers[MaxId(m.layers.Keys)];
      (m.(top := Some(s)), Ok(s))
  }

  /** With a top it is returned and nothing changes; without one the layer
      registered under the greatest id is returned and cached as the top;
      with no layers the call throws and nothing changes. */
  lemma GetTopLayerLaw(m: Manager)
    ensures m.top.Some? ==> GetTopLayer(m) == (m, Ok(m.top.value))
    ensures m.top.None? && m.layers == map[] ==> GetTopLayer(m) == (m, Err(IllegalState("No top layer found")))
    ensures m.top.None? && m.layers != map[] ==>
      exists k :: k in m.layers && (forall x :: x in m.layers ==> x <= k)
        && GetTopLayer(m) == (m.(top := Some(m.layers[k])), Ok(m.layers[k]))
  {
    if m.top.None? && m.layers != map[] {
      var k := MaxId(m.layers.Keys);
      assert k in m.layers;
    }
  }

  /** Under the invariant `getTopLayer` returns the open layer registered
      under the top's id. */
  lemma GetTopLayerOpen(m: Manager)
    requires Inv(m)
    ensures var (r, s) := GetTopLayer(m);
      && r == m && s.Ok? && s.value < |m.slots| && !m.slots[s.value].layer.closed
      && m.layers[m.slots[s.value].layer.id] == s.value
  {
  }

  // ---------------------------------------------------------------------
  // getLayer

  /** `getLayer(id)`, looking for the zip file at `zipFile`: a registered
      layer is returned; otherwise, when `stagingRoot/<id>` or `zipFile`
      exists on `disk`, a new layer over those locations is constructed,
      registered and returned; otherwise it throws.  `found` is what
      exists at the staging location. */
  function GetLayerAt(m: Manager, id: int, disk: set<JPath>, found: Fs, zipFile: JPath): (Manager, Result<nat>)
    requires Valid(m)
  {
    if id in m.layers then (m, Ok(m.layers[id]))
    else if StagingDirOf(m, id) in disk || zipFile in disk then
      Register(m, id, Slot(Layers.NewLayer(id, StagingDirOf(m, id), found, Zip.Fresh()), zipFile))
    else (m, Err(IllegalArgument("No layer found with id " + LongToString(id))))
  }

  /** `getLayer(id)` as written: it looks for `archiveRoot/<id>`, without
      the ".zip" that `newTopLayer` gives the zip file. */
  function GetLayerAsWritten(m: Manager, id: int, disk: set<JPath>, found: Fs): (Manager, Result<nat>)
    requires Valid(m)
  {
    GetLayerAt(m, id, disk, found, Child(m.archiveRoot, LongToString(id)))
  }

  /** `getLayer(id)` looking for the zip file where `newTopLayer` puts it. */
  function GetLayer(m: Manager, id: int, disk: set<JPath>, found: Fs): (Manager, Result<nat>)
    requires Valid(m)
  {
    GetLayerAt(m, id, disk, found, ZipFileOf(m, id))
  }

  function Register(m: Manager, id: int, slot: Slot): (Manager, Result<nat>) {
    (m.(slots := m.slots + [slot], layers := m.layers[id := |m.slots|]), Ok(|m.slots|))
  }

  /** A registered layer is returned unchanged; an unregistered one whose
      staging directory or probed zip file exists is reconstructed, open
      and not archived, over its staging directory and that zip file, and
      registered; any other id throws and changes nothing.  Every slot and
      the top are kept.  Both the as-written probe `archiveRoot/<id>` and
      the corrected probe `archiveRoot/<id>.zip` are instances. */
  lemma GetLayerAtLaw(m: Manager, id: int, disk: set<JPath>, found: Fs, zipFile: JPath)
    requires Valid(m)
    ensures var (r, s) := GetLayerAt(m, id, disk, found, zipFile);
      && Valid(r) && r.top == m.top && r.pending == m.pending && r.slots[..|m.slots|] == m.slots
      && (id in m.layers ==> r == m && s == Ok(m.layers[id]))
      && (id !in m.layers && (StagingDirOf(m, id) in disk || zipFile in disk) ==>
            && s == Ok(|m.slots|) && r.layers == m.layers[id := |m.slots|]
            && r.slots[|m.slots|].layer.id == id && !r.slots[|m.slots|].layer.closed
            && !Layers.IsArchived(r.slots[|m.slots|].layer)
            && r.slots[|m.slots|].layer.stagingDir == StagingDirOf(m, id)
            && r.slots[|m.slots|].zipFile == zipFile)
      && (id !in m.layers && StagingDirOf(m, id) !in disk && zipFile !in disk ==>
            r == m && s == Err(IllegalArgument("No layer found with id " + LongToString(id))))
  {
  }

  /** The name `getLayer` checks never names a zip file `newTopLayer`
      writes: `Long.toString` has no '.', so `<id>` is never `<x>.zip`. */
  lemma BareNameIsNoZipFile(m: Manager, id: int, x: int)
    ensures Child(m.archiveRoot, LongToString(id)) != ZipFileOf(m, x)
  {
    var a := LongToString(id);
    var b := LongToString(x) + ".zip";
    assert Child(m.archiveRoot, a).names[|m.archiveRoot.names|] == a;
    assert ZipFileOf(m, x).names[|m.archiveRoot.names|] == b;
  }

  /** As written, a layer that is not registered and whose staging
      directory is gone is never found, even though its zip file is on
      disk: the check looks for `<id>` where the archive wrote `<id>.zip`. */
  lemma ArchivedLayerNotFound(m: Manager, id: int, disk: set<JPath>, found: Fs)
    requires Valid(m) && id !in m.layers && StagingDirOf(m, id) !in disk
    requires forall p :: p in disk ==> exists x :: p == ZipFileOf(m, x)
    ensures GetLayerAsWritten(m, id, disk, found) == (m, Err(IllegalArgument("No layer found with id " + LongToString(id))))
  {
    var bare := Child(m.archiveRoot, LongToString(id));
    if bare in disk {
      var x :| bare == ZipFileOf(m, x);
      BareNameIsNoZipFile(m, id, x);
    }
  }

  /** With the zip file's real name the same layer is found, over the zip
      file it was archived to. */
  lemma ArchivedLayerFound(m: Manager, id: int, disk: set<JPath>, found: Fs)
    requires Valid(m) && id !in m.layers && ZipFileOf(m, id) in disk
    ensures var (r, s) := GetLayer(m, id, disk, found);
      s == Ok(|m.slots|) && r.slots[|m.slots|].layer.id == id && r.slots[|m.slots|].zipFile == ZipFileOf(m, id)
  {
  }

  /** A concrete case: a manager restarted at time 3 is asked for layer 1,
      which an earlier manager archived to `archive/1.zip` before removing
      `staging/1`.  As written the call throws; looking for `1.zip` finds
      the layer. */
  lemma RestartCounterexample()
    ensures var m := Create(JPath(true, ["staging"]), JPath(true, ["archive"]), 3);
      var disk := {JPath(true, ["archive", "1.zip"])};
      && GetLayerAsWritten(m, 1, disk, map[]).1 == Err(IllegalArgument("No layer found with id " + "1"))
      && GetLayer(m, 1, disk, map[]).1.Ok?
  {
    var m := Create(JPath(true, ["staging"]), JPath(true, ["archive"]), 3);
    var disk := {JPath(true, ["archive", "1.zip"])};
    OneText();
    CreateLaw(JPath(true, ["staging"]), JPath(true, ["archive"]), 3);
    assert m.archiveRoot == JPath(true, ["archive"]) && m.stagingRoot == JPath(true, ["staging"]);
    assert LongToString(1) + ".zip" == "1.zip";
    assert ZipFileOf(m, 1) == JPath(true, ["archive", "1.zip"]);
    assert 1 !in m.layers;
    assert StagingDirOf(m, 1) !in disk by {
      assert StagingDirOf(m, 1).names[0] == "staging";
    }
    ArchivedLayerNotFound(m, 1, disk, map[]);
    ArchivedLayerFound(m, 1, disk, map[]);
  }

  /** A layer reconstructed by `getLayer` is open although it is not the
      top, so the invariant of construction and `newTopLayer` no longer
      holds after it. */
  lemma ReconstructedLayerIsOpen(m: Manager, id: int, disk: set<JPath>, found: Fs)
    requires Inv(m) && id !in m.layers && StagingDirOf(m, id) in disk
    ensures var r := GetLayer(m, id, disk, found).0;
      && id in r.layers && r.layers[id] != r.top.value && !r.slots[r.layers[id]].layer.closed
      && !Inv(r)
  {
  }
}

=== FILE: like.dfy ===
/** SQL `LIKE` as the index queries use it: `%` matches any run of
    characters, `_` any single character, every other character itself.
    No escape character is declared in the queries, so none is modelled. */
module Like {

  function Matches(s: string, pattern: string): bool
    decreases |s| + |pattern|
  {
    if |pattern| == 0 then |s| == 0
    else if pattern[0] == '%' then Matches(s, pattern[1..]) || (|s| > 0 && Matches(s[1..], pattern))
    else |s| > 0 && (pattern[0] == '_' || s[0] == pattern[0]) && Matches(s[1..], pattern[1..])
  }

  /** A pattern fragment without wildcards: matches only itself. */
  predicate Literal(p: string) {
    '%' !in p && '_' !in p
  }

  predicate HasPrefix(s: string, p: string) {
    |p| <= |s| && s[..|p|] == p
  }

  lemma {:induction false} PercentMatchesAll(s: string)
    ensures Matches(s, "%")
    decreases |s|
  {
    if |s| > 0 {
      PercentMatchesAll(s[1..]);
    }
  }

  /** A literal head must match the input's prefix character for character. */
  lemma {:induction false} LiteralHead(s: string, p: string, rest: string)
    requires Literal(p)
    ensures Matches(s, p + rest) <==> HasPrefix(s, p) && Matches(s[|p|..], rest)
    decreases |p|
  {
    if |p| > 0 {
      assert (p + rest)[0] == p[0];
      assert (p + rest)[1..] == p[1..] + rest;
      assert Literal(p[1..]) by {
        assert forall i :: 0 <= i < |p[1..]| ==> p[1..][i] == p[i + 1];
      }
      if |s| > 0 {
        LiteralHead(s[1..], p[1..], rest);
        if |p| <= |s| {
          assert s[1..][|p| - 1..] == s[|p|..];
        }
        if HasPrefix(s, p) {
          assert s[1..][..|p| - 1] == s[..|p|][1..];
        }
        if HasPrefix(s[1..], p[1..]) && s[0] == p[0] {
          assert s[..|p|] == [s[0]] + s[1..][..|p| - 1];
        }
      }
    } else {
      assert p + rest == rest;
    }
  }

  /** `%/%` matches exactly the strings containing a slash. */
  lemma {:induction false} SlashPattern(s: string)
    ensures Matches(s, "%/%") <==> '/' in s
    decreases |s|
  {
    assert "%/%"[1..] == "/%";
    assert "/%"[1..] == "%";
    if |s| > 0 {
      PercentMatchesAll(s[1..]);
      SlashPattern(s[1..]);
      assert '/' in s <==> s[0] == '/' || '/' in s[1..] by {
        if '/' in s {
          var i :| 0 <= i < |s| && s[i] == '/';
          if i > 0 { assert s[1..][i - 1] == '/'; }
        }
        if '/' in s[1..] {
          var i :| 0 <= i < |s[1..]| && s[1..][i] == '/';
          assert s[i + 1] == '/';
        }
      }
    }
  }

  /** The shape `p%`: the string has prefix `p`. */
  lemma PrefixPattern(s: string, p: string)
    requires Literal(p)
    ensures Matches(s, p + "%") <==> HasPrefix(s, p)
  {
    LiteralHead(s, p, "%");
    if HasPrefix(s, p) {
      PercentMatchesAll(s[|p|..]);
    }
  }

  /** The shape `p%/%`: the string has prefix `p` and a further slash after it. */
  lemma NestedPattern(s: string, p: string)
    requires Literal(p)
    ensures Matches(s, p + "%/%") <==> HasPrefix(s, p) && '/' in s[|p|..]
  {
    LiteralHead(s, p, "%/%");
    if HasPrefix(s, p) {
      SlashPattern(s[|p|..]);
    }
  }
}

=== FILE: listing_db.dfy ===
/** The `ocflext` layer index DAO (`LayerDatabaseImpl` over `ListingRecord`).
    Every operation takes the table and returns the new table or the
    exception it throws; a call that throws leaves the table as it was, as
    each call runs in its own transaction. */
module ListingDatabase {
  import opened Outcomes
  import opened JavaStrings
  import opened Like
  import opened Records
  import opened Queries

  // ---------------------------------------------------------------------
  // Directory arguments

  /** `preprocessDirectoryArgument`: null is rejected, a blank argument is
      passed through unchecked, any other argument must name an existing
      directory and gets a trailing '/'. */
  function PreprocessDirectoryArgument(rows: seq<Record>, dir: Option<string>): (r: Result<string>)
    ensures dir.None? ==> r == Err(IllegalArgument("directoryPath must not be null"))
    ensures dir.Some? && IsBlank(dir.value) ==> r == Ok(dir.value)
    ensures dir.Some? && !IsBlank(dir.value) && !HasPath(rows, dir.value) ==> r == Err(NoSuchFile(dir.value))
    ensures dir.Some? && !IsBlank(dir.value) && HasPath(rows, dir.value) && HasNonDirectory(rows, dir.value) ==>
      r == Err(NotDirectory(dir.value))
    ensures dir.Some? && !IsBlank(dir.value) && HasPath(rows, dir.value) && !HasNonDirectory(rows, dir.value) ==>
      r.Ok? && EndsWithSlash(r.value) && (r.value == dir.value || r.value == dir.value + "/")
      && (EndsWithSlash(dir.value) ==> r.value == dir.value)
  {
    if dir.None? then Err(IllegalArgument("directoryPath must not be null"))
    else
      var d := dir.value;
      if IsBlank(d) then Ok(d)
      else
        var recs := ByPath(rows, d);
        if |recs| == 0 then
          Err(NoSuchFile(d))
        else if exists x :: x in recs && x.kind != Directory then
          assert HasPath(rows, d) by { assert recs[0] in rows; }
          Err(NotDirectory(d))
        else
          assert HasPath(rows, d) by { assert recs[0] in rows; }
          Ok(if EndsWithSlash(d) then d else d + "/")
  }

  /** A preprocessed argument is wildcard-free when the argument is. */
  lemma PreprocessedLiteral(rows: seq<Record>, dir: string)
    requires Literal(dir) && PreprocessDirectoryArgument(rows, Some(dir)).Ok?
    ensures Literal(PreprocessDirectoryArgument(rows, Some(dir)).value)
  {
  }

  // ---------------------------------------------------------------------
  // Listings

  function ListDirectory(db: Db, dir: Option<string>): Result<seq<Record>> {
    var d :- PreprocessDirectoryArgument(db.rows, dir);
    Ok(ListDirectoryQuery(db.rows, d))
  }

  /** The listing the tests describe: per child path, its greatest-layer rows. */
  function ListDirectoryIntended(db: Db, dir: Option<string>): Result<seq<Record>> {
    var d :- PreprocessDirectoryArgument(db.rows, dir);
    Ok(Shadow(SelectPaths(db.rows, (p: string) => InDirectory(p, d))))
  }

  function ListRecursive(db: Db, dir: Option<string>): Result<seq<Record>> {
    var d :- PreprocessDirectoryArgument(db.rows, dir);
    Ok(ListRecursiveQuery(db.rows, d))
  }

  /** `listDirectory`: fails exactly when the argument is rejected; lists only
      direct children of the argument and every greatest-layer child row. */
  lemma ListDirectoryLaw(db: Db, dir: string)
    requires Literal(dir)
    ensures ListDirectory(db, Some(dir)).Err? <==> PreprocessDirectoryArgument(db.rows, Some(dir)).Err?
    ensures ListDirectory(db, Some(dir)).Ok? ==>
      var d := PreprocessDirectoryArgument(db.rows, Some(dir)).value;
      && (forall x :: x in ListDirectory(db, Some(dir)).value ==> x in db.rows && IsChild(x.path, d))
      && (forall x :: x in db.rows && IsChild(x.path, d) && IsNewest(db.rows, x) ==> x in ListDirectory(db, Some(dir)).value)
  {
    if PreprocessDirectoryArgument(db.rows, Some(dir)).Ok? {
      PreprocessedLiteral(db.rows, dir);
      ListDirectoryQueryLaw(db.rows, PreprocessDirectoryArgument(db.rows, Some(dir)).value);
    }
  }

  /** The intended listing holds exactly the greatest-layer rows of the
      direct children: a child present in several layers appears only in its
      greatest one. */
  lemma ListDirectoryIntendedLaw(db: Db, dir: string)
    requires Literal(dir)
    ensures ListDirectoryIntended(db, Some(dir)).Err? <==> PreprocessDirectoryArgument(db.rows, Some(dir)).Err?
    ensures ListDirectoryIntended(db, Some(dir)).Ok? ==>
      var d := PreprocessDirectoryArgument(db.rows, Some(dir)).value;
      forall x :: x in ListDirectoryIntended(db, Some(dir)).value <==> x in db.rows && IsChild(x.path, d) && IsNewest(db.rows, x)
  {
    if PreprocessDirectoryArgument(db.rows, Some(dir)).Ok? {
      PreprocessedLiteral(db.rows, dir);
      Queries.ListDirectoryIntendedLaw(db.rows, PreprocessDirectoryArgument(db.rows, Some(dir)).value);
    }
  }

  /** `listRecursive`: descendants at any depth, never the directory itself. */
  lemma ListRecursiveLaw(db: Db, dir: string)
    requires Literal(dir)
    ensures ListRecursive(db, Some(dir)).Err? <==> PreprocessDirectoryArgument(db.rows, Some(dir)).Err?
    ensures ListRecursive(db, Some(dir)).Ok? ==>
      var d := PreprocessDirectoryArgument(db.rows, Some(dir)).value;
      && (forall x :: x in ListRecursive(db, Some(dir)).value ==> x in db.rows && HasPrefix(x.path, d))
      && (forall x :: x in db.rows && HasPrefix(x.path, d) && IsNewest(db.rows, x) ==> x in ListRecursive(db, Some(dir)).value)
    ensures ListRecursive(db, Some(dir)).Ok? && !IsBlank(dir) && !EndsWithSlash(dir) ==>
      forall x :: x in ListRecursive(db, Some(dir)).value ==> x.path != dir
  {
    if PreprocessDirectoryArgument(db.rows, Some(dir)).Ok? {
      PreprocessedLiteral(db.rows, dir);
      ListRecursiveQueryLaw(db.rows, PreprocessDirectoryArgument(db.rows, Some(dir)).value);
    }
  }

  /** Without the special case of the other variant, listing the root
      (`""`) lists a greatest-layer root row as a child of itself. */
  lemma ListRootListsItself(db: Db, root: Record)
    requires root in db.rows && root.path == "" && IsNewest(db.rows, root)
    ensures ListDirectory(db, Some("")).Ok? && root in ListDirectory(db, Some("")).value
  {
    DirectoryQueryListsRootItself(db.rows, root);
  }

  // ---------------------------------------------------------------------
  // addDirectories

  /** One iteration of `addDirectories` at prefix `q`, once the occupation
      check has passed: a directory row is saved unless `layer` has one. */
  function AddOne(db: Db, layer: int, q: string): (r: Db)
    requires Valid(db)
    ensures Valid(r)
  {
    if HasLayerRow(db.rows, layer, q) then db else Save(db, Record(None, layer, q, Directory, None))
  }

  /** The loop of `addDirectories` over the walked prefixes `ps`. */
  function AddDirs(db: Db, layer: int, ps: seq<string>): (r: Result<Db>)
    requires Valid(db)
    ensures r.Ok? ==> Valid(r.value)
    decreases |ps|
  {
    if |ps| == 0 then Ok(db)
    else if HasNonDirectory(db.rows, ps[0]) then
      Err(IllegalArgument("Cannot add directory " + ps[0] + " because it is already occupied by a file."))
    else AddDirs(AddOne(db, layer, ps[0]), layer, ps[1..])
  }

  /** `addDirectories(layerId, path)`. */
  function AddDirectories(db: Db, layer: int, path: string): Result<Db>
    requires Valid(db)
  {
    AddDirs(db, layer, WalkPrefixes("", Split(path)))
  }

  /** One iteration adds at most the directory row for `q`, and keeps every
      old row where it was. */
  lemma AddOneLaw(db: Db, layer: int, q: string)
    requires Valid(db)
    ensures ExtendsWithDirectories(db, AddOne(db, layer, q), layer, [q])
    ensures forall p :: HasNonDirectory(AddOne(db, layer, q).rows, p) <==> HasNonDirectory(db.rows, p)
    ensures forall p :: HasLayerRow(db.rows, layer, p) ==> HasLayerRow(AddOne(db, layer, q).rows, layer, p)
  {
    if HasLayerRow(db.rows, layer, q) {
      assert db.rows[..|db.rows|] == db.rows;
    } else {
      ExtendsOne(db, layer, q);
      DirectoryKeepsNonDirectory(db.rows, Record(Some(db.nextId), layer, q, Directory, None));
    }
  }

  lemma {:induction false} AddDirsLaw(db: Db, layer: int, ps: seq<string>)
    requires Valid(db)
    ensures AddDirs(db, layer, ps).Err? <==> exists k :: 0 <= k < |ps| && HasNonDirectory(db.rows, ps[k])
    ensures AddDirs(db, layer, ps).Err? ==> AddDirs(db, layer, ps).error.IllegalArgument?
    ensures AddDirs(db, layer, ps).Ok? ==> ExtendsWithDirectories(db, AddDirs(db, layer, ps).value, layer, ps)
    decreases |ps|
  {
    if |ps| == 0 {
      assert db.rows[..|db.rows|] == db.rows;
    } else if !HasNonDirectory(db.rows, ps[0]) {
      var next := AddOne(db, layer, ps[0]);
      AddOneLaw(db, layer, ps[0]);
      AddDirsLaw(next, layer, ps[1..]);
      NonDirectoryInTail(db.rows, next.rows, ps);
      if AddDirs(db, layer, ps).Ok? {
        ExtendsCompose(db, next, AddDirs(db, layer, ps).value, layer, ps);
      }
    }
  }

  /** With the first prefix free of non-directories, an occupied prefix
      lies in the rest, judged before or after the step. */
  lemma NonDirectoryInTail(rows: seq<Record>, next: seq<Record>, ps: seq<string>)
    requires |ps| > 0 && !HasNonDirectory(rows, ps[0])
    requires forall p :: HasNonDirectory(next, p) <==> HasNonDirectory(rows, p)
    ensures (exists k :: 0 <= k < |ps| && HasNonDirectory(rows, ps[k])) <==>
            (exists k :: 0 <= k < |ps[1..]| && HasNonDirectory(next, ps[1..][k]))
  {
    if exists k :: 0 <= k < |ps| && HasNonDirectory(rows, ps[k]) {
      var k :| 0 <= k < |ps| && HasNonDirectory(rows, ps[k]);
      assert ps[1..][k - 1] == ps[k];
    }
    if exists k :: 0 <= k < |ps[1..]| && HasNonDirectory(next, ps[1..][k]) {
      var k :| 0 <= k < |ps[1..]| && HasNonDirectory(next, ps[1..][k]);
      assert ps[k + 1] == ps[1..][k];
    }
  }

  /** `addDirectories(layer, "a/b/c")` on a well-formed path: fails exactly
      when some prefix `a`, `a/b`, `a/b/c` holds a non-directory row in any
      layer; otherwise it keeps every old row in place and adds only
      content-less directory rows in `layer`, at most one per prefix and
      only at prefixes that lacked a row in `layer`, after which every
      prefix has a row in `layer`. */
  lemma AddDirectoriesLaw(db: Db, layer: int, path: string)
    requires Valid(db) && WellFormedPath(path)
    ensures AddDirectories(db, layer, path).Err? <==> exists q :: IsBoundaryPrefix(q, path) && HasNonDirectory(db.rows, q)
    ensures AddDirectories(db, layer, path).Err? ==>
      AddDirectories(db, layer, path).error.IllegalArgument?
    ensures AddDirectories(db, layer, path).Ok? ==>
      var after := AddDirectories(db, layer, path).value;
      && |db.rows| <= |after.rows| && after.rows[..|db.rows|] == db.rows
      && (forall i :: |db.rows| <= i < |after.rows| ==>
            after.rows[i] == Record(after.rows[i].generatedId, layer, after.rows[i].path, Directory, None)
            && IsBoundaryPrefix(after.rows[i].path, path) && !HasLayerRow(db.rows, layer, after.rows[i].path))
      && (forall i, j :: |db.rows| <= i < j < |after.rows| ==> after.rows[i].path != after.rows[j].path)
      && (forall q :: IsBoundaryPrefix(q, path) ==> HasLayerRow(after.rows, layer, q))
  {
    var ps := WalkPrefixes("", Split(path));
    AddDirsLaw(db, layer, ps);
    forall q ensures q in ps <==> IsBoundaryPrefix(q, path) {
      WalkVisitsBoundaryPrefixes(path, q);
    }
    if exists q :: IsBoundaryPrefix(q, path) && HasNonDirectory(db.rows, q) {
      var q :| IsBoundaryPrefix(q, path) && HasNonDirectory(db.rows, q);
      var k :| 0 <= k < |ps| && ps[k] == q;
    }
    var r := AddDirectories(db, layer, path);
    if r.Ok? {
      forall q | IsBoundaryPrefix(q, path) ensures HasLayerRow(r.value.rows, layer, q) {
        var k :| 0 <= k < |ps| && ps[k] == q;
      }
    }
  }

  /** A table in which every prefix already has a directory row in `layer`
      and no non-directory row is left unchanged. */
  lemma {:induction false} AddDirsNothingToDo(db: Db, layer: int, ps: seq<string>)
    requires Valid(db)
    requires forall k :: 0 <= k < |ps| ==> HasLayerRow(db.rows, layer, ps[k]) && !HasNonDirectory(db.rows, ps[k])
    ensures AddDirs(db, layer, ps) == Ok(db)
    decreases |ps|
  {
    if |ps| > 0 {
      AddDirsNothingToDo(db, layer, ps[1..]);
    }
  }

  /** Repeating `addDirectories` with the same layer and path changes nothing. */
  lemma AddDirectoriesIdempotent(db: Db, layer: int, path: string)
    requires Valid(db) && AddDirectories(db, layer, path).Ok?
    ensures AddDirectories(AddDirectories(db, layer, path).value, layer, path) == AddDirectories(db, layer, path)
  {
    var ps := WalkPrefixes("", Split(path));
    AddDirsLaw(db, layer, ps);
    var after := AddDirectories(db, layer, path).value;
    AddDirsNothingToDo(after, layer, ps);
  }

  /** Rows in other layers do not suppress creation: when `layer` holds
      nothing yet, every prefix gets a new row of its own. */
  lemma AddDirectoriesNewLayer(db: Db, layer: int, path: string, q: string)
    requires Valid(db) && WellFormedPath(path) && AddDirectories(db, layer, path).Ok?
    requires forall x :: x in db.rows ==> x.layerId != layer
    requires IsBoundaryPrefix(q, path)
    ensures exists i :: |db.rows| <= i < |AddDirectories(db, layer, path).value.rows| && AddDirectories(db, layer, path).value.rows[i].path == q
  {
    AddDirectoriesLaw(db, layer, path);
    var after := AddDirectories(db, layer, path).value;
    var i :| 0 <= i < |after.rows| && after.rows[i].path == q && after.rows[i].layerId == layer;
    if i < |db.rows| {
      assert false;
    }
  }

  // ---------------------------------------------------------------------
  // addFile, saveRecords, deleteRecords

  /** `addFile`: exactly one new content-less file row, without any check. */
  function AddFile(db: Db, layer: int, path: string): (r: Db)
    requires Valid(db)
    ensures Valid(r)
    ensures r.rows == db.rows + [Record(Some(db.nextId), layer, path, File, None)]
  {
    SaveAll(db, [Record(None, layer, path, File, None)])
  }

  /** Deleting the record `addFile` stored gives the table back as it was;
      only the identity generator has moved on. */
  lemma AddFileUndone(db: Db, layer: int, path: string)
    requires Valid(db)
    ensures var r := AddFile(db, layer, path);
      DeleteRecords(r, [r.rows[|db.rows|]]) == Ok(Db(db.rows, r.nextId))
  {
    var r := AddFile(db, layer, path);
    var x := r.rows[|db.rows|];
    assert x == Record(Some(db.nextId), layer, path, File, None);
    assert r.rows == db.rows + [x];
    assert !Touches([], x.generatedId) && [] + [x] == [x] && [x][1..] == [];
    assert r.rows[|db.rows|] == x && HasId(r.rows, db.nextId);
    RemoveLast(db.rows, x);
    assert DeleteRecords(r, [x]) == DeleteEach(Db(RemoveId(r.rows, x.generatedId), r.nextId), [x], false, []);
  }

  /** Removing the identity of a last row that no earlier row carries
      removes just that row. */
  lemma {:induction false} RemoveLast(rows: seq<Record>, x: Record)
    requires forall i :: 0 <= i < |rows| ==> rows[i].generatedId != x.generatedId
    ensures RemoveId(rows + [x], x.generatedId) == rows
    decreases |rows|
  {
    var s := rows + [x];
    if |rows| == 0 {
      assert s == [x] && s[1..] == [];
      assert RemoveId(s, x.generatedId) == [] + RemoveId(s[1..], x.generatedId);
    } else {
      assert s[0] == rows[0] && s[1..] == rows[1..] + [x];
      assert RemoveId(s, x.generatedId) == [rows[0]] + RemoveId(rows[1..] + [x], x.generatedId);
      RemoveLast(rows[1..], x);
      assert rows == [rows[0]] + rows[1..];
    }
  }

  /** Records that name the same identity are the same record. */
  predicate Consistent(recs: seq<Record>) {
    forall j, k :: 0 <= j < k < |recs| && recs[j].generatedId.Some? && recs[j].generatedId == recs[k].generatedId ==> recs[j] == recs[k]
  }

  /** Every record with an identity names a stored row. */
  predicate AllStored(rows: seq<Record>, recs: seq<Record>) {
    forall k :: 0 <= k < |recs| && recs[k].generatedId.Some? ==> HasId(rows, recs[k].generatedId.value)
  }

  /** `deleteRecords`: `Session.delete` of each record in turn, then the
      flush that runs the deletes.  A record without identity is transient
      and deletes nothing.  A record equal to one already handed over is
      that entity instance again, which the session holds as deleted, so
      the call does nothing; a different record with a handed-over identity
      clashes with that instance, and the call throws
      NonUniqueObjectException.  A record whose row is not stored is still
      scheduled, and the flush then fails with a StaleStateException. */
  function DeleteRecords(db: Db, recs: seq<Record>): Result<Db> {
    DeleteEach(db, [], false, recs)
  }

  /** The loop of `deleteRecords`: `done` are the records already handed to
      the session, and `stale` says whether one of them names no stored row. */
  function DeleteEach(db: Db, done: seq<Record>, stale: bool, recs: seq<Record>): Result<Db>
    decreases |recs|
  {
    if |recs| == 0 then (if stale then Err(StaleState) else Ok(db))
    else
      var r := recs[0];
      if r.generatedId.None? || r in done then DeleteEach(db, done + [r], stale, recs[1..])
      else if Touches(done, r.generatedId) then Err(NonUniqueObject)
      else if HasId(db.rows, r.generatedId.value) then
        DeleteEach(Db(RemoveId(db.rows, r.generatedId), db.nextId), done + [r], stale, recs[1..])
      else DeleteEach(db, done + [r], true, recs[1..])
  }

  lemma TouchesCons(recs: seq<Record>)
    requires |recs| > 0
    ensures forall id :: Touches(recs, id) <==> recs[0].generatedId == id || Touches(recs[1..], id)
  {
    forall id | Touches(recs, id) && recs[0].generatedId != id ensures Touches(recs[1..], id) {
      var k :| 0 <= k < |recs| && recs[k].generatedId == id;
      assert recs[1..][k - 1] == recs[k];
    }
    forall id | Touches(recs[1..], id) ensures Touches(recs, id) {
      var k :| 0 <= k < |recs[1..]| && recs[1..][k].generatedId == id;
      assert recs[k + 1] == recs[1..][k];
    }
  }

  /** No identity handed to the session names a stored row any more. */
  predicate HandledGone(rows: seq<Record>, done: seq<Record>) {
    forall k :: 0 <= k < |done| && done[k].generatedId.Some? ==> !HasId(rows, done[k].generatedId.value)
  }

  /** Each record with an identity names a row that is stored or was handed
      over already. */
  predicate StoredOrHandled(rows: seq<Record>, done: seq<Record>, recs: seq<Record>) {
    forall k :: 0 <= k < |recs| && recs[k].generatedId.Some? ==> HasId(rows, recs[k].generatedId.value) || Touches(done, recs[k].generatedId)
  }

  /** The loop fails at a call exactly when two records name one identity
      but differ, fails at the flush when otherwise some record names no
      stored row, and otherwise removes exactly the named rows. */
  lemma {:induction false} DeleteEachLaw(db: Db, done: seq<Record>, stale: bool, recs: seq<Record>)
    requires Valid(db) && HandledGone(db.rows, done) && Consistent(done)
    ensures var r := DeleteEach(db, done, stale, recs);
      && (r == Err(NonUniqueObject) <==> !Consistent(done + recs))
      && (r.Ok? <==> Consistent(done + recs) && !stale && StoredOrHandled(db.rows, done, recs))
      && (r.Err? ==> r.error == NonUniqueObject || r.error == StaleState)
      && (r.Ok? ==> Valid(r.value) && r.value.nextId == db.nextId
                    && forall x :: x in r.value.rows <==> x in db.rows && !Touches(recs, x.generatedId))
    decreases |recs|
  {
    if |recs| == 0 {
      assert done + recs == done;
    } else {
      var r := recs[0];
      var rest := recs[1..];
      var done' := done + [r];
      assert done' + rest == done + recs;
      TouchesCons(recs);
      if r.generatedId.None? || r in done {
        SkipKeeps(db.rows, done, r);
        DeleteEachLaw(db, done', stale, rest);
        StoredOrHandledSkip(db.rows, done, recs);
        SkipUntouched(db.rows, done, recs);
      } else if Touches(done, r.generatedId) {
        var m :| 0 <= m < |done| && done[m].generatedId == r.generatedId;
        assert (done + recs)[m] == done[m] && (done + recs)[|done|] == r;
      } else if HasId(db.rows, r.generatedId.value) {
        var db' := Db(RemoveId(db.rows, r.generatedId), db.nextId);
        RemoveIdValid(db, r.generatedId);
        NewKeeps(db.rows, db'.rows, done, r);
        DeleteEachLaw(db', done', stale, rest);
        StoredOrHandledRemoved(db.rows, db'.rows, done, recs);
      } else {
        NewKeeps(db.rows, db.rows, done, r);
        DeleteEachLaw(db, done', true, rest);
        assert !StoredOrHandled(db.rows, done, recs) by {
          assert recs[0] == r;
        }
      }
    }
  }

  /** Handing over a transient record, or one already handed over, keeps
      the loop's invariant. */
  lemma SkipKeeps(rows: seq<Record>, done: seq<Record>, r: Record)
    requires HandledGone(rows, done) && Consistent(done)
    requires r.generatedId.None? || r in done
    ensures HandledGone(rows, done + [r]) && Consistent(done + [r])
  {
    var d := done + [r];
    forall k | 0 <= k < |d| && d[k].generatedId.Some? ensures !HasId(rows, d[k].generatedId.value) {
      if k < |done| { assert d[k] == done[k]; } else { assert d[k] == r; }
    }
    forall j, k | 0 <= j < k < |d| && d[j].generatedId.Some? && d[j].generatedId == d[k].generatedId ensures d[j] == d[k] {
      assert d[j] == done[j];
      if k == |done| {
        var m :| 0 <= m < |done| && done[m] == r;
        if j < m { assert done[j] == done[m]; } else if m < j { assert done[m] == done[j]; }
      } else {
        assert d[k] == done[k];
      }
    }
  }

  /** Handing over a record with a new identity, whose row is then gone,
      keeps the loop's invariant. */
  lemma NewKeeps(rows: seq<Record>, rows': seq<Record>, done: seq<Record>, r: Record)
    requires HandledGone(rows, done) && Consistent(done)
    requires r.generatedId.Some? && !Touches(done, r.generatedId) && !HasId(rows', r.generatedId.value)
    requires forall v :: HasId(rows', v) ==> HasId(rows, v)
    ensures HandledGone(rows', done + [r]) && Consistent(done + [r])
  {
    var d := done + [r];
    forall k | 0 <= k < |d| && d[k].generatedId.Some? ensures !HasId(rows', d[k].generatedId.value) {
      if k < |done| { assert d[k] == done[k]; }
    }
    forall j, k | 0 <= j < k < |d| && d[j].generatedId.Some? && d[j].generatedId == d[k].generatedId ensures d[j] == d[k] {
      assert d[j] == done[j];
      if k < |done| {
        assert d[k] == done[k];
      }
    }
  }

  /** A skipped head record does not change whether the rest is stored or
      handed over. */
  lemma StoredOrHandledSkip(rows: seq<Record>, done: seq<Record>, recs: seq<Record>)
    requires |recs| > 0 && (recs[0].generatedId.None? || recs[0] in done)
    ensures StoredOrHandled(rows, done, recs) <==> StoredOrHandled(rows, done + [recs[0]], recs[1..])
  {
    var d := done + [recs[0]];
    forall id: Option<int> | id.Some? ensures Touches(d, id) <==> Touches(done, id) {
      if Touches(d, id) {
        var k :| 0 <= k < |d| && d[k].generatedId == id;
        if k == |done| {
          var m :| 0 <= m < |done| && done[m] == recs[0];
        } else {
          assert d[k] == done[k];
        }
      }
      if Touches(done, id) {
        var k :| 0 <= k < |done| && done[k].generatedId == id;
        assert d[k] == done[k];
      }
    }
    if StoredOrHandled(rows, d, recs[1..]) {
      forall k | 0 <= k < |recs| && recs[k].generatedId.Some?
        ensures HasId(rows, recs[k].generatedId.value) || Touches(done, recs[k].generatedId)
      {
        if k == 0 {
          var m :| 0 <= m < |done| && done[m] == recs[0];
        } else {
          assert recs[k] == recs[1..][k - 1];
        }
      }
    }
    if StoredOrHandled(rows, done, recs) {
      forall k | 0 <= k < |recs[1..]| && recs[1..][k].generatedId.Some?
        ensures HasId(rows, recs[1..][k].generatedId.value) || Touches(d, recs[1..][k].generatedId)
      {
        assert recs[1..][k] == recs[k + 1];
      }
    }
  }

  /** A skipped head record names no stored row, so it touches nothing. */
  lemma SkipUntouched(rows: seq<Record>, done: seq<Record>, recs: seq<Record>)
    requires |recs| > 0 && (recs[0].generatedId.None? || recs[0] in done)
    requires HandledGone(rows, done)
    ensures forall x :: x in rows && x.generatedId.Some? ==> x.generatedId != recs[0].generatedId
  {
    forall x | x in rows && x.generatedId.Some? ensures x.generatedId != recs[0].generatedId {
      if recs[0].generatedId.Some? {
        var m :| 0 <= m < |done| && done[m] == recs[0];
        var i :| 0 <= i < |rows| && rows[i] == x;
        assert !HasId(rows, done[m].generatedId.value);
      }
    }
  }

  /** Removing the head record's row and handing it over does not change
      whether the rest is stored or handed over. */
  lemma StoredOrHandledRemoved(rows: seq<Record>, rows': seq<Record>, done: seq<Record>, recs: seq<Record>)
    requires |recs| > 0 && recs[0].generatedId.Some? && HasId(rows, recs[0].generatedId.value)
    requires rows' == RemoveId(rows, recs[0].generatedId)
    ensures StoredOrHandled(rows, done, recs) <==> StoredOrHandled(rows', done + [recs[0]], recs[1..])
  {
    var d := done + [recs[0]];
    forall v | true ensures HasId(rows', v) <==> HasId(rows, v) && recs[0].generatedId != Some(v) {
      if HasId(rows', v) {
        var i :| 0 <= i < |rows'| && rows'[i].generatedId == Some(v);
        assert rows'[i] in rows';
        var j :| 0 <= j < |rows| && rows[j] == rows'[i];
      }
      if HasId(rows, v) && recs[0].generatedId != Some(v) {
        var i :| 0 <= i < |rows| && rows[i].generatedId == Some(v);
        assert rows[i] in rows';
        var j :| 0 <= j < |rows'| && rows'[j] == rows[i];
      }
    }
    forall id: Option<int> ensures Touches(d, id) <==> Touches(done, id) || id == recs[0].generatedId {
      if Touches(d, id) {
        var k :| 0 <= k < |d| && d[k].generatedId == id;
        if k < |done| { assert d[k] == done[k]; }
      }
      if Touches(done, id) {
        var k :| 0 <= k < |done| && done[k].generatedId == id;
        assert d[k] == done[k];
      }
      if id == recs[0].generatedId { assert d[|done|] == recs[0]; }
    }
    if StoredOrHandled(rows', d, recs[1..]) {
      forall k | 0 <= k < |recs| && recs[k].generatedId.Some?
        ensures HasId(rows, recs[k].generatedId.value) || Touches(done, recs[k].generatedId)
      {
        if k > 0 { assert recs[k] == recs[1..][k - 1]; }
      }
    }
    if StoredOrHandled(rows, done, recs) {
      forall k | 0 <= k < |recs[1..]| && recs[1..][k].generatedId.Some?
        ensures HasId(rows', recs[1..][k].generatedId.value) || Touches(d, recs[1..][k].generatedId)
      {
        assert recs[1..][k] == recs[k + 1];
      }
    }
  }

  /** `deleteRecords` throws NonUniqueObjectException exactly when two of
      its records name one identity but differ, and otherwise succeeds
      exactly when every named identity is stored; it then removes exactly
      the rows of the given records, keeps all others and leaves the
      identity generator alone.  Any other failure is the flush's
      StaleStateException. */
  lemma DeleteRecordsLaw(db: Db, recs: seq<Record>)
    requires Valid(db)
    ensures DeleteRecords(db, recs) == Err(NonUniqueObject) <==> !Consistent(recs)
    ensures DeleteRecords(db, recs).Ok? <==> Consistent(recs) && AllStored(db.rows, recs)
    ensures DeleteRecords(db, recs).Err? ==> DeleteRecords(db, recs).error == NonUniqueObject || DeleteRecords(db, recs).error == StaleState
    ensures DeleteRecords(db, recs).Ok? ==>
      && Valid(DeleteRecords(db, recs).value)
      && DeleteRecords(db, recs).value.nextId == db.nextId
      && forall x :: x in DeleteRecords(db, recs).value.rows <==> x in db.rows && !Touches(recs, x.generatedId)
  {
    DeleteEachLaw(db, [], false, recs);
    assert [] + recs == recs;
  }

  /** Deleting the same stored record twice in one call deletes its row
      once and succeeds; a different record with its identity fails. */
  lemma DeleteSameTwice(db: Db, r: Record, other: Record)
    requires Valid(db) && r in db.rows
    requires other.generatedId == r.generatedId && other != r
    ensures DeleteRecords(db, [r, r]) == DeleteRecords(db, [r])
    ensures DeleteRecords(db, [r, r]).Ok?
    ensures DeleteRecords(db, [r, other]) == Err(NonUniqueObject)
  {
    var i :| 0 <= i < |db.rows| && db.rows[i] == r;
    assert r.generatedId.Some? && HasId(db.rows, r.generatedId.value);
    assert !Touches([], r.generatedId);
    var db' := Db(RemoveId(db.rows, r.generatedId), db.nextId);
    assert [r, r][1..] == [r] && [r][1..] == [] && [r, other][1..] == [other];
    assert [] + [r] == [r] && r in [r] && other !in [r];
    assert Touches([r], other.generatedId) by { assert [r][0].generatedId == other.generatedId; }
    assert DeleteRecords(db, [r]) == DeleteEach(db', [r], false, []) == Ok(db');
    assert DeleteEach(db', [r], false, [r]) == DeleteEach(db', [r, r], false, []);
    assert DeleteRecords(db, [r, r]) == DeleteEach(db', [r], false, [r]);
    assert DeleteRecords(db, [r, other]) == DeleteEach(db', [r], false, [other]);
  }

  // ---------------------------------------------------------------------
  // readContentFromDatabase

  const TwoTo31: int := 0x8000_0000
  const TwoTo63: int := 0x8000_0000_0000_0000

  /** Java `long` subtraction wraps to 64 bits. */
  function WrapLong(x: int): (r: int)
    ensures -TwoTo63 <= r < TwoTo63
    ensures -TwoTo63 <= x < TwoTo63 ==> r == x
  {
    (x + TwoTo63) % (2 * TwoTo63) - TwoTo63
  }

  /** The `(int)` cast keeps the low 32 bits, read as two's complement. */
  function NarrowToInt(x: int): (r: int)
    ensures -TwoTo31 <= r < TwoTo31
    ensures -TwoTo31 <= x < TwoTo31 ==> r == x
    ensures (r - x) % (2 * TwoTo31) == 0
  {
    (x + TwoTo31) % (2 * TwoTo31) - TwoTo31
  }

  /** The comparator `(r1, r2) -> (int) (r1.getLayerId() - r2.getLayerId())`. */
  function NarrowedCompare(a: Record, b: Record): int {
    NarrowToInt(WrapLong(a.layerId - b.layerId))
  }

  /** `Long.compare` on the layer ids. */
  function LayerCompare(a: Record, b: Record): int {
    if a.layerId < b.layerId then -1 else if a.layerId == b.layerId then 0 else 1
  }

  /** `Stream.max(cmp)`: a left fold of `maxBy`, which keeps the accumulated
      element while `cmp(acc, next) >= 0`. */
  function FoldMax(acc: Record, rest: seq<Record>, cmp: (Record, Record) -> int): (m: Record)
    ensures m == acc || m in rest
    decreases |rest|
  {
    if |rest| == 0 then acc
    else FoldMax(if cmp(acc, rest[0]) >= 0 then acc else rest[0], rest[1..], cmp)
  }

  function MaxBy(rows: seq<Record>, cmp: (Record, Record) -> int): (m: Record)
    requires |rows| > 0
    ensures m in rows
  {
    FoldMax(rows[0], rows[1..], cmp)
  }

  /** `cmp` ranks every pair of `rows` as their layer ids do. */
  predicate OrdersByLayer(rows: seq<Record>, cmp: (Record, Record) -> int) {
    forall a, b :: a in rows && b in rows ==> (cmp(a, b) >= 0 <==> a.layerId >= b.layerId)
  }

  lemma {:induction false} FoldMaxGreatest(acc: Record, rest: seq<Record>, cmp: (Record, Record) -> int)
    requires OrdersByLayer([acc] + rest, cmp)
    ensures forall x :: x in [acc] + rest ==> x.layerId <= FoldMax(acc, rest, cmp).layerId
    decreases |rest|
  {
    if |rest| > 0 {
      var next := if cmp(acc, rest[0]) >= 0 then acc else rest[0];
      assert next in [acc] + rest;
      assert forall x :: x in [next] + rest[1..] ==> x in [acc] + rest;
      FoldMaxGreatest(next, rest[1..], cmp);
      assert next.layerId >= acc.layerId && next.layerId >= rest[0].layerId;
      forall x | x in [acc] + rest ensures x.layerId <= FoldMax(acc, rest, cmp).layerId {
        if x != acc && x != rest[0] {
          assert x in [next] + rest[1..];
        }
      }
    }
  }

  /** `readContentFromDatabase` with the comparator it is given. */
  function ReadContentWith(db: Db, path: string, cmp: (Record, Record) -> int): (r: Result<Option<Bytes>>)
    ensures r.Err? <==> !HasPath(db.rows, path) || exists x :: x in db.rows && x.path == path && x.kind != File
    ensures r.Err? ==> r.error.IllegalArgument?
    ensures r.Ok? ==> exists x :: x in db.rows && x.path == path && r.value == x.content
  {
    var recs := ByPath(db.rows, path);
    if |recs| == 0 then
      Err(IllegalArgument("File '" + path + "' does not exist."))
    else if exists x :: x in recs && x.kind != File then
      Err(IllegalArgument("'" + path + "' is not a file."))
    else
      assert HasPath(db.rows, path) by { assert recs[0] in db.rows; }
      Ok(MaxBy(recs, cmp).content)
  }

  /** `readContentFromDatabase` as written, with the narrowed comparator. */
  function ReadContentFromDatabase(db: Db, path: string): Result<Option<Bytes>> {
    ReadContentWith(db, path, NarrowedCompare)
  }

  /** The evidently intended version, comparing layer ids without narrowing. */
  function ReadContentIntended(db: Db, path: string): Result<Option<Bytes>> {
    ReadContentWith(db, path, LayerCompare)
  }

  /** With a comparator that ranks the rows of `path` by layer, the content
      read is that of a greatest-layer row of `path`. */
  lemma ReadContentNewest(db: Db, path: string, cmp: (Record, Record) -> int)
    requires OrdersByLayer(ByPath(db.rows, path), cmp)
    requires ReadContentWith(db, path, cmp).Ok?
    ensures exists x :: x in db.rows && x.path == path && IsNewest(db.rows, x) && ReadContentWith(db, path, cmp).value == x.content
  {
    var recs := ByPath(db.rows, path);
    assert recs == [recs[0]] + recs[1..];
    FoldMaxGreatest(recs[0], recs[1..], cmp);
    var m := MaxBy(recs, cmp);
    assert IsNewest(db.rows, m);
  }

  /** The intended read returns the content of a greatest-layer row. */
  lemma ReadContentIntendedNewest(db: Db, path: string)
    requires ReadContentIntended(db, path).Ok?
    ensures exists x :: x in db.rows && x.path == path && IsNewest(db.rows, x) && ReadContentIntended(db, path).value == x.content
  {
    ReadContentNewest(db, path, LayerCompare);
  }

  /** The narrowed comparator ranks correctly while layer ids lie less than
      2^31 apart (about 24.8 days of epoch milliseconds). */
  lemma ReadContentNewestWhenClose(db: Db, path: string)
    requires forall a, b :: a in db.rows && b in db.rows && a.path == path && b.path == path ==>
      -TwoTo31 <= a.layerId - b.layerId < TwoTo31
    requires ReadContentFromDatabase(db, path).Ok?
    ensures exists x :: x in db.rows && x.path == path && IsNewest(db.rows, x) && ReadContentFromDatabase(db, path).value == x.content
  {
    ReadContentNewest(db, path, NarrowedCompare);
  }

  /** Two versions of one file written 3221225472 ms (about 37 days) apart:
      the narrowed difference of the older minus the newer is positive, so the
      older content is read. */
  lemma NarrowedCompareCounterexample()
    ensures var older := Record(Some(1), 1_700_000_000_000, "f", File, Some([1]));
            var newer := Record(Some(2), 1_700_000_000_000 + 3_221_225_472, "f", File, Some([2]));
            var db := Db([older, newer], 3);
            && ReadContentFromDatabase(db, "f") == Ok(Some([1]))
            && ReadContentIntended(db, "f") == Ok(Some([2]))
  {
    var older := Record(Some(1), 1_700_000_000_000, "f", File, Some([1]));
    var newer := Record(Some(2), 1_700_000_000_000 + 3_221_225_472, "f", File, Some([2]));
    var db := Db([older, newer], 3);
    assert ByPath(db.rows, "f") == [older, newer];
    assert WrapLong(-3_221_225_472) == -3_221_225_472;
    assert NarrowToInt(-3_221_225_472) == 1_073_741_824;
    assert NarrowedCompare(older, newer) == 1_073_741_824;
  }
}

=== FILE: listings.dfy ===
/** Turning index rows into ocfl-java `Listing`s relative to a directory:
    `ListingRecord.toListing` (which refuses non-descendants) and
    `Util.fromItem` (which does not check). */
module Listings {
  import opened Outcomes
  import opened JavaPaths
  import opened Records
  import ItemDatabase

  /** ocfl-java's `Listing`: a type and a path string. */
  datatype Listing = Listing(kind: Kind, path: string)

  /** `child` lies at or below `base`: same rootedness, no dot names, and
      the base's names lead the child's. */
  predicate Descends(base: JPath, child: JPath) {
    && base.absolute == child.absolute
    && !HasDotNames(base.names) && !HasDotNames(child.names)
    && |base.names| <= |child.names| && child.names[..|base.names|] == base.names
  }

  /** `relativePath.startsWith("..")`. */
  predicate StartsWithDotDot(p: JPath) {
    StartsWith(p, JPath(false, [".."]))
  }

  /** `ListingRecord.toListing(relativeTo)`. */
  function ToListing(rec: Record, relativeTo: string): Result<Listing> {
    var rel :- Relativize(Parse(relativeTo), Parse(rec.path));
    if StartsWithDotDot(rel) then
      Err(IllegalArgument("The path " + Show(rel) + " is not a descendant of " + relativeTo))
    else Ok(Listing(rec.kind, Show(rel)))
  }

  /** `Util.fromItem(item, relativeToPath)`: the type carries over. */
  function FromItem(item: ItemDatabase.Item, relativeTo: string): Result<Listing> {
    var rel :- Relativize(Parse(relativeTo), Parse(item.path));
    Ok(Listing(item.kind, Show(rel)))
  }

  /** The names below the base, once they are shown and parsed again,
      resolve against the base to the child. */
  lemma BelowRoundTrip(base: JPath, child: JPath)
    requires Descends(base, child) && ProperNames(child.names)
    ensures var below := JPath(false, child.names[|base.names|..]);
      && Parse(Show(below)) == below
      && Resolve(base, Parse(Show(below))) == child
      && !StartsWithDotDot(below)
  {
    var below := JPath(false, child.names[|base.names|..]);
    ProperNamesDrop(child.names, |base.names|);
    ParseShow(below);
    TakeDrop(child.names, |base.names|);
  }

  lemma ProperNamesDrop(names: seq<string>, n: nat)
    requires ProperNames(names) && n <= |names|
    ensures ProperNames(names[n..])
  {
    forall i | 0 <= i < |names[n..]| ensures names[n..][i] != "" && '/' !in names[n..][i] {
      assert names[n..][i] == names[n + i];
    }
  }

  lemma TakeDrop(names: seq<string>, n: nat)
    requires n <= |names|
    ensures names[..n] + names[n..] == names
  {
  }

  /** A row at or below the directory becomes a listing of the same type
      whose path is the names below the directory; resolving that path
      against the directory gives the row's path back. */
  lemma ToListingDescendant(rec: Record, relativeTo: string)
    requires Descends(Parse(relativeTo), Parse(rec.path))
    ensures ToListing(rec, relativeTo).Ok?
    ensures var l := ToListing(rec, relativeTo).value;
      && l.kind == rec.kind
      && Parse(l.path).names == Parse(rec.path).names[|Parse(relativeTo).names|..]
      && Resolve(Parse(relativeTo), Parse(l.path)) == Parse(rec.path)
  {
    var base := Parse(relativeTo);
    var child := Parse(rec.path);
    ParseProper(rec.path);
    RelativizeDescendant(base, child);
    BelowRoundTrip(base, child);
  }

  /** A row outside a non-empty directory is refused. */
  lemma ToListingOutside(rec: Record, relativeTo: string)
    requires var base := Parse(relativeTo); var child := Parse(rec.path);
      && base.absolute == child.absolute && |base.names| > 0
      && !HasDotNames(base.names) && !HasDotNames(child.names)
      && !Descends(base, child)
    ensures ToListing(rec, relativeTo).Err? && ToListing(rec, relativeTo).error.IllegalArgument?
  {
    var base := Parse(relativeTo);
    var child := Parse(rec.path);
    RelativizeOutside(base, child);
    var rel := Relativize(base, child).value;
    assert StartsWithDotDot(rel) by { assert rel.names[..1] == [".."]; }
  }

  /** `fromItem` agrees with `toListing` on descendants. */
  lemma FromItemDescendant(item: ItemDatabase.Item, relativeTo: string)
    requires Descends(Parse(relativeTo), Parse(item.path))
    ensures FromItem(item, relativeTo).Ok?
    ensures var l := FromItem(item, relativeTo).value;
      && l.kind == item.kind
      && Parse(l.path).names == Parse(item.path).names[|Parse(relativeTo).names|..]
      && Resolve(Parse(relativeTo), Parse(l.path)) == Parse(item.path)
  {
    var base := Parse(relativeTo);
    var child := Parse(item.path);
    ParseProper(item.path);
    RelativizeDescendant(base, child);
    BelowRoundTrip(base, child);
  }

  /** On descendants `fromItem` and `toListing` give the same listing. */
  lemma FromItemAgrees(item: ItemDatabase.Item, relativeTo: string)
    requires Descends(Parse(relativeTo), Parse(item.path))
    ensures ToListing(Record(None, 0, item.path, item.kind, None), relativeTo).Ok?
    ensures FromItem(item, relativeTo) == ToListing(Record(None, 0, item.path, item.kind, None), relativeTo)
  {
    var rec := Record(None, 0, item.path, item.kind, None);
    RelativizeDescendant(Parse(relativeTo), Parse(item.path));
    ToListingDescendant(rec, relativeTo);
  }

  /** `fromItem` has no descendant check: an item outside a non-empty
      directory still converts, to a path that climbs out with `..`, where
      `toListing` refuses the same path. */
  lemma FromItemOutside(item: ItemDatabase.Item, relativeTo: string)
    requires var base := Parse(relativeTo); var child := Parse(item.path);
      && base.absolute == child.absolute && |base.names| > 0
      && !HasDotNames(base.names) && !HasDotNames(child.names)
      && !Descends(base, child)
    ensures FromItem(item, relativeTo).Ok?
    ensures var l := FromItem(item, relativeTo).value;
      l.kind == item.kind && |l.path| >= 2 && l.path[..2] == ".."
    ensures ToListing(Record(None, 0, item.path, item.kind, None), relativeTo).Err?
  {
    var base := Parse(relativeTo);
    var child := Parse(item.path);
    RelativizeOutside(base, child);
    var rel := Relativize(base, child).value;
    assert StartsWithDotDot(rel) by { assert rel.names[..1] == [".."]; }
    JavaStrings.JoinStartsWithFirst(rel.names);
    assert Show(rel) == JavaStrings.Join(rel.names);
  }

  /** Mixed rootedness is refused by both conversions. */
  lemma MixedRootedness(item: ItemDatabase.Item, relativeTo: string)
    requires Parse(relativeTo).absolute != Parse(item.path).absolute
    ensures FromItem(item, relativeTo).Err?
    ensures ToListing(Record(None, 0, item.path, item.kind, None), relativeTo).Err?
  {
  }

  /** The child `d/a` of the directory `d/` lists as `a` through both
      conversions. */
  lemma ChildExample()
    ensures FromItem(ItemDatabase.Item("d/a", File), "d/") == Ok(Listing(File, "a"))
    ensures ToListing(Record(None, 1, "d/a", File, None), "d/") == Ok(Listing(File, "a"))
  {
    ChildFromItem();
    ChildToListing();
  }

  lemma ChildFromItem()
    ensures FromItem(ItemDatabase.Item("d/a", File), "d/") == Ok(Listing(File, "a"))
  {
    ParsedExamples();
    ChildRelativized();
  }

  lemma ChildToListing()
    ensures ToListing(Record(None, 1, "d/a", File, None), "d/") == Ok(Listing(File, "a"))
  {
    ParsedExamples();
    ChildRelativized();
  }

  lemma ChildRelativized()
    ensures Relativize(JPath(false, ["d"]), JPath(false, ["d", "a"])) == Ok(JPath(false, ["a"]))
    ensures Show(JPath(false, ["a"])) == "a"
  {
    var base := JPath(false, ["d"]);
    var child := JPath(false, ["d", "a"]);
    RelativizeDescendant(base, child);
    assert child.names[1..] == ["a"];
  }

  /** The sibling `e` of the directory `d/` lists as `../e` through
      `fromItem` and is refused by `toListing`. */
  lemma SiblingExample()
    ensures FromItem(ItemDatabase.Item("e", File), "d/") == Ok(Listing(File, "../e"))
    ensures ToListing(Record(None, 1, "e", File, None), "d/") == Err(IllegalArgument("The path " + "../e" + " is not a descendant of " + "d/"))
  {
    SiblingFromItem();
    SiblingToListing();
  }

  lemma SiblingFromItem()
    ensures FromItem(ItemDatabase.Item("e", File), "d/") == Ok(Listing(File, "../e"))
  {
    ParsedExamples();
    SiblingRelativized();
    SiblingShown();
  }

  lemma SiblingToListing()
    ensures ToListing(Record(None, 1, "e", File, None), "d/") == Err(IllegalArgument("The path " + "../e" + " is not a descendant of " + "d/"))
  {
    var rec := Record(None, 1, "e", File, None);
    var rel := JPath(false, ["..", "e"]);
    assert Relativize(Parse("d/"), Parse(rec.path)) == Ok(rel) by {
      ParsedExamples();
      SiblingRelativized();
    }
    SiblingShown();
    assert ToListing(rec, "d/") == Err(IllegalArgument("The path " + "../e" + " is not a descendant of " + "d/"));
  }

  lemma SiblingRelativized()
    ensures Relativize(JPath(false, ["d"]), JPath(false, ["e"])) == Ok(JPath(false, ["..", "e"]))
  {
    var base := JPath(false, ["d"]);
    var child := JPath(false, ["e"]);
    assert !HasDotNames(base.names) && !HasDotNames(child.names);
    assert CommonPrefixLength(base.names, child.names) == 0;
    assert Dots(1) == [".."];
    assert base.names[0..] == ["d"] && child.names[0..] == ["e"];
    assert !HasDotNames(base.names[0..]);
    assert Dots(1) + child.names[0..] == ["..", "e"];
  }

  lemma SiblingShown()
    ensures Show(JPath(false, ["..", "e"])) == "../e"
    ensures StartsWithDotDot(JPath(false, ["..", "e"]))
  {
    assert JavaStrings.Join(["..", "e"]) == "../e" by {
      assert ["..", "e"][1..] == ["e"];
    }
  }

  lemma ParsedExamples()
    ensures Parse("d/") == JPath(false, ["d"])
    ensures Parse("d/a") == JPath(false, ["d", "a"])
    ensures Parse("e") == JPath(false, ["e"])
  {
    assert "d" + "/" + "" == "d/" && "d" + "/" + "a" == "d/a";
    JavaStrings.RawSplitHead("d", "");
    JavaStrings.RawSplitHead("d", "a");
    JavaStrings.RawSplitWithoutSlash("a");
    JavaStrings.RawSplitWithoutSlash("e");
    assert JavaStrings.RawSplit("d/") == ["d", ""];
    assert JavaStrings.RawSplit("d/a") == ["d", "a"];
    assert ["d", ""][1..] == [""] && [""][1..] == [];
    assert ["d", "a"][1..] == ["a"] && ["a"][1..] == [];
    assert ["e"][1..] == [];
  }
}

=== FILE: outcomes.dfy ===
/** Failure-carrying datatypes shared by the whole model.

    Java's `null` becomes `Option.None`; a thrown exception becomes
    `Result.Err` carrying one of the `Exception` cases below.  The exception
    cases are the ones the modelled code throws, with their messages where
    the message is part of the observable behaviour. */
module Outcomes {

  /** File content and inlined index content, as raw bytes. */
  type Bytes = seq<bv8>

  datatype Option<+T> = None | Some(value: T)

  /** The Java exceptions the modelled code raises (directly or through the
      JDK calls it makes). */
  datatype Exception =
    | IllegalArgument(message: string)
    | IllegalState(message: string)
    | NoSuchFile(path: string)
    | NotDirectory(path: string)
    | FileAlreadyExists(path: string)
    | DirectoryNotEmpty(path: string)
    | NullPointer
    | StaleState
    | NonUniqueObject
    | IOFailure(message: string)
    | Runtime(message: string)

  datatype Result<+T> = Ok(value: T) | Err(error: Exception) {
    predicate IsFailure() { Err? }

    function PropagateFailure<U>(): Result<U>
      requires Err?
    {
      Err(error)
    }

    function Extract(): T
      requires Ok?
    {
      value
    }
  }
}

=== FILE: queries.dfy ===
/** The named queries over the `listing_record` table.  Both index variants
    declare them with the same text, so they are defined once here and the
    two DAO models call them.  Every query that lists several paths applies
    the `layerId IN (SELECT MAX(l2.layerId) ... GROUP BY l2.path)` filter
    over its own selection, which is `Records.LiteralFilter`. */
module Queries {
  import opened Outcomes
  import opened Records
  import opened Like

  /** `getByPath` / `getRecordsByPath`: `WHERE l.path = :path`. */
  function ByPath(rows: seq<Record>, path: string): (r: seq<Record>)
    ensures forall x :: x in r <==> x in rows && x.path == path
  {
    Filter(rows, (x: Record) => x.path == path)
  }

  /** The rows whose path satisfies `keep`, in table order. */
  function SelectPaths(rows: seq<Record>, keep: string -> bool): (r: seq<Record>)
    ensures forall x :: x in r <==> x in rows && keep(x.path)
  {
    Filter(rows, (x: Record) => keep(x.path))
  }

  /** `l.path LIKE :dir% AND l.path NOT LIKE :dir%/%`. */
  predicate InDirectory(path: string, dir: string) {
    Matches(path, dir + "%") && !Matches(path, dir + "%/%")
  }

  /** `l.path != '' AND l.path NOT LIKE '%/%'`. */
  predicate InRoot(path: string) {
    path != "" && !Matches(path, "%/%")
  }

  /** A direct child of the directory prefix `dir` (which ends in '/' or is empty). */
  predicate IsChild(path: string, dir: string) {
    HasPrefix(path, dir) && '/' !in path[|dir|..]
  }

  function ListDirectoryQuery(rows: seq<Record>, dir: string): seq<Record> {
    LiteralFilter(SelectPaths(rows, (p: string) => InDirectory(p, dir)))
  }

  function ListRecursiveQuery(rows: seq<Record>, dir: string): seq<Record> {
    LiteralFilter(SelectPaths(rows, (p: string) => Matches(p, dir + "%")))
  }

  function ListRootDirectoryQuery(rows: seq<Record>): seq<Record> {
    LiteralFilter(SelectPaths(rows, InRoot))
  }

  /** `SELECT DISTINCT l.layerId`, in first-occurrence order from the end. */
  function DistinctLayerIds(rows: seq<Record>): (r: seq<int>)
    ensures forall k :: k in r <==> exists x :: x in rows && x.layerId == k
    ensures forall i, j :: 0 <= i < j < |r| ==> r[i] != r[j]
  {
    if |rows| == 0 then []
    else
      var rest := DistinctLayerIds(rows[1..]);
      assert forall x :: x in rows <==> x == rows[0] || x in rows[1..];
      if rows[0].layerId in rest then rest else [rows[0].layerId] + rest
  }

  function FindLayersContaining(rows: seq<Record>, path: string): seq<int> {
    DistinctLayerIds(ByPath(rows, path))
  }

  /** `SELECT l.content IS NOT NULL ... WHERE l.path = :path AND l.layerId IN
      (per-path maxima)`, then `anyMatch` over the booleans. */
  predicate IsContentStoredInDatabase(rows: seq<Record>, path: string) {
    exists x :: x in LiteralFilter(ByPath(rows, path)) && x.content.Some?
  }

  /** `SELECT COUNT(l) > 0 ... WHERE l.path LIKE :pathPattern`. */
  predicate HasPathLike(rows: seq<Record>, pattern: string) {
    exists i :: 0 <= i < |rows| && Matches(rows[i].path, pattern)
  }

  /** `SELECT MAX(l.layerId)`: `None` (SQL NULL) over an empty table. */
  function TopLayerId(rows: seq<Record>): (r: Option<int>)
    ensures r.None? <==> |rows| == 0
    ensures r.Some? ==> (exists x :: x in rows && x.layerId == r.value) && forall x :: x in rows ==> x.layerId <= r.value
  {
    if |rows| == 0 then None
    else
      var rest := TopLayerId(rows[1..]);
      assert forall x :: x in rows <==> x == rows[0] || x in rows[1..];
      if rest.None? || rows[0].layerId >= rest.value then Some(rows[0].layerId) else rest
  }

  // ---------------------------------------------------------------------
  // What the queries select

  /** With a wildcard-free prefix the two `LIKE` conditions select the direct children. */
  lemma InDirectoryIsChild(path: string, dir: string)
    requires Literal(dir)
    ensures InDirectory(path, dir) <==> IsChild(path, dir)
  {
    PrefixPattern(path, dir);
    NestedPattern(path, dir);
  }

  /** The root condition selects the non-empty paths without '/'. */
  lemma InRootIsTopLevel(path: string)
    ensures InRoot(path) <==> path != "" && '/' !in path
  {
    SlashPattern(path);
  }

  /** Within a selection made on paths alone, a row is newest exactly when it
      is newest in the whole table: all rows of its path were selected. */
  lemma NewestInSelection(rows: seq<Record>, keep: string -> bool, x: Record)
    requires x in rows && keep(x.path)
    ensures IsNewest(SelectPaths(rows, keep), x) <==> IsNewest(rows, x)
  {
  }

  /** `findLayersContaining(p)`: the distinct layers holding `p`, empty when none does. */
  lemma FindLayersContainingLaw(rows: seq<Record>, path: string)
    ensures forall k :: k in FindLayersContaining(rows, path) <==> exists x :: x in rows && x.path == path && x.layerId == k
    ensures forall i, j :: 0 <= i < j < |FindLayersContaining(rows, path)| ==>
      FindLayersContaining(rows, path)[i] != FindLayersContaining(rows, path)[j]
    ensures FindLayersContaining(rows, path) == [] <==> forall x :: x in rows ==> x.path != path
  {
    var r := FindLayersContaining(rows, path);
    if r != [] {
      assert r[0] in r;
    }
    if exists x :: x in rows && x.path == path {
      var x :| x in rows && x.path == path;
      assert x.layerId in r;
    }
  }

  /** `isContentStoredInDatabase(p)`: over a single path the literal filter is
      the intended one, so the answer is whether a greatest-layer row of `p`
      has content. */
  lemma ContentStoredLaw(rows: seq<Record>, path: string)
    ensures IsContentStoredInDatabase(rows, path) <==>
      exists x :: x in rows && x.path == path && IsNewest(rows, x) && x.content.Some?
  {
    LiteralAgreesOnOnePath(ByPath(rows, path), path);
    ShadowOfPath(rows, path);
  }

  /** The greatest-layer rows among those of one path are the rows of that
      path that are greatest in the whole table. */
  lemma ShadowOfPath(rows: seq<Record>, path: string)
    ensures forall x :: x in Shadow(ByPath(rows, path)) <==> x in rows && x.path == path && IsNewest(rows, x)
  {
    var sel := ByPath(rows, path);
    forall x ensures x in Shadow(sel) <==> x in rows && x.path == path && IsNewest(rows, x) {
      if x in sel {
        assert IsNewest(sel, x) <==> IsNewest(rows, x);
      }
    }
  }

  /** `hasPathLike(p%)`: some stored path has the literal prefix `p`. */
  lemma HasPathLikePrefix(rows: seq<Record>, p: string)
    requires Literal(p)
    ensures HasPathLike(rows, p + "%") <==> exists i :: 0 <= i < |rows| && HasPrefix(rows[i].path, p)
  {
    forall i | 0 <= i < |rows| ensures Matches(rows[i].path, p + "%") <==> HasPrefix(rows[i].path, p) {
      PrefixPattern(rows[i].path, p);
    }
  }

  /** `listDirectory(dir)` as the query states it: only direct children of
      `dir` are returned, and every child row that is the greatest of its path
      is among them. */
  lemma ListDirectoryQueryLaw(rows: seq<Record>, dir: string)
    requires Literal(dir)
    ensures forall x :: x in ListDirectoryQuery(rows, dir) ==> x in rows && IsChild(x.path, dir)
    ensures forall x :: x in rows && IsChild(x.path, dir) && IsNewest(rows, x) ==> x in ListDirectoryQuery(rows, dir)
  {
    var keep := (p: string) => InDirectory(p, dir);
    var sel := SelectPaths(rows, keep);
    forall x | x in sel || x in rows ensures InDirectory(x.path, dir) <==> IsChild(x.path, dir) {
      InDirectoryIsChild(x.path, dir);
    }
    forall x | x in rows && IsChild(x.path, dir) && IsNewest(rows, x) ensures x in ListDirectoryQuery(rows, dir) {
      NewestInSelection(rows, keep, x);
      ShadowWithinLiteral(sel);
    }
  }

  /** The intended listing: exactly the direct children that carry the
      greatest layer of their path. */
  lemma ListDirectoryIntendedLaw(rows: seq<Record>, dir: string)
    requires Literal(dir)
    ensures forall x :: x in Shadow(SelectPaths(rows, (p: string) => InDirectory(p, dir))) <==>
      x in rows && IsChild(x.path, dir) && IsNewest(rows, x)
  {
    var keep := (p: string) => InDirectory(p, dir);
    var sel := SelectPaths(rows, keep);
    ShadowLaw(sel);
    forall x | x in rows ensures InDirectory(x.path, dir) <==> IsChild(x.path, dir) {
      InDirectoryIsChild(x.path, dir);
    }
    forall x | x in sel ensures IsNewest(sel, x) <==> IsNewest(rows, x) {
      NewestInSelection(rows, keep, x);
    }
  }

  /** `listRecursive(dir)`: only descendants of `dir` (at any depth), and
      every greatest-layer descendant row. */
  lemma ListRecursiveQueryLaw(rows: seq<Record>, dir: string)
    requires Literal(dir)
    ensures forall x :: x in ListRecursiveQuery(rows, dir) ==> x in rows && HasPrefix(x.path, dir)
    ensures forall x :: x in rows && HasPrefix(x.path, dir) && IsNewest(rows, x) ==> x in ListRecursiveQuery(rows, dir)
  {
    var keep := (p: string) => Matches(p, dir + "%");
    var sel := SelectPaths(rows, keep);
    forall x | x in rows ensures Matches(x.path, dir + "%") <==> HasPrefix(x.path, dir) {
      PrefixPattern(x.path, dir);
    }
    forall x | x in rows && HasPrefix(x.path, dir) && IsNewest(rows, x) ensures x in ListRecursiveQuery(rows, dir) {
      NewestInSelection(rows, keep, x);
      ShadowWithinLiteral(sel);
    }
  }

  /** The root listing never contains the root row `""` nor any nested path. */
  lemma ListRootDirectoryLaw(rows: seq<Record>)
    ensures forall x :: x in ListRootDirectoryQuery(rows) ==> x in rows && x.path != "" && '/' !in x.path
    ensures forall x :: x in rows && x.path != "" && '/' !in x.path && IsNewest(rows, x) ==> x in ListRootDirectoryQuery(rows)
  {
    var sel := SelectPaths(rows, InRoot);
    forall x | x in rows ensures InRoot(x.path) <==> x.path != "" && '/' !in x.path {
      InRootIsTopLevel(x.path);
    }
    forall x | x in rows && x.path != "" && '/' !in x.path && IsNewest(rows, x) ensures x in ListRootDirectoryQuery(rows) {
      NewestInSelection(rows, InRoot, x);
      ShadowWithinLiteral(sel);
    }
  }

  /** With the directory query used on the root (`dir = ""`), a greatest-layer
      root row `""` is listed as a child of itself. */
  lemma DirectoryQueryListsRootItself(rows: seq<Record>, root: Record)
    requires root in rows && root.path == "" && IsNewest(rows, root)
    ensures root in ListDirectoryQuery(rows, "")
  {
    assert IsChild("", "");
    ListDirectoryQueryLaw(rows, "");
  }

  /** `a@1, a@2, b@1` at the root: the literal root query returns both rows of
      `a`, where the per-path rule keeps only `a@2`. */
  lemma RootListingCounterexample()
    ensures var a1 := Record(Some(1), 1, "a", File, None);
            var a2 := Record(Some(2), 2, "a", File, None);
            var b1 := Record(Some(3), 1, "b", File, None);
            var rows := [a1, a2, b1];
            a1 in ListRootDirectoryQuery(rows) && a2 in ListRootDirectoryQuery(rows) && !IsNewest(rows, a1)
  {
    var a1 := Record(Some(1), 1, "a", File, None);
    var a2 := Record(Some(2), 2, "a", File, None);
    var b1 := Record(Some(3), 1, "b", File, None);
    var rows := [a1, a2, b1];
    var sel := SelectPaths(rows, InRoot);
    InRootIsTopLevel("a");
    InRootIsTopLevel("b");
    assert a1 in sel && a2 in sel && b1 in sel;
    assert IsNewest(sel, b1);
    assert IsNewest(sel, a2);
    assert IsPathMaximum(sel, 1);
    assert IsPathMaximum(sel, 2);
    assert !IsNewest(rows, a1) by { assert a2 in rows; }
  }
}

=== FILE: records.dfy ===
/** The `listing_record` table shared by both index variants
    (`ListingRecord` in one package, `ItemRecord` in the other map the same
    entity name and columns), the upsert both DAOs implement, and the two
    readings of the per-path "greatest layer wins" rule.

    The table is a sequence of rows in table order; a query result is the
    order-preserving selection of the rows it matches. */
module Records {
  import opened Outcomes

  datatype Kind = File | Directory

  /** One row: `generatedId` is null until the row is persisted. */
  datatype Record = Record(generatedId: Option<int>, layerId: int, path: string, kind: Kind, content: Option<Bytes>)

  /** The table plus the identity generator's next value. */
  datatype Db = Db(rows: seq<Record>, nextId: int)

  /** Every stored row has an identity below the generator and identities are unique. */
  predicate Valid(db: Db) {
    && (forall i :: 0 <= i < |db.rows| ==> db.rows[i].generatedId.Some? && db.rows[i].generatedId.value < db.nextId)
    && (forall i, j :: 0 <= i < j < |db.rows| ==> db.rows[i].generatedId != db.rows[j].generatedId)
  }

  /** Order-preserving selection. */
  function Filter<T(!new)>(s: seq<T>, keep: T -> bool): (r: seq<T>)
    ensures |r| <= |s|
    ensures forall x :: x in r <==> x in s && keep(x)
  {
    if |s| == 0 then []
    else if keep(s[0]) then [s[0]] + Filter(s[1..], keep)
    else Filter(s[1..], keep)
  }

  lemma {:induction false} FilterCongruence<T(!new)>(s: seq<T>, f: T -> bool, g: T -> bool)
    requires forall x :: x in s ==> f(x) == g(x)
    ensures Filter(s, f) == Filter(s, g)
  {
    if |s| > 0 {
      FilterCongruence(s[1..], f, g);
    }
  }

  predicate HasId(rows: seq<Record>, id: int) {
    exists i :: 0 <= i < |rows| && rows[i].generatedId == Some(id)
  }

  /** Persists a new row: the generator assigns its identity. */
  function Insert(db: Db, rec: Record): (r: Db)
    requires Valid(db)
    ensures Valid(r)
    ensures r.rows == db.rows + [rec.(generatedId := Some(db.nextId))]
    ensures r.nextId > db.nextId
  {
    Db(db.rows + [rec.(generatedId := Some(db.nextId))], db.nextId + 1)
  }

  function ReplaceById(rows: seq<Record>, rec: Record): (r: seq<Record>)
    requires rec.generatedId.Some?
    ensures |r| == |rows|
    ensures forall i :: 0 <= i < |rows| ==> r[i] == if rows[i].generatedId == rec.generatedId then rec else rows[i]
  {
    if |rows| == 0 then []
    else [if rows[0].generatedId == rec.generatedId then rec else rows[0]] + ReplaceById(rows[1..], rec)
  }

  /** `save`: a row without identity, or whose identity is not stored, is
      inserted under a fresh identity; a row whose identity is stored
      replaces the stored row (merge). */
  function Save(db: Db, rec: Record): (r: Db)
    requires Valid(db)
    ensures Valid(r)
    ensures rec.generatedId.None? || !HasId(db.rows, rec.generatedId.value) ==>
      r.rows == db.rows + [rec.(generatedId := Some(db.nextId))]
    ensures rec.generatedId.Some? && HasId(db.rows, rec.generatedId.value) ==>
      && r.nextId == db.nextId && |r.rows| == |db.rows|
      && rec in r.rows
      && (forall i :: 0 <= i < |db.rows| && db.rows[i].generatedId != rec.generatedId ==> r.rows[i] == db.rows[i])
  {
    if rec.generatedId.None? || !HasId(db.rows, rec.generatedId.value) then Insert(db, rec)
    else
      var rows := ReplaceById(db.rows, rec);
      var i :| 0 <= i < |db.rows| && db.rows[i].generatedId == rec.generatedId;
      assert rows[i] == rec;
      Db(rows, db.nextId)
  }

  /** Some record of `recs` names the identity `id`. */
  predicate Touches(recs: seq<Record>, id: Option<int>) {
    exists k :: 0 <= k < |recs| && recs[k].generatedId == id
  }

  /** `saveRecords`: the upserts one after another. */
  function SaveAll(db: Db, recs: seq<Record>): (r: Db)
    requires Valid(db)
    ensures Valid(r)
    ensures |recs| == 0 ==> r == db
    ensures r.nextId >= db.nextId
    ensures |r.rows| >= |db.rows|
    ensures forall i :: 0 <= i < |db.rows| && !Touches(recs, db.rows[i].generatedId) ==> r.rows[i] == db.rows[i]
    decreases |recs|
  {
    if |recs| == 0 then db else SaveAll(Save(db, recs[0]), recs[1..])
  }

  /** What the upserts of `recs` make of the stored row `row` with identity
      `id`: each record naming that identity replaces it in turn. */
  function LastWith(recs: seq<Record>, id: Option<int>, row: Record): Record
    decreases |recs|
  {
    if |recs| == 0 then row
    else LastWith(recs[1..], id, if recs[0].generatedId == id then recs[0] else row)
  }

  /** A record `save` persists rather than merges: no identity, or one that
      is not stored. */
  predicate IsNew(rows: seq<Record>, rec: Record) {
    rec.generatedId.None? || !HasId(rows, rec.generatedId.value)
  }

  /** The rows the upserts append: the new records in order, with the
      identities the generator hands out from `next` on. */
  function Inserted(rows: seq<Record>, recs: seq<Record>, next: int): seq<Record>
    decreases |recs|
  {
    if |recs| == 0 then []
    else if IsNew(rows, recs[0]) then [recs[0].(generatedId := Some(next))] + Inserted(rows, recs[1..], next + 1)
    else Inserted(rows, recs[1..], next)
  }

  /** `saveRecords` keeps every stored row in its place, replaced by the
      last argument that names its identity; when every identity given is
      below the generator, the rows after them are the new arguments in
      order under fresh identities, and the generator advanced once per
      new argument. */
  lemma {:induction false} SaveAllLaw(db: Db, recs: seq<Record>)
    requires Valid(db)
    ensures var r := SaveAll(db, recs);
      && |r.rows| >= |db.rows|
      && forall i :: 0 <= i < |db.rows| ==> r.rows[i] == LastWith(recs, db.rows[i].generatedId, db.rows[i])
    ensures (forall k :: 0 <= k < |recs| && recs[k].generatedId.Some? ==> recs[k].generatedId.value < db.nextId) ==>
      var r := SaveAll(db, recs);
      && r.rows[|db.rows|..] == Inserted(db.rows, recs, db.nextId)
      && r.nextId == db.nextId + |Inserted(db.rows, recs, db.nextId)|
    decreases |recs|
  {
    if |recs| > 0 {
      var x := recs[0];
      var rest := recs[1..];
      var db1 := Save(db, x);
      var r := SaveAll(db, recs);
      assert r == SaveAll(db1, rest);
      SaveAllLaw(db1, rest);
      SaveStepKeepsRows(db, x, rest);
      if forall k :: 0 <= k < |recs| && recs[k].generatedId.Some? ==> recs[k].generatedId.value < db.nextId {
        assert forall k :: 0 <= k < |rest| ==> rest[k] == recs[k + 1];
        SaveStepAppends(db, x, rest);
      }
    }
  }

  /** One upsert followed by the rest leaves each stored row as the whole
      batch would. */
  lemma SaveStepKeepsRows(db: Db, x: Record, rest: seq<Record>)
    requires Valid(db)
    ensures var db1 := Save(db, x);
      && |db1.rows| >= |db.rows|
      && forall i :: 0 <= i < |db.rows| ==>
           db1.rows[i].generatedId == db.rows[i].generatedId
           && LastWith(rest, db1.rows[i].generatedId, db1.rows[i]) == LastWith([x] + rest, db.rows[i].generatedId, db.rows[i])
  {
    var recs := [x] + rest;
    assert recs[0] == x && recs[1..] == rest;
    var db1 := Save(db, x);
    if IsNew(db.rows, x) {
      forall i | 0 <= i < |db.rows| ensures x.generatedId != db.rows[i].generatedId {
        if x.generatedId.Some? {
          assert !HasId(db.rows, x.generatedId.value);
        }
      }
    }
  }

  /** With every identity of the batch below the generator, one upsert
      followed by the rest appends what the whole batch would. */
  lemma SaveStepAppends(db: Db, x: Record, rest: seq<Record>)
    requires Valid(db)
    requires x.generatedId.Some? ==> x.generatedId.value < db.nextId
    requires forall k :: 0 <= k < |rest| && rest[k].generatedId.Some? ==> rest[k].generatedId.value < db.nextId
    requires var db1 := Save(db, x);
      var r := SaveAll(db1, rest);
      && |r.rows| >= |db1.rows|
      && (forall i :: 0 <= i < |db1.rows| ==> r.rows[i] == LastWith(rest, db1.rows[i].generatedId, db1.rows[i]))
      && r.rows[|db1.rows|..] == Inserted(db1.rows, rest, db1.nextId)
      && r.nextId == db1.nextId + |Inserted(db1.rows, rest, db1.nextId)|
    ensures var r := SaveAll(Save(db, x), rest);
      && r.rows[|db.rows|..] == Inserted(db.rows, [x] + rest, db.nextId)
      && r.nextId == db.nextId + |Inserted(db.rows, [x] + rest, db.nextId)|
  {
    var recs := [x] + rest;
    assert recs[0] == x && recs[1..] == rest;
    var db1 := Save(db, x);
    SameNewness(db, x, rest);
    InsertedCongruence(db1.rows, db.rows, rest, db1.nextId);
    if IsNew(db.rows, x) {
      assert Inserted(db.rows, recs, db.nextId) == [x.(generatedId := Some(db.nextId))] + Inserted(db.rows, rest, db.nextId + 1);
      SaveStepAppendsNew(db, x, rest);
    } else {
      assert Inserted(db.rows, recs, db.nextId) == Inserted(db.rows, rest, db.nextId);
    }
  }

  /** The first record of the batch is new: it is the first row appended,
      and no later record touches it. */
  lemma SaveStepAppendsNew(db: Db, x: Record, rest: seq<Record>)
    requires Valid(db) && IsNew(db.rows, x)
    requires forall k :: 0 <= k < |rest| && rest[k].generatedId.Some? ==> rest[k].generatedId.value < db.nextId
    requires var db1 := Save(db, x);
      var r := SaveAll(db1, rest);
      && |r.rows| >= |db1.rows|
      && (forall i :: 0 <= i < |db1.rows| ==> r.rows[i] == LastWith(rest, db1.rows[i].generatedId, db1.rows[i]))
      && r.rows[|db1.rows|..] == Inserted(db.rows, rest, db1.nextId)
    ensures var r := SaveAll(Save(db, x), rest);
      r.rows[|db.rows|..] == [x.(generatedId := Some(db.nextId))] + Inserted(db.rows, rest, db.nextId + 1)
      && Save(db, x).nextId == db.nextId + 1
  {
    var db1 := Save(db, x);
    var r := SaveAll(db1, rest);
    var stored := x.(generatedId := Some(db.nextId));
    assert db1 == Insert(db, x);
    var n := |db.rows|;
    assert db1.rows[n] == stored;
    LastWithUntouched(rest, stored.generatedId, stored);
    assert r.rows[n] == LastWith(rest, db1.rows[n].generatedId, db1.rows[n]);
    HeadThenTail(r.rows, n);
  }

  lemma HeadThenTail(rows: seq<Record>, n: nat)
    requires n < |rows|
    ensures rows[n..] == [rows[n]] + rows[n + 1..]
  {
  }

  /** Below the generator, one upsert changes no record's newness. */
  lemma SameNewness(db: Db, x: Record, rest: seq<Record>)
    requires Valid(db)
    requires forall k :: 0 <= k < |rest| && rest[k].generatedId.Some? ==> rest[k].generatedId.value < db.nextId
    ensures forall k :: 0 <= k < |rest| ==> (IsNew(Save(db, x).rows, rest[k]) <==> IsNew(db.rows, rest[k]))
  {
    var db1 := Save(db, x);
    forall k, v | 0 <= k < |rest| && rest[k].generatedId == Some(v)
      ensures HasId(db1.rows, v) <==> HasId(db.rows, v)
    {
      if HasId(db.rows, v) {
        var i :| 0 <= i < |db.rows| && db.rows[i].generatedId == Some(v);
        assert db1.rows[i].generatedId == Some(v);
      }
      if HasId(db1.rows, v) {
        var i :| 0 <= i < |db1.rows| && db1.rows[i].generatedId == Some(v);
        if i < |db.rows| {
          assert db.rows[i].generatedId == Some(v);
        }
      }
    }
  }

  lemma {:induction false} InsertedCongruence(a: seq<Record>, b: seq<Record>, recs: seq<Record>, next: int)
    requires forall k :: 0 <= k < |recs| ==> (IsNew(a, recs[k]) <==> IsNew(b, recs[k]))
    ensures Inserted(a, recs, next) == Inserted(b, recs, next)
    decreases |recs|
  {
    if |recs| > 0 {
      assert forall k :: 0 <= k < |recs[1..]| ==> recs[1..][k] == recs[k + 1];
      InsertedCongruence(a, b, recs[1..], if IsNew(a, recs[0]) then next + 1 else next);
    }
  }

  lemma {:induction false} LastWithUntouched(recs: seq<Record>, id: Option<int>, row: Record)
    requires forall k :: 0 <= k < |recs| ==> recs[k].generatedId != id
    ensures LastWith(recs, id, row) == row
    decreases |recs|
  {
    if |recs| > 0 {
      assert forall k :: 0 <= k < |recs[1..]| ==> recs[1..][k] == recs[k + 1];
      LastWithUntouched(recs[1..], id, row);
    }
  }

  /** The saveRecords tests: over an empty table, two records without
      identity are stored in order under the first two identities. */
  lemma SaveTwoNew(nextId: int, a: Record, b: Record)
    requires a.generatedId.None? && b.generatedId.None?
    ensures SaveAll(Db([], nextId), [a, b]).rows == [a.(generatedId := Some(nextId)), b.(generatedId := Some(nextId + 1))]
  {
    assert [a, b][1..] == [b] && [b][1..] == [];
  }

  // ---------------------------------------------------------------------
  // Row predicates shared by both index variants

  /** Some row of `path` is not a directory. */
  predicate HasNonDirectory(rows: seq<Record>, path: string) {
    exists i :: 0 <= i < |rows| && rows[i].path == path && rows[i].kind != Directory
  }

  /** Some row of `path` lives in layer `layer`. */
  predicate HasLayerRow(rows: seq<Record>, layer: int, path: string) {
    exists i :: 0 <= i < |rows| && rows[i].path == path && rows[i].layerId == layer
  }

  predicate HasPath(rows: seq<Record>, path: string) {
    exists i :: 0 <= i < |rows| && rows[i].path == path
  }

  /** `after` is `before` plus new rows only: each a content-less directory
      in `layer` at one of `ps` that had no row in `layer` before, no two at
      the same path; and afterwards every `ps` has a row in `layer`. */
  predicate ExtendsWithDirectories(before: Db, after: Db, layer: int, ps: seq<string>) {
    && |before.rows| <= |after.rows| && after.rows[..|before.rows|] == before.rows
    && (forall i :: |before.rows| <= i < |after.rows| ==>
          && after.rows[i].layerId == layer && after.rows[i].kind == Directory && after.rows[i].content.None?
          && after.rows[i].path in ps && !HasLayerRow(before.rows, layer, after.rows[i].path))
    && (forall i, j :: |before.rows| <= i < j < |after.rows| ==> after.rows[i].path != after.rows[j].path)
    && (forall k :: 0 <= k < |ps| ==> HasLayerRow(after.rows, layer, ps[k]))
  }

  /** The stored rows other than the one with identity `id`, in table order. */
  function RemoveId(rows: seq<Record>, id: Option<int>): (r: seq<Record>)
    ensures forall x :: x in r <==> x in rows && x.generatedId != id
  {
    if |rows| == 0 then []
    else (if rows[0].generatedId == id then [] else [rows[0]]) + RemoveId(rows[1..], id)
  }

  lemma {:induction false} RemoveIdValid(db: Db, id: Option<int>)
    requires Valid(db)
    ensures Valid(Db(RemoveId(db.rows, id), db.nextId))
    decreases |db.rows|
  {
    if |db.rows| > 0 {
      var tail := Db(db.rows[1..], db.nextId);
      ValidTail(db);
      RemoveIdValid(tail, id);
      if db.rows[0].generatedId != id {
        ValidPrepend(db.rows[0], RemoveId(tail.rows, id), db.nextId);
      } else {
        assert RemoveId(db.rows, id) == RemoveId(tail.rows, id);
      }
    }
  }

  /** The rows after the first of a valid table form a valid table that
      does not reuse the first row's identity. */
  lemma ValidTail(db: Db)
    requires Valid(db) && |db.rows| > 0
    ensures Valid(Db(db.rows[1..], db.nextId))
    ensures forall y :: y in db.rows[1..] ==> y.generatedId != db.rows[0].generatedId
  {
    var tail := db.rows[1..];
    forall i | 0 <= i < |tail| ensures tail[i].generatedId.Some? && tail[i].generatedId.value < db.nextId {
      assert tail[i] == db.rows[i + 1];
    }
    forall i, j | 0 <= i < j < |tail| ensures tail[i].generatedId != tail[j].generatedId {
      assert tail[i] == db.rows[i + 1] && tail[j] == db.rows[j + 1];
    }
    forall y | y in tail ensures y.generatedId != db.rows[0].generatedId {
      var i :| 0 <= i < |tail| && tail[i] == y;
      assert db.rows[i + 1] == y;
    }
  }

  /** A row with a fresh, stored-below-the-counter identity may lead a
      valid table. */
  lemma ValidPrepend(x: Record, rows: seq<Record>, nextId: int)
    requires Valid(Db(rows, nextId))
    requires x.generatedId.Some? && x.generatedId.value < nextId
    requires forall y :: y in rows ==> y.generatedId != x.generatedId
    ensures Valid(Db([x] + rows, nextId))
  {
    var all := [x] + rows;
    forall i | 0 <= i < |all| ensures all[i].generatedId.Some? && all[i].generatedId.value < nextId {
      if i > 0 { assert all[i] == rows[i - 1]; }
    }
    forall i, j | 0 <= i < j < |all| ensures all[i].generatedId != all[j].generatedId {
      assert all[j] == rows[j - 1];
      if i > 0 { assert all[i] == rows[i - 1]; }
    }
  }

  /** Saving one new directory row in the layer extends by its path. */
  lemma ExtendsOne(db: Db, layer: int, q: string)
    requires Valid(db) && !HasLayerRow(db.rows, layer, q)
    ensures var next := Save(db, Record(None, layer, q, Directory, None));
      && next.rows == db.rows + [Record(Some(db.nextId), layer, q, Directory, None)]
      && ExtendsWithDirectories(db, next, layer, [q])
      && forall p :: HasLayerRow(db.rows, layer, p) ==> HasLayerRow(next.rows, layer, p)
  {
    var rec := Record(Some(db.nextId), layer, q, Directory, None);
    var next := Save(db, Record(None, layer, q, Directory, None));
    assert next.rows[..|db.rows|] == db.rows;
    assert HasLayerRow(next.rows, layer, [q][0]) by { assert next.rows[|db.rows|] == rec; }
    forall p | HasLayerRow(db.rows, layer, p) ensures HasLayerRow(next.rows, layer, p) {
      var i :| 0 <= i < |db.rows| && db.rows[i].path == p && db.rows[i].layerId == layer;
      assert next.rows[i] == db.rows[i];
    }
  }

  /** A directory row leaves the non-directory paths as they were. */
  lemma DirectoryKeepsNonDirectory(rows: seq<Record>, rec: Record)
    requires rec.kind == Directory
    ensures forall p :: HasNonDirectory(rows + [rec], p) <==> HasNonDirectory(rows, p)
  {
    var all := rows + [rec];
    forall p | HasNonDirectory(all, p) ensures HasNonDirectory(rows, p) {
      var i :| 0 <= i < |all| && all[i].path == p && all[i].kind != Directory;
      assert i < |rows| && all[i] == rows[i];
    }
    forall p | HasNonDirectory(rows, p) ensures HasNonDirectory(all, p) {
      var i :| 0 <= i < |rows| && rows[i].path == p && rows[i].kind != Directory;
      assert all[i] == rows[i];
    }
  }

  /** Extending by the first prefix and then by the rest extends by all. */
  lemma ExtendsCompose(db: Db, mid: Db, after: Db, layer: int, ps: seq<string>)
    requires |ps| > 0
    requires ExtendsWithDirectories(db, mid, layer, [ps[0]])
    requires ExtendsWithDirectories(mid, after, layer, ps[1..])
    requires forall p :: HasLayerRow(db.rows, layer, p) ==> HasLayerRow(mid.rows, layer, p)
    ensures ExtendsWithDirectories(db, after, layer, ps)
  {
    assert after.rows[..|db.rows|] == db.rows by {
      assert after.rows[..|db.rows|] == after.rows[..|mid.rows|][..|db.rows|];
    }
    forall i | |db.rows| <= i < |after.rows|
      ensures after.rows[i].layerId == layer && after.rows[i].kind == Directory && after.rows[i].content.None?
      ensures after.rows[i].path in ps && !HasLayerRow(db.rows, layer, after.rows[i].path)
    {
      if i < |mid.rows| {
        assert after.rows[i] == after.rows[..|mid.rows|][i] == mid.rows[i];
      }
    }
    forall i, j | |db.rows| <= i < j < |after.rows| ensures after.rows[i].path != after.rows[j].path {
      if i < |mid.rows| {
        assert after.rows[i] == after.rows[..|mid.rows|][i] == mid.rows[i];
        if j >= |mid.rows| {
          assert mid.rows[i].path == ps[0];
          assert HasLayerRow(mid.rows, layer, ps[0]) by {
            assert [ps[0]][0] == ps[0];
          }
        }
      }
    }
    forall k | 0 <= k < |ps| ensures HasLayerRow(after.rows, layer, ps[k]) {
      if k == 0 {
        assert [ps[0]][0] == ps[0];
        var i :| 0 <= i < |mid.rows| && mid.rows[i].path == ps[0] && mid.rows[i].layerId == layer;
        assert after.rows[i] == after.rows[..|mid.rows|][i];
      } else {
        assert ps[k] == ps[1..][k - 1];
      }
    }
  }

  // ---------------------------------------------------------------------
  // The shadowing rule

  /** `r` carries the greatest layer among the rows for its path. */
  predicate IsNewest(rows: seq<Record>, r: Record) {
    forall o :: o in rows && o.path == r.path ==> o.layerId <= r.layerId
  }

  /** The intended rule: per distinct path keep the rows of the greatest layer. */
  function Shadow(rows: seq<Record>): seq<Record> {
    Filter(rows, (r: Record) => IsNewest(rows, r))
  }

  /** `layer` is one of the per-path maxima `SELECT MAX(layerId) ... GROUP BY path`. */
  predicate IsPathMaximum(rows: seq<Record>, layer: int) {
    exists m :: m in rows && IsNewest(rows, m) && m.layerId == layer
  }

  /** The rule as the queries state it: keep every row whose layer is IN the
      set of per-path maxima, whatever path that maximum belongs to. */
  function LiteralFilter(rows: seq<Record>): seq<Record> {
    Filter(rows, (r: Record) => IsPathMaximum(rows, r.layerId))
  }

  /** Every path that has rows has a newest row. */
  lemma NewestExists(rows: seq<Record>, path: string)
    requires exists r :: r in rows && r.path == path
    ensures exists m :: m in rows && m.path == path && IsNewest(rows, m)
  {
    var r :| r in rows && r.path == path;
    var m := NewestOf(rows, r);
  }

  /** A newest row of the path of a given row, found by induction on the
      table. */
  lemma {:induction false} NewestOf(rows: seq<Record>, r: Record) returns (m: Record)
    requires r in rows
    ensures m in rows && m.path == r.path && IsNewest(rows, m)
    decreases |rows|
  {
    var tail := rows[1..];
    assert rows == [rows[0]] + tail;
    if !exists o :: o in tail && o.path == r.path {
      m := rows[0];
      NewestAlone(rows);
    } else {
      var o :| o in tail && o.path == r.path;
      var n := NewestOf(tail, o);
      if rows[0].path == r.path && rows[0].layerId > n.layerId {
        m := rows[0];
        NewestOverTail(rows, n);
      } else {
        m := n;
        NewestOfTail(rows, n);
      }
    }
  }

  lemma NewestAlone(rows: seq<Record>)
    requires |rows| > 0 && !exists o :: o in rows[1..] && o.path == rows[0].path
    ensures IsNewest(rows, rows[0])
  {
    assert rows == [rows[0]] + rows[1..];
  }

  lemma NewestOverTail(rows: seq<Record>, n: Record)
    requires |rows| > 0 && n in rows[1..] && n.path == rows[0].path && IsNewest(rows[1..], n)
    requires rows[0].layerId > n.layerId
    ensures IsNewest(rows, rows[0])
  {
    assert rows == [rows[0]] + rows[1..];
  }

  lemma NewestOfTail(rows: seq<Record>, n: Record)
    requires |rows| > 0 && n in rows[1..] && IsNewest(rows[1..], n)
    requires rows[0].path == n.path ==> rows[0].layerId <= n.layerId
    ensures IsNewest(rows, n)
  {
    forall o | o in rows && o.path == n.path ensures o.layerId <= n.layerId {
      if o != rows[0] { assert o in rows[1..]; }
    }
  }

  /** The shadowing law: per distinct path the result holds exactly the rows
      of the greatest layer holding that path, and at least one of them. */
  lemma ShadowLaw(rows: seq<Record>)
    ensures forall r :: r in Shadow(rows) <==> r in rows && IsNewest(rows, r)
    ensures forall r :: r in rows ==> exists m :: m in Shadow(rows) && m.path == r.path
    ensures forall a, b :: a in Shadow(rows) && b in Shadow(rows) && a.path == b.path ==> a.layerId == b.layerId
  {
    forall r | r in rows ensures exists m :: m in Shadow(rows) && m.path == r.path {
      NewestExists(rows, r.path);
    }
  }

  /** The literal filter never loses a row the intended rule keeps. */
  lemma ShadowWithinLiteral(rows: seq<Record>)
    ensures forall r :: r in Shadow(rows) ==> r in LiteralFilter(rows)
  {
  }

  /** The two rules agree exactly when no stale row sits in a layer that is
      the maximum of some other path. */
  lemma LiteralAgreement(rows: seq<Record>)
    ensures LiteralFilter(rows) == Shadow(rows) <==>
      forall r :: r in rows && IsPathMaximum(rows, r.layerId) ==> IsNewest(rows, r)
  {
    if forall r :: r in rows && IsPathMaximum(rows, r.layerId) ==> IsNewest(rows, r) {
      FilterCongruence(rows, (r: Record) => IsPathMaximum(rows, r.layerId), (r: Record) => IsNewest(rows, r));
    }
  }

  /** Over the rows of a single path (the `isContentStoredInDatabase` subquery)
      the literal filter is the intended one. */
  lemma LiteralAgreesOnOnePath(rows: seq<Record>, path: string)
    requires forall r :: r in rows ==> r.path == path
    ensures LiteralFilter(rows) == Shadow(rows)
  {
    LiteralAgreement(rows);
  }

  /** `a@1, a@2, b@1`: the literal filter lists `a` twice, since layer 1 is
      the maximum for `b`. */
  lemma LiteralCounterexample()
    ensures var a1 := Record(Some(1), 1, "a", File, None);
            var a2 := Record(Some(2), 2, "a", File, None);
            var b1 := Record(Some(3), 1, "b", File, None);
            var rows := [a1, a2, b1];
            && a1 in LiteralFilter(rows) && a2 in LiteralFilter(rows)
            && a1 !in Shadow(rows)
  {
    var a1 := Record(Some(1), 1, "a", File, None);
    var a2 := Record(Some(2), 2, "a", File, None);
    var b1 := Record(Some(3), 1, "b", File, None);
    var rows := [a1, a2, b1];
    assert IsNewest(rows, b1);
    assert IsPathMaximum(rows, 1);
    assert IsNewest(rows, a2);
    assert !IsNewest(rows, a1) by { assert a2 in rows; }
  }
}

=== FILE: zip_archive.dfy ===
/** `ZipArchive`: packing a staging directory into a zip file by a
    pre-order walk, and unpacking it again.  The zip codec and the byte
    streams are abstracted: an entry carries its name, whether it is a
    directory, and its bytes. */
module Zip {
  import opened Outcomes
  import JavaStrings
  import opened JavaPaths
  import opened FileTrees
  import Files

  /** A zip entry.  commons-compress stores a directory entry's name with a
      trailing '/', which `isDirectory` stands for here. */
  datatype Entry = Entry(name: string, isDirectory: bool, data: Bytes)

  /** The zip file's entries once it has been written, and the `archived` flag. */
  datatype ZipArchive = ZipArchive(zip: Option<seq<Entry>>, archived: bool)

  /** A newly constructed archive: no zip file yet, not archived. */
  function Fresh(): (r: ZipArchive)
    ensures !r.archived && r.zip.None?
  {
    ZipArchive(None, false)
  }

  // ---------------------------------------------------------------------
  // archiveFrom

  /** `addFileToZipStream(file, base)`: the entry of the file or directory
      itself, then, for a directory, the entries of its contents under the
      entry name plus '/'. */
  function NodeEntries(n: Node, base: string): (r: seq<Entry>)
    decreases n
  {
    var entryName := base + n.name;
    match n
    case FileNode(_, content) => [Entry(entryName, false, content)]
    case DirNode(_, children) => [Entry(entryName, true, [])] + ForestEntries(children, entryName + "/")
  }

  function ForestEntries(nodes: seq<Node>, base: string): (r: seq<Entry>)
    decreases nodes
  {
    if |nodes| == 0 then [] else NodeEntries(nodes[0], base) + ForestEntries(nodes[1..], base)
  }

  /** `archiveFrom(stagingDir)`: `staging` is what `listFiles()` returns for
      the staging directory (`None` when it is not a directory).  The write
      of entry `failAt` fails with an `IOException` when `failAt` is given
      and in range; the zip file then holds the entries written before it
      and the flag is left as it was. */
  function ArchiveFrom(z: ZipArchive, staging: Option<seq<Node>>, failAt: Option<nat>): (ZipArchive, Option<Exception>) {
    var entries := if staging.Some? then ForestEntries(staging.value, "") else [];
    if failAt.Some? && failAt.value < |entries| then
      (ZipArchive(Some(entries[..failAt.value]), z.archived), Some(IOFailure("write failed")))
    else (ZipArchive(Some(entries), true), None)
  }

  /** The flag is set exactly when the whole pass succeeds; a failing pass
      leaves it as it was and the zip file with a strict prefix of the
      entries. */
  lemma ArchiveFromLaw(z: ZipArchive, staging: Option<seq<Node>>, failAt: Option<nat>)
    ensures var (z', err) := ArchiveFrom(z, staging, failAt);
      var entries := if staging.Some? then ForestEntries(staging.value, "") else [];
      && (err.None? <==> !(failAt.Some? && failAt.value < |entries|))
      && (err.None? ==> z'.archived && z'.zip == Some(entries))
      && (err.Some? ==> z'.archived == z.archived && z'.zip.Some? && |z'.zip.value| < |entries|
                        && z'.zip.value == entries[..|z'.zip.value|])
  {
  }

  /** One entry per file and per directory below the staging directory, and
      none for the staging directory itself. */
  lemma {:induction false} ForestEntriesCount(nodes: seq<Node>, base: string)
    ensures |ForestEntries(nodes, base)| == Count(nodes)
    decreases nodes
  {
    if |nodes| > 0 {
      NodeEntriesCount(nodes[0], base);
      ForestEntriesCount(nodes[1..], base);
    }
  }

  lemma {:induction false} NodeEntriesCount(n: Node, base: string)
    ensures |NodeEntries(n, base)| == CountNode(n)
    decreases n
  {
    if n.DirNode? {
      ForestEntriesCount(n.children, base + n.name + "/");
    }
  }

  // ---------------------------------------------------------------------
  // Entry names

  /** The `base` argument for the entries of the directory at `prefix`. */
  function BaseOf(prefix: seq<string>): string {
    if |prefix| == 0 then "" else JavaStrings.Join(prefix) + "/"
  }

  /** An entry name is its path's names joined with '/' and parses back to
      them. */
  lemma EntryName(prefix: seq<string>, name: string)
    requires ProperPath(prefix) && ProperName(name)
    ensures BaseOf(prefix) + name == JavaStrings.Join(prefix + [name])
    ensures BaseOf(prefix) + name + "/" == BaseOf(prefix + [name])
    ensures Parse(BaseOf(prefix) + name).names == prefix + [name]
  {
    var p := prefix + [name];
    if |prefix| == 0 {
      assert p == [name];
    } else {
      JavaStrings.JoinSnoc(prefix, name);
    }
    assert ProperNames(p) by {
      forall i | 0 <= i < |p| ensures p[i] != "" && '/' !in p[i] {
        if i < |prefix| { assert p[i] == prefix[i]; }
      }
    }
    ParseShow(JPath(false, p));
    assert Show(JPath(false, p)) == JavaStrings.Join(p);
  }

  // ---------------------------------------------------------------------
  // unarchiveTo

  /** One step of the `unarchiveTo` loop; the name is resolved as a
      relative path below the target. */
  function Extract(fs: Fs, e: Entry): Result<Fs> {
    var p := Parse(e.name).names;
    if e.isDirectory then Files.CreateDirectories(fs, p)
    else
      var parent := if |p| == 0 then [] else p[..|p| - 1];
      var fs' :- Files.CreateDirectories(fs, parent);
      Files.CopyNew(fs', p, e.data)
  }

  /** The file system after the loop, and the failure that stopped it. */
  datatype Extracted = Extracted(fs: Fs, failure: Option<Exception>)

  function ExtractAll(fs: Fs, entries: seq<Entry>): Extracted
    decreases |entries|
  {
    if |entries| == 0 then Extracted(fs, None)
    else match Extract(fs, entries[0])
      case Err(e) => Extracted(fs, Some(e))
      case Ok(fs') => ExtractAll(fs', entries[1..])
  }

  /** `unarchiveTo(stagingDir)`: any I/O failure, a missing zip file
      included, is rethrown as a `RuntimeException` "Could not unarchive
      zip file"; only a complete pass clears the flag. */
  function UnarchiveTo(z: ZipArchive, fs: Fs): (ZipArchive, Extracted) {
    if z.zip.None? then (z, Extracted(fs, Some(Runtime("Could not unarchive zip file"))))
    else
      var x := ExtractAll(fs, z.zip.value);
      if x.failure.Some? then (z, Extracted(x.fs, Some(Runtime("Could not unarchive zip file"))))
      else (z.(archived := false), x)
  }

  lemma {:induction false} ExtractAllAppend(fs: Fs, a: seq<Entry>, b: seq<Entry>)
    ensures ExtractAll(fs, a + b) ==
      (var x := ExtractAll(fs, a); if x.failure.Some? then x else ExtractAll(x.fs, b))
    decreases |a|
  {
    if |a| == 0 {
      assert a + b == b;
    } else {
      assert (a + b)[0] == a[0] && (a + b)[1..] == a[1..] + b;
      if Extract(fs, a[0]).Ok? {
        ExtractAllAppend(Extract(fs, a[0]).value, a[1..], b);
      }
    }
  }

  /** Creating the directory `p` directly below the existing `prefix`
      keeps every directory on the way to `p` in place. */
  lemma DirsExtend(fs: Fs, prefix: seq<string>, p: seq<string>)
    requires DirsUpTo(fs, prefix) && |p| == |prefix| + 1 && p[..|prefix|] == prefix
    ensures DirsUpTo(fs[p := Dir], p)
  {
    forall i | 0 <= i <= |p| ensures p[..i] in fs[p := Dir] && fs[p := Dir][p[..i]] == Dir {
      if i < |p| {
        assert p[..i] == prefix[..i];
        assert |p[..i]| < |p|;
      } else {
        assert p[..i] == p;
      }
    }
  }

  /** Nothing lies below a new directory whose name was free. */
  lemma FreeBelowNew(fs: Fs, prefix: seq<string>, p: seq<string>, names: set<string>)
    requires |p| == |prefix| + 1 && p[..|prefix|] == prefix
    requires FreeFor(fs, prefix, {p[|prefix|]})
    ensures FreeFor(fs[p := Dir], p, names)
  {
    forall k | k in fs && |k| > |p| ensures k[..|p|] != p {
      assert k[..|p|][..|prefix|] == k[..|prefix|];
      assert k[..|p|][|prefix|] == k[|prefix|];
    }
  }

  lemma UpdateThenMerge(fs: Fs, p: seq<string>, below: Fs)
    requires p !in below
    ensures fs[p := Dir] + below == fs + below[p := Dir]
  {
  }

  lemma MergeAssoc(a: Fs, b: Fs, c: Fs)
    ensures (a + b) + c == a + (b + c)
  {
  }

  /** Extracting one file's entry below an existing directory adds the file. */
  lemma ExtractFile(fs: Fs, name: string, content: Bytes, prefix: seq<string>)
    requires ProperName(name) && ProperPath(prefix)
    requires DirsUpTo(fs, prefix) && prefix + [name] !in fs
    ensures ExtractAll(fs, NodeEntries(FileNode(name, content), BaseOf(prefix)))
         == Extracted(fs + ToFsNode(FileNode(name, content), prefix), None)
  {
    var p := prefix + [name];
    var e := Entry(BaseOf(prefix) + name, false, content);
    EntryName(prefix, name);
    assert p[..|p| - 1] == prefix;
    Files.CreateExisting(fs, prefix);
    assert prefix[..|prefix|] == prefix;
    assert Extract(fs, e) == Ok(fs[p := Regular(content)]);
    assert NodeEntries(FileNode(name, content), BaseOf(prefix)) == [e];
    assert [e][1..] == [];
    assert fs[p := Regular(content)] == fs + map[p := Regular(content)];
  }

  /** Extracting one node's entries below an existing directory `prefix`
      whose path is free adds exactly that node's files and directories. */
  lemma {:induction false} ExtractNode(fs: Fs, n: Node, prefix: seq<string>)
    requires WellFormedNode(n) && ProperName(n.name) && ProperPath(prefix)
    requires DirsUpTo(fs, prefix) && FreeFor(fs, prefix, {n.name})
    ensures ExtractAll(fs, NodeEntries(n, BaseOf(prefix))) == Extracted(fs + ToFsNode(n, prefix), None)
    decreases n, 1
  {
    var p := prefix + [n.name];
    assert p[..|prefix|] == prefix && p[|prefix|] == n.name;
    assert p !in fs by {
      if p in fs { assert Below(p, prefix); }
    }
    match n
    case FileNode(_, content) =>
      ExtractFile(fs, n.name, content, prefix);
    case DirNode(_, children) =>
      var fs1 := fs[p := Dir];
      var below := ToFs(children, p);
      var entries := NodeEntries(n, BaseOf(prefix));
      EntryName(prefix, n.name);
      assert p[..|p| - 1] == prefix;
      Files.CreateExisting(fs, prefix);
      assert Extract(fs, entries[0]) == Ok(fs1);
      assert entries[1..] == ForestEntries(children, BaseOf(p));
      DirsExtend(fs, prefix, p);
      FreeBelowNew(fs, prefix, p, Names(children));
      ProperSnoc(prefix, n.name);
      ExtractForest(fs1, children, p);
      UpdateThenMerge(fs, p, below);
  }

  /** Adding paths strictly below `prefix` keeps the directories up to it. */
  lemma DirsUpToBelow(fs: Fs, extra: Fs, prefix: seq<string>)
    requires DirsUpTo(fs, prefix) && forall k :: k in extra ==> Below(k, prefix)
    ensures DirsUpTo(fs + extra, prefix)
  {
    forall i | 0 <= i <= |prefix| ensures prefix[..i] in fs + extra && (fs + extra)[prefix[..i]] == Dir {
      assert prefix[..i] !in extra;
    }
  }

  /** Adding one entry's paths keeps the other entries' paths free. */
  lemma FreeForRest(fs: Fs, first: Fs, prefix: seq<string>, name: string, names: set<string>)
    requires FreeFor(fs, prefix, {name} + names) && name !in names
    requires forall k :: k in first ==> Below(k, prefix) && k[..|prefix| + 1] == prefix + [name]
    ensures FreeFor(fs + first, prefix, names)
  {
    forall k | k in fs + first && Below(k, prefix) ensures k[|prefix|] !in names {
      if k in first {
        assert k[|prefix|] == k[..|prefix| + 1][|prefix|];
      }
    }
  }

  /** Extracting a well-formed forest's entries below an existing
      directory `prefix` whose entries' paths are free adds exactly the
      forest's files and directories. */
  lemma {:induction false} ExtractForest(fs: Fs, nodes: seq<Node>, prefix: seq<string>)
    requires WellFormed(nodes) && ProperPath(prefix)
    requires DirsUpTo(fs, prefix) && FreeFor(fs, prefix, Names(nodes))
    ensures ExtractAll(fs, ForestEntries(nodes, BaseOf(prefix))) == Extracted(fs + ToFs(nodes, prefix), None)
    decreases nodes, 0
  {
    if |nodes| == 0 {
      assert fs + map[] == fs;
    } else {
      var first := ToFsNode(nodes[0], prefix);
      WellFormedTail(nodes);
      NamesCons(nodes);
      ExtractNode(fs, nodes[0], prefix);
      ExtractFirstNode(fs, nodes, prefix);
      ExtractForest(fs + first, nodes[1..], prefix);
      ForestAfterFirst(fs, nodes, prefix);
    }
  }

  /** Once the first node is extracted, what is left is the rest of the
      forest over a file system that still has room for it. */
  lemma ExtractFirstNode(fs: Fs, nodes: seq<Node>, prefix: seq<string>)
    requires |nodes| > 0 && nodes[0].name !in Names(nodes[1..])
    requires DirsUpTo(fs, prefix) && FreeFor(fs, prefix, {nodes[0].name} + Names(nodes[1..]))
    requires ExtractAll(fs, NodeEntries(nodes[0], BaseOf(prefix))) == Extracted(fs + ToFsNode(nodes[0], prefix), None)
    ensures var fs1 := fs + ToFsNode(nodes[0], prefix);
      && DirsUpTo(fs1, prefix) && FreeFor(fs1, prefix, Names(nodes[1..]))
      && ExtractAll(fs, ForestEntries(nodes, BaseOf(prefix))) == ExtractAll(fs1, ForestEntries(nodes[1..], BaseOf(prefix)))
  {
    var first := ToFsNode(nodes[0], prefix);
    ExtractAllAppend(fs, NodeEntries(nodes[0], BaseOf(prefix)), ForestEntries(nodes[1..], BaseOf(prefix)));
    DirsUpToBelow(fs, first, prefix);
    FreeForRest(fs, first, prefix, nodes[0].name, Names(nodes[1..]));
  }

  lemma ForestAfterFirst(fs: Fs, nodes: seq<Node>, prefix: seq<string>)
    requires |nodes| > 0
    ensures (fs + ToFsNode(nodes[0], prefix)) + ToFs(nodes[1..], prefix) == fs + ToFs(nodes, prefix)
  {
    var first := ToFsNode(nodes[0], prefix);
    var rest := ToFs(nodes[1..], prefix);
    assert ToFs(nodes, prefix) == first + rest;
    MergeAssoc(fs, first, rest);
  }

  /** The file system of an empty directory. */
  function EmptyDir(): (r: Fs)
    ensures [] in r && r[[]] == Dir && |r| == 1
  {
    map[[] := Dir]
  }

  /** Round trip: archiving a well-formed staging directory and unarchiving
      into an empty directory reproduces every path with its type and
      bytes, and nothing else, and clears the flag. */
  lemma RoundTrip(z: ZipArchive, staging: seq<Node>)
    requires WellFormed(staging)
    ensures var (archived, _) := ArchiveFrom(z, Some(staging), None);
      UnarchiveTo(archived, EmptyDir()) == (ZipArchive(Some(ForestEntries(staging, "")), false), Extracted(EmptyDir() + ToFs(staging, []), None))
  {
    var root: seq<string> := [];
    assert DirsUpTo(EmptyDir(), root) by { assert root[..0] == root; }
    ExtractForest(EmptyDir(), staging, []);
  }

  // ---------------------------------------------------------------------
  // Pre-order

  /** The names an entry name resolves to. */
  function EntryPath(e: Entry): seq<string> {
    Parse(e.name).names
  }

  /** Some directory entry before position `j` is the parent of entry `j`. */
  predicate ParentBefore(entries: seq<Entry>, j: nat)
    requires j < |entries|
  {
    var q := EntryPath(entries[j]);
    |q| > 0 && exists i :: 0 <= i < j && entries[i].isDirectory && EntryPath(entries[i]) == q[..|q| - 1]
  }

  /** Every nested entry comes after its parent directory's entry, and
      every entry is a nested entry of `prefix`. */
  predicate ParentsFirst(entries: seq<Entry>, prefix: seq<string>) {
    forall j :: 0 <= j < |entries| ==>
      && Below(EntryPath(entries[j]), prefix)
      && (|EntryPath(entries[j])| > |prefix| + 1 ==> ParentBefore(entries, j))
  }

  lemma ParentsFirstAppend(a: seq<Entry>, b: seq<Entry>, prefix: seq<string>)
    requires ParentsFirst(a, prefix) && ParentsFirst(b, prefix)
    ensures ParentsFirst(a + b, prefix)
  {
    var ab := a + b;
    forall j | 0 <= j < |ab|
      ensures Below(EntryPath(ab[j]), prefix)
      ensures |EntryPath(ab[j])| > |prefix| + 1 ==> ParentBefore(ab, j)
    {
      if j < |a| {
        assert ab[j] == a[j];
        if |EntryPath(a[j])| > |prefix| + 1 {
          ParentInFront(a, b, j);
        }
      } else {
        assert ab[j] == b[j - |a|];
        if |EntryPath(b[j - |a|])| > |prefix| + 1 {
          ParentBehind(a, b, j);
        }
      }
    }
  }

  lemma ParentInFront(a: seq<Entry>, b: seq<Entry>, j: nat)
    requires j < |a| && ParentBefore(a, j)
    ensures ParentBefore(a + b, j)
  {
    var q := EntryPath(a[j]);
    var i :| 0 <= i < j && a[i].isDirectory && EntryPath(a[i]) == q[..|q| - 1];
    assert (a + b)[i] == a[i] && (a + b)[j] == a[j];
  }

  lemma ParentBehind(a: seq<Entry>, b: seq<Entry>, j: nat)
    requires |a| <= j < |a| + |b| && ParentBefore(b, j - |a|)
    ensures ParentBefore(a + b, j)
  {
    var q := EntryPath(b[j - |a|]);
    var i :| 0 <= i < j - |a| && b[i].isDirectory && EntryPath(b[i]) == q[..|q| - 1];
    assert (a + b)[|a| + i] == b[i] && (a + b)[j] == b[j - |a|];
  }

  lemma ParentBehindTail(es: seq<Entry>, k: nat)
    requires 0 < |es| && k < |es| - 1 && ParentBefore(es[1..], k)
    ensures ParentBefore(es, k + 1)
  {
    var q := EntryPath(es[1..][k]);
    var i :| 0 <= i < k && es[1..][i].isDirectory && EntryPath(es[1..][i]) == q[..|q| - 1];
    assert es[1..][i] == es[i + 1] && es[1..][k] == es[k + 1];
  }

  /** Each directory's entry precedes the entries of its contents. */
  lemma {:induction false} ForestPreOrder(nodes: seq<Node>, prefix: seq<string>)
    requires WellFormed(nodes) && ProperPath(prefix)
    ensures ParentsFirst(ForestEntries(nodes, BaseOf(prefix)), prefix)
    decreases nodes, 0
  {
    if |nodes| > 0 {
      WellFormedTail(nodes);
      NodePreOrder(nodes[0], prefix);
      ForestPreOrder(nodes[1..], prefix);
      ParentsFirstAppend(NodeEntries(nodes[0], BaseOf(prefix)), ForestEntries(nodes[1..], BaseOf(prefix)), prefix);
    }
  }

  lemma {:induction false} NodePreOrder(n: Node, prefix: seq<string>)
    requires WellFormedNode(n) && ProperName(n.name) && ProperPath(prefix)
    ensures ParentsFirst(NodeEntries(n, BaseOf(prefix)), prefix)
    ensures |NodeEntries(n, BaseOf(prefix))| > 0 && EntryPath(NodeEntries(n, BaseOf(prefix))[0]) == prefix + [n.name]
    decreases n, 1
  {
    var p := prefix + [n.name];
    var es := NodeEntries(n, BaseOf(prefix));
    EntryName(prefix, n.name);
    assert Below(p, prefix) by { assert p[..|prefix|] == prefix; }
    if n.DirNode? {
      var rest := ForestEntries(n.children, BaseOf(p));
      ProperSnoc(prefix, n.name);
      ForestPreOrder(n.children, p);
      assert es == [es[0]] + rest;
      DirectoryFirst(es[0], rest, prefix, p);
    }
  }

  /** A directory's entry followed by its contents' entries, ordered
      parents first below the directory, is ordered parents first below
      the directory's parent. */
  lemma DirectoryFirst(d: Entry, rest: seq<Entry>, prefix: seq<string>, p: seq<string>)
    requires d.isDirectory && EntryPath(d) == p && |p| == |prefix| + 1 && p[..|prefix|] == prefix
    requires ParentsFirst(rest, p)
    ensures ParentsFirst([d] + rest, prefix)
  {
    var es := [d] + rest;
    forall j | 0 <= j < |es|
      ensures Below(EntryPath(es[j]), prefix)
      ensures |EntryPath(es[j])| > |prefix| + 1 ==> ParentBefore(es, j)
    {
      if j > 0 {
        NestedEntry(es, rest, prefix, p, j);
      }
    }
  }

  lemma NestedEntry(es: seq<Entry>, rest: seq<Entry>, prefix: seq<string>, p: seq<string>, j: nat)
    requires |es| == |rest| + 1 && es[1..] == rest && 0 < j < |es|
    requires es[0].isDirectory && EntryPath(es[0]) == p && |p| == |prefix| + 1 && p[..|prefix|] == prefix
    requires ParentsFirst(rest, p)
    ensures Below(EntryPath(es[j]), prefix)
    ensures |EntryPath(es[j])| > |prefix| + 1 ==> ParentBefore(es, j)
  {
    var k := j - 1;
    assert es[j] == rest[k];
    var q := EntryPath(rest[k]);
    assert Below(q, p) && (|q| > |p| + 1 ==> ParentBefore(rest, k));
    BelowParentIsBelow(q, p, prefix);
    if |q| > |p| + 1 {
      ParentBehindTail(es, k);
    } else if |q| == |p| + 1 {
      ChildOfFirst(es, j);
    }
  }

  lemma BelowParentIsBelow(q: seq<string>, p: seq<string>, prefix: seq<string>)
    requires Below(q, p) && |p| == |prefix| + 1 && p[..|prefix|] == prefix
    ensures Below(q, prefix)
  {
    assert q[..|prefix|] == q[..|p|][..|prefix|];
  }

  /** An entry one level below the first entry, a directory, has it as parent. */
  lemma ChildOfFirst(es: seq<Entry>, j: nat)
    requires 0 < j < |es| && es[0].isDirectory
    requires var q := EntryPath(es[j]); var p := EntryPath(es[0]);
      |q| == |p| + 1 && q[..|p|] == p
    ensures ParentBefore(es, j)
  {
    var q := EntryPath(es[j]);
    assert q[..|q| - 1] == EntryPath(es[0]);
  }

  // ---------------------------------------------------------------------
  // getInputStreamFor

  /** `getInputStreamFor(path)`: the stream of the first entry whose stored
      name is `path`.  A directory entry is stored under its name followed
      by '/', so `d/` finds directory `d` and reads an empty stream, while
      `d` does not; no match gives a `null` stream, `None` here. */
  function InputStreamFor(entries: seq<Entry>, name: string): (r: Option<Bytes>)
    ensures r.Some? ==> exists i :: 0 <= i < |entries| && EntryNamed(entries[i], name) && StreamOf(entries[i]) == r.value
                                    && forall j :: 0 <= j < i ==> !EntryNamed(entries[j], name)
    ensures r.None? <==> forall i :: 0 <= i < |entries| ==> !EntryNamed(entries[i], name)
    decreases |entries|
  {
    if |entries| == 0 then None
    else if EntryNamed(entries[0], name) then
      Some(StreamOf(entries[0]))
    else
      var r := InputStreamFor(entries[1..], name);
      assert forall i :: 0 < i < |entries| ==> entries[i] == entries[1..][i - 1];
      if r.Some? then
        var i :| 0 <= i < |entries[1..]| && EntryNamed(entries[1..][i], name) && StreamOf(entries[1..][i]) == r.value
                 && forall j :: 0 <= j < i ==> !EntryNamed(entries[1..][j], name);
        assert forall j :: 0 <= j < i + 1 ==> !EntryNamed(entries[j], name) by {
          forall j | 0 <= j < i + 1 ensures !EntryNamed(entries[j], name) {
            if j > 0 { assert entries[j] == entries[1..][j - 1]; }
          }
        }
        assert EntryNamed(entries[i + 1], name) && StreamOf(entries[i + 1]) == r.value;
        r
      else r
  }

  /** An entry stored under the name `name`: a file under its own name, a
      directory under its name and a trailing '/'. */
  predicate EntryNamed(e: Entry, name: string) {
    if e.isDirectory then name == e.name + "/" else name == e.name
  }

  /** The bytes an entry's stream yields: none for a directory. */
  function StreamOf(e: Entry): Bytes {
    if e.isDirectory then [] else e.data
  }

  /** A directory `d` holding a file `f` is read as an empty stream under
      `d/`, is not found under `d`, and its file is read under `d/f`. */
  lemma DirectoryEntryRead()
    ensures var es := ForestEntries([DirNode("d", [FileNode("f", [1])])], "");
      && es == [Entry("d", true, []), Entry("d/f", false, [1])]
      && InputStreamFor(es, "d/") == Some([])
      && InputStreamFor(es, "d") == None
      && InputStreamFor(es, "d/f") == Some([1])
  {
    var es := ForestEntries([DirNode("d", [FileNode("f", [1])])], "");
    assert "" + "d" == "d" && "d" + "/" == "d/" && "d/" + "f" == "d/f";
    assert NodeEntries(FileNode("f", [1]), "d/") == [Entry("d/f", false, [1])];
    assert ForestEntries([FileNode("f", [1])], "d/") == [Entry("d/f", false, [1])];
    assert es == [Entry("d", true, []), Entry("d/f", false, [1])];
    assert "d/f" != "d/" && "d/f" != "d" && "d" + "/" != "d" && "d" + "/" != "d/f";
  }

  /** A lookup in two runs of entries finds the first run's match if it
      has one, and otherwise looks in the second. */
  lemma {:induction false} InputStreamForAppend(a: seq<Entry>, b: seq<Entry>, name: string)
    ensures InputStreamFor(a + b, name) == (if InputStreamFor(a, name).Some? then InputStreamFor(a, name) else InputStreamFor(b, name))
    decreases |a|
  {
    if |a| == 0 {
      assert a + b == b;
    } else {
      assert (a + b)[0] == a[0] && (a + b)[1..] == a[1..] + b;
      InputStreamForAppend(a[1..], b, name);
    }
  }

  /** Every entry of `es` lies at or below `p`. */
  predicate EntriesAt(es: seq<Entry>, p: seq<string>) {
    forall i :: 0 <= i < |es| ==> |EntryPath(es[i])| >= |p| && EntryPath(es[i])[..|p|] == p
  }

  /** Every entry written for a node lies at or below the node's path. */
  lemma NodeEntriesUnder(n: Node, prefix: seq<string>)
    requires WellFormedNode(n) && ProperName(n.name) && ProperPath(prefix)
    ensures EntriesAt(NodeEntries(n, BaseOf(prefix)), prefix + [n.name])
  {
    var p := prefix + [n.name];
    var es := NodeEntries(n, BaseOf(prefix));
    NodePreOrder(n, prefix);
    EntryName(prefix, n.name);
    assert EntryPath(es[0])[..|p|] == p;
    if n.DirNode? {
      ProperSnoc(prefix, n.name);
      var rest := ForestEntries(n.children, BaseOf(p));
      ForestPreOrder(n.children, p);
      assert es == [es[0]] + rest;
      BelowIsAt(rest, p);
      EntriesAtCons(es[0], rest, p);
    }
  }

  /** Entries nested below `p` lie at or below it. */
  lemma BelowIsAt(es: seq<Entry>, p: seq<string>)
    requires ParentsFirst(es, p)
    ensures EntriesAt(es, p)
  {
    forall i | 0 <= i < |es| ensures |EntryPath(es[i])| >= |p| && EntryPath(es[i])[..|p|] == p {
      assert Below(EntryPath(es[i]), p);
    }
  }

  lemma EntriesAtCons(e: Entry, es: seq<Entry>, p: seq<string>)
    requires EntriesAt(es, p) && |EntryPath(e)| >= |p| && EntryPath(e)[..|p|] == p
    ensures EntriesAt([e] + es, p)
  {
    forall i | 0 < i < |[e] + es| ensures |EntryPath(([e] + es)[i])| >= |p| && EntryPath(([e] + es)[i])[..|p|] == p {
      assert ([e] + es)[i] == es[i - 1];
    }
  }

  /** A file of a well-formed node is read back from the node's entries
      under its joined path. */
  lemma {:induction false} NodeEntriesRead(n: Node, prefix: seq<string>, q: seq<string>, c: Bytes)
    requires WellFormedNode(n) && ProperName(n.name) && ProperPath(prefix)
    requires q in ToFsNode(n, prefix) && ToFsNode(n, prefix)[q] == Regular(c)
    ensures InputStreamFor(NodeEntries(n, BaseOf(prefix)), JavaStrings.Join(q)) == Some(c)
    decreases n, 1
  {
    var p := prefix + [n.name];
    EntryName(prefix, n.name);
    match n
    case FileNode(_, content) =>
      assert q == p;
    case DirNode(_, children) =>
      ProperSnoc(prefix, n.name);
      assert q != p;
      assert q in ToFs(children, p);
      NodeEntriesReadChildren(n, prefix, q, c);
  }

  lemma {:induction false} NodeEntriesReadChildren(n: Node, prefix: seq<string>, q: seq<string>, c: Bytes)
    requires n.DirNode? && WellFormedNode(n) && ProperName(n.name) && ProperPath(prefix)
    requires ProperPath(prefix + [n.name])
    requires q in ToFs(n.children, prefix + [n.name]) && ToFs(n.children, prefix + [n.name])[q] == Regular(c)
    ensures InputStreamFor(NodeEntries(n, BaseOf(prefix)), JavaStrings.Join(q)) == Some(c)
    decreases n, 0
  {
    var p := prefix + [n.name];
    EntryName(prefix, n.name);
    var rest := ForestEntries(n.children, BaseOf(p));
    var es := NodeEntries(n, BaseOf(prefix));
    assert es == [Entry(BaseOf(prefix) + n.name, true, [])] + rest;
    assert es[1..] == rest;
    ToFsProper(n.children, p);
    DirectoryMisses(es[0], q);
    ForestEntriesRead(n.children, p, q, c);
  }

  /** A file of a well-formed forest is read back from the forest's
      entries under its joined path: entry names are distinct paths. */
  lemma {:induction false} ForestEntriesRead(nodes: seq<Node>, prefix: seq<string>, q: seq<string>, c: Bytes)
    requires WellFormed(nodes) && ProperPath(prefix)
    requires q in ToFs(nodes, prefix) && ToFs(nodes, prefix)[q] == Regular(c)
    ensures InputStreamFor(ForestEntries(nodes, BaseOf(prefix)), JavaStrings.Join(q)) == Some(c)
    decreases nodes, 0
  {
    WellFormedTail(nodes);
    var n := nodes[0];
    var a := NodeEntries(n, BaseOf(prefix));
    var b := ForestEntries(nodes[1..], BaseOf(prefix));
    var first := ToFsNode(n, prefix);
    var rest := ToFs(nodes[1..], prefix);
    assert ForestEntries(nodes, BaseOf(prefix)) == a + b;
    InputStreamForAppend(a, b, JavaStrings.Join(q));
    assert ToFs(nodes, prefix) == first + rest;
    if q in rest {
      assert rest[q] == Regular(c);
      ForestEntriesRead(nodes[1..], prefix, q, c);
      ToFsProper(nodes[1..], prefix);
      assert q[|prefix|] in Names(nodes[1..]);
      OtherNodeMisses(n, prefix, q);
    } else {
      assert first[q] == Regular(c);
      NodeEntriesRead(n, prefix, q, c);
    }
  }

  /** The entries of a node do not name a path whose name at the node's
      depth is another one. */
  lemma OtherNodeMisses(n: Node, prefix: seq<string>, q: seq<string>)
    requires WellFormedNode(n) && ProperName(n.name) && ProperPath(prefix)
    requires ProperPath(q) && |q| > |prefix| && q[|prefix|] != n.name
    ensures InputStreamFor(NodeEntries(n, BaseOf(prefix)), JavaStrings.Join(q)) == None
  {
    var p := prefix + [n.name];
    NodeEntriesUnder(n, prefix);
    assert ProperNames(q);
    ParseJoin(q);
    assert q[..|p|][|prefix|] == q[|prefix|] && p[|prefix|] == n.name;
    EntriesMiss(NodeEntries(n, BaseOf(prefix)), p, q);
  }

  /** A lookup misses every path that does not lie where the entries lie. */
  lemma EntriesMiss(a: seq<Entry>, p: seq<string>, q: seq<string>)
    requires EntriesAt(a, p) && ProperPath(q) && Parse(JavaStrings.Join(q)).names == q
    requires !(|q| >= |p| && q[..|p|] == p)
    ensures InputStreamFor(a, JavaStrings.Join(q)) == None
  {
    forall i | 0 <= i < |a| ensures !EntryNamed(a[i], JavaStrings.Join(q)) {
      if a[i].isDirectory {
        DirectoryMisses(a[i], q);
      } else {
        assert EntryPath(a[i])[..|p|] == p;
      }
    }
  }

  /** A directory entry is stored under a name ending in '/', which the
      joined names of a proper path never do. */
  lemma DirectoryMisses(e: Entry, q: seq<string>)
    requires e.isDirectory && ProperPath(q)
    ensures !EntryNamed(e, JavaStrings.Join(q))
  {
    JoinNoTrailingSlash(q);
    var s := e.name + "/";
    assert s[|s| - 1] == '/';
  }

  lemma {:induction false} JoinNoTrailingSlash(q: seq<string>)
    requires ProperPath(q)
    ensures var s := JavaStrings.Join(q); s == "" || s[|s| - 1] != '/'
    decreases |q|
  {
    var s := JavaStrings.Join(q);
    if |q| == 1 {
      assert s == q[0] && s[|s| - 1] in q[0];
    } else if |q| > 1 {
      var t := JavaStrings.Join(q[1..]);
      assert ProperPath(q[1..]) by {
        forall i | 0 <= i < |q[1..]| ensures ProperName(q[1..][i]) { assert q[1..][i] == q[i + 1]; }
      }
      JoinNoTrailingSlash(q[1..]);
      assert ProperName(q[1]) && q[1] == q[1..][0];
      assert t != "" by {
        if |q[1..]| == 1 { assert t == q[1]; } else { assert t == q[1] + "/" + JavaStrings.Join(q[2..]) by { assert q[1..][1..] == q[2..]; } }
      }
      assert s == q[0] + "/" + t;
      assert s[|s| - 1] == t[|t| - 1];
    }
  }

  // ---------------------------------------------------------------------
  // The staging directory of the archive tests

  /** `file1`, and `path/to/file2` and `path/to/file3`. */
  function TestStaging(): seq<Node> {
    [FileNode("file1", [1]), DirNode("path", [DirNode("to", [FileNode("file2", [2]), FileNode("file3", [3])])])]
  }

  /** Three files and two directories give five entries, named by their
      paths below the staging directory, each directory's first. */
  lemma TestStagingEntries()
    ensures ForestEntries(TestStaging(), "") == [
      Entry("file1", false, [1]), Entry("path", true, []), Entry("path/to", true, []),
      Entry("path/to/file2", false, [2]), Entry("path/to/file3", false, [3])]
    ensures |ForestEntries(TestStaging(), "")| == 5
  {
    var path := DirNode("path", [DirNode("to", [FileNode("file2", [2]), FileNode("file3", [3])])]);
    PathEntries();
    assert "" + "file1" == "file1";
    assert ForestEntries([path], "") == NodeEntries(path, "") by { assert [path][1..] == []; }
    assert TestStaging()[1..] == [path];
  }

  lemma PathEntries()
    ensures NodeEntries(DirNode("path", [DirNode("to", [FileNode("file2", [2]), FileNode("file3", [3])])]), "") == [
      Entry("path", true, []), Entry("path/to", true, []),
      Entry("path/to/file2", false, [2]), Entry("path/to/file3", false, [3])]
  {
    var to := DirNode("to", [FileNode("file2", [2]), FileNode("file3", [3])]);
    ToEntries();
    assert "" + "path" == "path" && "path" + "/" == "path/";
    assert ForestEntries([to], "path/") == NodeEntries(to, "path/") by { assert [to][1..] == []; }
  }

  lemma ToEntries()
    ensures NodeEntries(DirNode("to", [FileNode("file2", [2]), FileNode("file3", [3])]), "path/") == [
      Entry("path/to", true, []), Entry("path/to/file2", false, [2]), Entry("path/to/file3", false, [3])]
  {
    var f2 := FileNode("file2", [2]);
    var f3 := FileNode("file3", [3]);
    assert "path/" + "to" == "path/to" && "path/to" + "/" == "path/to/";
    assert "path/to/" + "file2" == "path/to/file2" && "path/to/" + "file3" == "path/to/file3";
    assert ForestEntries([f3], "path/to/") == NodeEntries(f3, "path/to/") by { assert [f3][1..] == []; }
    assert ForestEntries([f2, f3], "path/to/") == NodeEntries(f2, "path/to/") + ForestEntries([f3], "path/to/") by {
      assert [f2, f3][1..] == [f3];
    }
  }
}
